=== FILE: README.md ===
# Campus forum: a Dafny model of its decision logic

The campus forum is a Django REST back end with an Angular front end. Students,
professors and administrators post in categories, comment on posts and report
posts or comments. Professors and administrators are the moderators. They manage
categories and review, resolve or dismiss reports. This project models the
forum's rules in Dafny and proves what they guarantee. The rules covered are:

- who may do what;
- what each listing shows to whom;
- how categories, posts and reports change status;
- what the serializers accept;
- what the statistics endpoints count;
- how the front end decides to attach the access token and build picture URLs.

The database is a value `Store.State`: one finite map from ids to records per
table. `Store.Db` is a class holding the same tables. Every view action that
writes is modelled in two parts:

- a pure `…Step` function from the state and the request to a response and the
  state left behind;
- a method on `Db`. The method changes the tables in place, and its `ensures`
  ties the response and the new tables to that function.

The properties of the forum are lemmas about the `…Step` functions. Among them,
every write keeps `Store.Consistent`, which holds the following integrity rules:

- e-mail addresses are unique;
- category names are unique;
- every post, comment and category points to existing rows, and so does every
  report's `reported_by` and `reviewed_by`; a report's post or comment may be
  gone once resolve has deleted the reported content (see
  "## Left out");
- every saved report passes `full_clean`.

A request passes through the following stages, as in Django REST framework:

1. The permission class of the action. An anonymous caller is refused with 401
   and a member with 403.
2. The lookup through the filtered queryset (404).
3. The object permission.
4. The body of the action.

Timestamps are whole seconds. The current time is a parameter, and so are:

- the query parameters;
- the validity of a front-end token;
- the configured base URLs.

Strings are sequences of characters. Case-insensitive matching lower-cases ASCII
letters only. Every text the serializers read through a `CharField` (titles,
contents, category names and descriptions, report reasons, the registration
fields) is stripped of surrounding whitespace before it is checked, and the
stripped text is what is saved; `Text.Strip` removes the characters Python's
`str.isspace` accepts.

## Model

| member | source | states |
|---|---|---|
| AccountsModels.RoleCode | accounts/models.py:35-38 | The stored code is one of ADMIN, PROFESSOR and STUDENT. |
| AccountsModels.RoleCodeInjective | accounts/models.py:35-38 | Each of the three roles has its own stored code (ADMIN, PROFESSOR, STUDENT). |
| AccountsModels.FullName | accounts/models.py:72-76 | The full name is the first name, then one space, then the last name. The part before the space is the short name. |
| AccountsModels.NewUser | accounts/models.py:40-57 | A new user has the e-mail, the password and the time given. Each of role, `is_active`, `is_staff`, `is_superuser`, first name and last name takes the value passed, or else the model default: STUDENT, active, not staff, not superuser, and empty names. There is no picture. |
| AccountsModels.SuperuserFields | accounts/models.py:18-27 | Staff, superuser, ADMIN and active are filled in when absent. The call fails with a ValueError exactly when staff or superuser was passed as False. |
| AccountsManager.CreateUserStep | accounts/models.py:9-16 | An empty e-mail raises ValueError and saves nothing. An e-mail whose normalized form is already in use breaks the unique constraint and saves nothing. Otherwise exactly one new row, holding the normalized e-mail and the defaults, is added under an unused id. |
| AccountsManager.NormalizeEmail | accounts/models.py:12 | `normalize_email`: an address without "@" once stripped is kept as given. Otherwise the result is the stripped address with its domain lower-cased. A non-empty address stays non-empty. |
| AccountsManager.LowerDomain | accounts/models.py:12 | The length is kept. Everything up to the last "@" is kept, and everything after it is lower-cased. |
| AccountsManager.NormalizeIgnoresDomainCase | accounts/models.py:12 | Two addresses without surrounding whitespace that differ only in the case of their domain are stored as the same address. |
| AccountsManager.NormalizeTrimmed | accounts/models.py:12 | An address without surrounding whitespace that holds an "@" only has its domain lower-cased. |
| AccountsManager.DomainSplit | accounts/models.py:12 | The domain of `name@d`, with no "@" in `d`, is `d`: it alone is lower-cased, whatever `name` holds. |
| AccountsManager.CreateSuperuserStep | accounts/models.py:18-29 | The arguments are checked and filled in, then the user is created as `create_user` does. |
| AccountsManager.PlainUserDefaults | accounts/models.py:43-48 | A user created without extra fields is an active STUDENT who is neither staff nor superuser. |
| AccountsManager.SuperuserFlags | accounts/models.py:12-22 | A created superuser is staff and superuser, with the normalized e-mail. Unless told otherwise it is also an active ADMIN. |
| AccountsManager.SuperuserFlagsChecked | accounts/models.py:24-27 | A staff or superuser flag of False is refused with ValueError and nothing is saved. |
| AccountsManager.CreateUserConsistent | accounts/models.py:40 | Creating a user keeps e-mail addresses unique and keeps every integrity rule. |
| AccountsManager.CreateUser | accounts/models.py:9-16 | The method on the database does what `CreateUserStep` says. |
| AccountsManager.CreateSuperuser | accounts/models.py:18-29 | The method on the database does what `CreateSuperuserStep` says. |
| AccountSerializers.ProfilePictureUrl | accounts/serializers.py:41-55 | There is no URL exactly when there is no picture. With a request, the request's origin comes before the media URL. Without a request, BASE_URL comes before it, or "http://localhost:8001" when BASE_URL is not set. |
| AccountSerializers.Serialize | accounts/serializers.py:26-39 | The user representation holds the id, e-mail, first and last name, the full name, the role code, the picture URL and the read-only `date_joined` and `is_active`, each taken from the user. |
| AccountSerializers.RegisterValidate | accounts/serializers.py:78-90 | Mismatched passwords fail first, with the key `password`. A role of ADMIN then fails with the key `role`. Accepted data comes back unchanged. |
| AccountSerializers.RegistrationRoles | accounts/serializers.py:85-88 | When the passwords match, validation passes exactly for an omitted role, PROFESSOR or STUDENT. |
| AccountSerializers.OmittedRolePasses | accounts/serializers.py:85 | An omitted role passes validation. |
| AccountSerializers.RegisterStep | accounts/serializers.py:58-96 | The field checks run first: any failing field gives 400 with exactly the failing keys and saves nothing. Then `validate` runs on the stripped data; its error is answered and nothing is saved. Otherwise the stripped data is handed to `create_user`. |
| AccountSerializers.RegisterFieldErrors | accounts/serializers.py:61-76 | Each of `email`, `first_name`, `last_name`, `password` and `password2` is reported exactly when its own check fails. The e-mail fails when it is blank once stripped, longer than 254 characters, or already used by a user. A name fails when it is blank once stripped or longer than 150 characters. A password fails when it is blank once stripped. |
| AccountSerializers.Cleaned | accounts/serializers.py:61-76 | The validated data is every text field stripped of surrounding whitespace, with the role unchanged. |
| AccountSerializers.RegisterOutcome | accounts/serializers.py:58-96 | A failed registration saves nothing. It fails with a 400 validation error, or else with the unique constraint on `email`, and the latter only when the normalized e-mail is already stored. The non-empty check runs first, so `create_user` never raises ValueError. It succeeds exactly when the field checks and `validate` pass and the normalized e-mail is unused. |
| AccountSerializers.DomainCaseClashRaises | accounts/serializers.py:68-96 | An e-mail that passes the field checks, because no stored address equals it exactly, still ends in the unique constraint error when its normalized form is stored (e.g. `x@A.com` beside `x@a.com`). Nothing is saved. |
| AccountSerializers.UsedEmailRefused | accounts/serializers.py:68-76 | An e-mail that, stripped, belongs to an existing user is refused with the key `email` and saves nothing, whatever the passwords and the role. |
| AccountSerializers.CreateArgs | accounts/serializers.py:92-95 | The fields passed on to `create_user` are the names and the role. The two passwords are not among them. |
| AccountSerializers.RegisteredUser | accounts/serializers.py:92-96 | A registered user is an active user who is never ADMIN, staff or superuser. The stored password is the stripped password, which equals the stripped confirmation. The stored names are the ones sent, stripped. The stored e-mail is the one sent, stripped and then normalized. |
| AccountSerializers.Register | accounts/serializers.py:58-96 | The method runs the field checks and `validate`, then creates the user, as `RegisterStep` says. |
| AccountSerializers.AssignedWritesSupplied | accounts/serializers.py:106-110 | Each supplied field among first_name, last_name and profile_picture gets its value. A field not supplied keeps its value. Nothing else changes, in particular `date_joined` and `is_active`. |
| AccountSerializers.Assign | accounts/serializers.py:107-108 | One `setattr` of a profile field leaves e-mail, role, password, flags and `date_joined` as they were. |
| AccountSerializers.AssignedKeepsAccount | accounts/serializers.py:106-110 | No sequence of profile assignments changes the e-mail, role, password, flags or `date_joined`. |
| AccountSerializers.UpdateProfile | accounts/serializers.py:106-110 | The `setattr` loop leaves the user as the supplied assignments say. Only that user's row is written. |
| AccountSerializers.UpdateProfileConsistent | accounts/serializers.py:106-110 | A profile update keeps every integrity rule. |
| CategoryPermissions.HasPermission | categories/permissions.py:7-10 | An anonymous caller is denied. ADMIN and PROFESSOR are allowed and STUDENT is denied. The decision depends on the role only. |
| ReportPermissions.HasPermission | back/reports/permissions.py:7-10 | An anonymous caller is denied. Among members, exactly the non-students are allowed. |
| ReportPermissions.SameAsIsAdminOrProfessor | back/reports/permissions.py:7-10 | `IsModerator` gives the same answer as `IsAdminOrProfessor` for every principal. |
| PostPermissions.HasObjectPermission | posts/permissions.py:7-19 | Safe methods, the author and moderators are allowed. A non-author student or an anonymous caller using an unsafe method is denied. |
| Access.Gate | categories/views.py:18-25 | The gate passes exactly when the permission allows the caller. A refusal is 401 for an anonymous caller and 403 for a member. |
| Access.ObjectGate | posts/permissions.py:7-19 | The object check passes exactly when the object permission allows the caller. A refusal is 401 for an anonymous caller and 403 for a member. |
| Access.ModeratorGate | categories/permissions.py:7-10 | The moderator permissions let exactly ADMIN and PROFESSOR through. |
| CategorySerializers.ValidateName | categories/serializers.py:18-26 | A name is accepted exactly when, stripped of surrounding whitespace, it is non-empty, at most 100 characters and not used by another category. The accepted value is the stripped name. |
| CategorySerializers.CreateRefusesExistingName | categories/serializers.py:23-25 | On create, a name that is an existing category's name once stripped is refused. |
| CategorySerializers.UpdateMayKeepOwnName | categories/serializers.py:20-22 | On update, a category may keep its own name. |
| CategorySerializers.AcceptedNameStaysUnique | back/categories/models.py:12 | Writing an accepted name keeps category names unique. |
| CategorySerializers.Serialize | categories/serializers.py:5-16 | The representation carries the category's id, name, description, status, creator and `created_at`. `posts_count` counts the PUBLISHED posts only. |
| CategoryViews.PermissionFor | categories/views.py:18-25 | list and retrieve are public. The seven writing actions need ADMIN or PROFESSOR. Everything else needs a login. |
| CategoryViews.Queryset | categories/views.py:27-37 | With `status`, the listing is exactly the categories with that status. Without it, moderators see every category and other callers see every category except the ARCHIVED ones. |
| CategoryViews.StatusFilterIgnoresRole | categories/views.py:29-31 | With `status`, the listing is the same for every caller. |
| CategoryViews.DefaultListing | categories/views.py:32-36 | Without `status`, ARCHIVED categories are hidden from anonymous callers and students, and shown to moderators. |
| CategoryViews.Lookup | categories/views.py:27-37 | An object action reaches the body exactly when the caller passes the gate and the category is in the filtered listing. Otherwise it gets 401, 403 or 404. |
| CategoryViews.ToggleStatusStep | categories/views.py:47-63 | Only the database as it was, or that database with the category's status changed, can result. |
| CategoryViews.ToggleBlockedByPublishedPosts | categories/views.py:51-57 | An ACTIVE category with a PUBLISHED post is refused and stays as it is. |
| CategoryViews.ToggleOutcome | categories/views.py:51-61 | Otherwise ACTIVE becomes INACTIVE and any other status, ARCHIVED included, becomes ACTIVE. |
| CategoryViews.ArchiveStep | categories/views.py:65-72 | After the gate and the lookup, the status becomes ARCHIVED whatever it was. |
| CategoryViews.ArchiveIdempotent | categories/views.py:65-72 | Archiving twice leaves the same database as archiving once. |
| CategoryViews.RestoreStep | categories/views.py:74-86 | After the gate and the lookup, which answer with their own error, restore succeeds exactly when the category is ARCHIVED. It then becomes ACTIVE and nothing else changes. A refusal changes nothing. |
| CategoryViews.RestoreRefusesOthers | categories/views.py:83-86 | Restoring a category that is not ARCHIVED is refused and changes nothing. |
| CategoryViews.DestroyStep | categories/views.py:88-102 | The category is removed exactly when the caller passes the gate and the lookup and the category has no post of any status. |
| CategoryViews.DestroyRefusedWithPosts | categories/views.py:91-101 | With posts, the delete is refused, reports how many posts there are, and changes nothing. |
| CategoryViews.ModeratorsOnly | categories/views.py:23-24 | For anyone but a moderator, toggle, archive, restore and destroy fail with 401 or 403 and change nothing. |
| CategoryViews.CreateStep | categories/views.py:44-45 | A caller other than a moderator gets 401 or 403. A moderator's create succeeds exactly when the name is sent and accepted. The new category has a fresh id, the stripped name, the stripped description or none, the given status or ACTIVE, the caller as `created_by` and now as `created_at`. Nothing else changes. |
| CategoryViews.UpdateStep | categories/serializers.py:18-26 | The gate and the lookup answer with their own error. A PUT without `name` gets 400 with the key `name`, because the model's name has neither a default nor `blank`. Otherwise the update succeeds exactly when no name is sent on a PATCH or the sent name is accepted for this category. It writes the stripped name, the stripped description and the status where they are sent, keeps `created_by` and `created_at`, and writes no other row. |
| CategoryViews.ToggleStatusConsistent | categories/views.py:47-63 | toggle_status keeps every integrity rule. |
| CategoryViews.ArchiveConsistent | categories/views.py:65-72 | archive keeps every integrity rule. |
| CategoryViews.RestoreConsistent | categories/views.py:74-86 | restore keeps every integrity rule. |
| CategoryViews.DestroyConsistent | categories/views.py:88-102 | destroy keeps every integrity rule, because a category that still has posts is never removed. |
| CategoryViews.CreateConsistent | categories/views.py:44-45 | create keeps every integrity rule. |
| CategoryViews.UpdateConsistent | categories/serializers.py:18-26 | update keeps every integrity rule. |
| CategoryViews.ToggleStatusAction | categories/views.py:47-63 | The method on the database does what `ToggleStatusStep` says. |
| CategoryViews.ArchiveAction | categories/views.py:65-72 | The method on the database does what `ArchiveStep` says. |
| CategoryViews.RestoreAction | categories/views.py:74-86 | The method on the database does what `RestoreStep` says. |
| CategoryViews.DestroyAction | categories/views.py:88-102 | The method on the database does what `DestroyStep` says. |
| CategoryViews.CreateAction | categories/views.py:44-45 | The method on the database does what `CreateStep` says. |
| CategoriesModels.NewCategory | back/categories/models.py:14-19 | A new category is ACTIVE unless a status is given, and keeps the given name and creator. |
| PostsModels.NewPost | posts/models.py:48-53 | A new post is a DRAFT unless a status is given. |
| PostSerializers.ValidateTitle | posts/serializers.py:52-55 | A title is accepted exactly when it is sent and, stripped of surrounding whitespace, has 5 to 200 characters. The accepted value is the stripped title. |
| PostSerializers.ValidateContent | posts/serializers.py:57-60 | Content is accepted exactly when it is sent and, stripped, has at least 20 characters. The accepted value is the stripped content. |
| PostSerializers.PaddingIgnored | posts/serializers.py:52-60 | Surrounding whitespace never changes whether a title or a content is accepted, nor the value kept. |
| PostSerializers.ValidateCategory | posts/serializers.py:36-41 | `category_id` accepts exactly an existing ACTIVE category. A missing one fails with the key `category_id`. |
| PostSerializers.ValidateTags | posts/serializers.py:44-50 | `tag_ids` is optional. When given, it must name existing tags. |
| PostSerializers.InputErrors | posts/serializers.py:36-60 | Each input key is reported exactly when its own check fails. |
| PostSerializers.Build | posts/serializers.py:62-66 | The saved post has the stripped title and content, the category and the tags sent (none when absent), the status sent or DRAFT, the caller as author and now as `created_at`. It respects the model's length bounds, belongs to an ACTIVE category and has only existing tags. |
| PostSerializers.Serialize | posts/serializers.py:15-29 | The representation carries the post's id, title, content, category, author, status, tags and `created_at`. `comments_count` is the number of comments on the post. |
| PostViews.PermissionFor | posts/views.py:17-26 | list and retrieve are public. update, partial_update and destroy use author-or-moderator. Every other action needs a login. |
| PostViews.TagPermissionFor | posts/views.py:112-117 | Listing tags is public. Every other tag action needs a login. |
| PostViews.Queryset | posts/views.py:34-61 | A post is listed exactly when three conditions hold. Its category matches when `category` is given. Its status matches `status` when that is given, and otherwise it is PUBLISHED unless the caller is a moderator. Its title or content contains `search`, ignoring case, when that is given. |
| PostViews.StatusVisibility | posts/views.py:45-52 | Without `status`, anonymous callers and students only get PUBLISHED posts. With it, they get exactly that status. |
| PostViews.SearchFilter | posts/views.py:55-59 | The case of the searched text does not matter. The search only narrows the listing. |
| PostViews.MyPostsOf | posts/views.py:68-77 | my_posts is the filtered listing restricted to the caller's own posts, each listed once, newest first. |
| PostViews.StudentsOwnDraftsHidden | posts/views.py:50-52 | Without `status`, a student's own DRAFT is absent from my_posts. |
| PostViews.Lookup | posts/views.py:34-61 | An object action reaches the body exactly when the caller passes the gate and the post is in the filtered listing. |
| PostViews.ChangeStatus | posts/views.py:79-103 | After the login gate and the lookup, the author or a moderator sets the target status. Anyone else gets 403. Only that post changes. |
| PostViews.PublishFromAnyStatus | posts/views.py:83-89 | publish by the author or a moderator succeeds from any status, ARCHIVED included. |
| PostViews.OthersDenied | posts/views.py:83-87 | A student who is not the author gets 403 from publish and archive, and the post is unchanged. |
| PostViews.HiddenPostsUnreachable | posts/views.py:82 | A post outside the filtered listing gives 404 to publish and archive. |
| PostViews.StudentsOwnDraftUnreachable | posts/views.py:50-52 | A student cannot publish their own DRAFT without a `status` parameter, because it is not found. |
| PostViews.ChangeStatusConsistent | posts/views.py:79-103 | publish and archive keep every integrity rule. |
| PostViews.CreateStep | posts/serializers.py:62-66 | An anonymous caller gets 401 and invalid input gets 400 with the failing keys. A member's valid input always succeeds: exactly one post is added under a fresh id, with the stripped title and content, the category, tags and status sent, the caller as author and now as `created_at`. |
| PostViews.CreateConsistent | posts/serializers.py:62-66 | create keeps every integrity rule. |
| PostViews.DestroyStep | posts/views.py:23-24 | The author or a moderator deletes the post together with its comments and reports. |
| PostViews.DestroyConsistent | posts/models.py:36-47 | Deleting a post keeps every integrity rule. |
| PostViews.ChangeStatusAction | posts/views.py:79-103 | The method on the database does what `ChangeStatus` says. |
| PostViews.PublishAction | posts/views.py:79-90 | The method on the database does what `PublishStep` says. |
| PostViews.ArchiveAction | posts/views.py:92-103 | The method on the database does what `ArchiveStep` says. |
| PostViews.CreateAction | posts/serializers.py:62-66 | The method on the database does what `CreateStep` says. |
| PostViews.DestroyAction | posts/views.py:23-24 | The method on the database does what `DestroyStep` says. |
| CommentSerializers.ValidateContent | comments/serializers.py:36-39 | A comment is accepted exactly when it is sent and, stripped, has at least 5 characters. The accepted value is the stripped content. |
| CommentSerializers.ValidatePost | comments/serializers.py:24-29 | `post_id` is required and accepts an existing post of any status. |
| CommentSerializers.InputErrors | comments/serializers.py:24-39 | Each input key is reported exactly when its own check fails. |
| CommentSerializers.Serialize | comments/serializers.py:8-15 | The representation carries the stored content, post, author and `created_at`. |
| CommentViews.PermissionFor | comments/views.py:24-27 | update, partial_update and destroy use author-or-moderator. Every other action needs a login. |
| CommentViews.Queryset | comments/views.py:15-22 | The listing holds exactly the comments of the given post, or all comments, each once and newest first. |
| CommentViews.ListStep | comments/views.py:13-22 | An anonymous caller gets 401. Anyone else gets the listing. |
| CommentViews.PostFilter | comments/views.py:17-20 | With `post`, the listing is exactly the comments on that post. |
| CommentViews.CreateStep | comments/views.py:34-40 | An anonymous caller gets 401 and invalid input gets 400 with the failing keys. A member's valid input always succeeds: exactly one comment is added under a fresh id, with the stripped content, the post sent, the caller as author and now as `created_at`. |
| CommentViews.AnyPostStatus | comments/serializers.py:21-29 | A comment of at least 5 characters once stripped, on an existing post, is accepted whatever the post's status. |
| CommentViews.CreateConsistent | comments/views.py:34-40 | create keeps every integrity rule. |
| CommentViews.DestroyStep | comments/views.py:24-27 | The author or a moderator deletes the comment together with its reports. |
| CommentViews.OthersCannotDestroy | posts/permissions.py:7-19 | A student who is not the author cannot delete a comment. |
| CommentViews.DestroyConsistent | comments/models.py:12-23 | Deleting a comment keeps every integrity rule. |
| CommentViews.CreateAction | comments/views.py:34-40 | The method on the database does what `CreateStep` says. |
| CommentViews.DestroyAction | comments/views.py:24-27 | The method on the database does what `DestroyStep` says. |
| ReportsModels.NewReport | back/reports/models.py:43-59 | A new report is PENDING, with no reviewer, no review time and no action. |
| ReportsModels.FullCleanErrors | back/reports/models.py:72-77 | `full_clean` fails exactly when a POST report has no post, a COMMENT report has no comment, or the reason is blank. |
| Store.SaveReportStep | back/reports/models.py:79-81 | A report is written only when `full_clean` passes. Otherwise nothing changes. |
| Store.SaveReportKeepsClean | back/reports/models.py:79-81 | A saved report always targets something of its type. |
| Store.Db.SaveReport | back/reports/models.py:79-81 | The method on the database does what `SaveReportStep` says. |
| Store.PostsCount | back/categories/models.py:38-40 | `posts_count` counts only the PUBLISHED posts of the category. |
| Store.CommentsCount | posts/models.py:75-77 | `comments_count` is the number of comments on the post. |
| Store.DeleteUser | back/reports/models.py:20-56 | Deleting a user removes the following rows, which CASCADE: their posts, the comments on those posts, their own comments, and the reports filed by them or targeting removed rows. `created_by` and `reviewed_by` are set to null. |
| Store.DeleteUserConsistent | back/categories/models.py:20-26 | Deleting a user keeps every integrity rule. Categories survive with `created_by` set to null. |
| Store.DeletePost | comments/models.py:12-17 | Deleting a post removes its comments and every report that targets either. |
| Store.DeletePostConsistent | comments/models.py:12-17 | Deleting a post keeps every integrity rule. |
| Store.DeleteComment | back/reports/models.py:34-41 | Deleting a comment removes the reports that target it. |
| Store.DeleteCommentConsistent | back/reports/models.py:34-41 | Deleting a comment keeps every integrity rule. |
| Store.RemovePost | reports/views.py:67-68 | Exactly the post and its comments are removed. Every other table, the reports included, is left as it was. |
| Store.RemoveComment | reports/views.py:71-72 | Exactly the comment is removed. Every other table is left as it was. |
| Store.UsersReplacedConsistent | accounts/models.py:40 | Rewriting the user table keeps every integrity rule, provided no user disappears and e-mail addresses stay unique. |
| Store.PostStatusConsistent | posts/models.py:22-25 | Changing a post's status keeps every integrity rule. |
| Store.PostStoredConsistent | posts/models.py:36-47 | Writing a post whose category, author and tags exist keeps every integrity rule. |
| Store.CommentStoredConsistent | comments/models.py:12-23 | Writing a comment whose post and author exist keeps every integrity rule. |
| Store.ReportStoredConsistent | back/reports/models.py:20-56 | Writing a report whose users exist and that passes `full_clean` keeps every integrity rule. |
| Store.RemovePostConsistent | reports/views.py:67-68 | Removing a post and its comments, with the reports left in place, keeps every integrity rule. |
| Store.RemoveCommentConsistent | reports/views.py:71-72 | Removing a comment, with the reports left in place, keeps every integrity rule. |
| Store.FreshId | posts/models.py:21 | A new row gets an id that is larger than every id in use. |
| ReportSerializers.FieldErrors | back/reports/serializers.py:80-91 | The field checks fail, each with its own key, exactly when `type` is missing, the reason is missing or blank once stripped, or `post_id` or `comment_id` names no row. |
| ReportSerializers.Validate | back/reports/serializers.py:93-98 | A POST report without a post fails with the key `post_id`. A COMMENT report without a comment fails with `comment_id`. Anything else comes back unchanged. |
| ReportSerializers.ValidateAgreesWithClean | reports/serializers.py:39-44 | `validate` accepts exactly the data whose report passes the model's `clean`. |
| ReportSerializers.CreateStep | back/reports/serializers.py:100-102 | The field errors, then the errors of `validate`, are answered with 400 and save nothing. Otherwise create always succeeds, because `full_clean` cannot fail on data `validate` accepted: one report is added under a fresh id with the type, post, comment and stripped reason sent, filed by the caller, PENDING with no reviewer, no review time and no action, whatever the client sent. |
| ReportSerializers.CreateConsistent | back/reports/serializers.py:100-102 | create keeps every integrity rule. |
| ReportSerializers.GetPost | back/reports/serializers.py:34-50 | The result is None when the report has no post or the post is gone. Otherwise it is the post's id, title and status. |
| ReportSerializers.GetComment | back/reports/serializers.py:52-72 | The result is None when the report has no comment or the comment is gone. Otherwise it is the comment's id, content, author and `created_at`. |
| ReportSerializers.Serialize | back/reports/serializers.py:22-72 | The representation carries the report's id, type, reporter, reason, status, reviewer, action, `created_at` and `reviewed_at` as stored. It has a post exactly when the report names a post that still exists, and a comment exactly when it names a comment that still exists. |
| ReportViews.PermissionFor | reports/views.py:36-39 | review, resolve and dismiss need a moderator. Everything else needs a login. |
| ReportViews.Visible | reports/views.py:16-32 | With `status`, a moderator sees exactly that status. Without it, a moderator sees PENDING and REVIEWED reports. Anyone else sees exactly the reports they filed. |
| ReportViews.StatusIgnoredForOthers | reports/views.py:30-32 | For a non-moderator, the `status` parameter changes nothing. |
| ReportViews.Queryset | reports/views.py:34 | The visible reports, newest first. |
| ReportViews.Lookup | reports/views.py:16-39 | An object action reaches the body exactly when the caller passes the gate and the report is in the caller's visible set. |
| ReportViews.Reviewed | reports/views.py:50-52 | The status, reviewer and time are set. Every other field is kept. |
| ReportViews.ReviewStep | reports/views.py:46-54 | The gate and the lookup answer with their own error. Otherwise review succeeds exactly when the report passes `full_clean`. The report becomes REVIEWED with the caller and now, keeps its `action_taken` and everything it was filed with, and no other row changes. A failure changes nothing. |
| ReportViews.ReviewOutcome | reports/views.py:47-54 | review sets REVIEWED, the caller and now, whatever the prior status, and leaves `action_taken` as it was. |
| ReportViews.ContentEffect | reports/views.py:62-72 | Users, categories, tags and reports are never changed by the effect of resolve on content. |
| ReportViews.ResolveStep | reports/views.py:56-80 | The gate and the lookup answer with their own error. Otherwise the archive or delete effect on the reported content is applied, and the save succeeds exactly when the report passes `full_clean`. The report becomes RESOLVED with the caller, now and the text (default ""), keeps everything it was filed with, and no other report changes. Users, categories and tags never change. |
| ReportViews.ResolveArchiveWins | reports/views.py:63-66 | When the text contains "archive", in any case, the reported post is ARCHIVED, even if the text also says "delete". |
| ReportViews.ResolveDeletesPost | reports/views.py:67-68 | Otherwise "delete" removes the post and its comments. |
| ReportViews.DeletedPostShownAsNone | back/reports/serializers.py:34-50 | After resolve has deleted the reported post, the report is RESOLVED and its representation has no post. |
| ReportViews.ResolveComment | reports/views.py:70-72 | The reported comment is removed exactly when the text contains "delete". Posts are untouched. |
| ReportViews.ResolveMarksReport | reports/views.py:74-78 | resolve leaves the report RESOLVED with the caller, now and the text (default ""), whatever the prior status. |
| ReportViews.DismissStep | reports/views.py:82-91 | The gate and the lookup answer with their own error. Otherwise dismiss succeeds exactly when the report passes `full_clean`. The report becomes DISMISSED with the caller, now and the text or "Reporte descartado", keeps everything it was filed with, and no other row changes. A failure changes nothing. |
| ReportViews.DismissLeavesContent | reports/views.py:86-89 | dismiss never touches posts or comments. |
| ReportViews.ClosedReportsOutOfReach | reports/views.py:27-29 | Without `status`, a RESOLVED or DISMISSED report cannot be reached by review, resolve or dismiss. |
| ReportViews.ModeratorsOnly | reports/views.py:36-38 | For anyone but a moderator, the three actions fail with 401 or 403 and change nothing. |
| ReportViews.ReviewConsistent | reports/views.py:46-54 | review keeps every integrity rule. |
| ReportViews.ResolveConsistent | reports/views.py:56-80 | resolve keeps every integrity rule. |
| ReportViews.DismissConsistent | reports/views.py:82-91 | dismiss keeps every integrity rule. |
| ReportViews.ContentEffectConsistent | reports/views.py:62-72 | The archive or delete effect of resolve keeps every integrity rule. |
| ReportViews.CreateReportStep | back/reports/serializers.py:100-102 | An anonymous caller gets 401. Otherwise the serializer's create runs. |
| ReportViews.ReviewAction | reports/views.py:46-54 | The method on the database does what `ReviewStep` says. |
| ReportViews.ResolveAction | reports/views.py:56-80 | The method on the database applies the effect on content, then saves the report, as `ResolveStep` says. |
| ReportViews.DismissAction | reports/views.py:82-91 | The method on the database does what `DismissStep` says. |
| ReportViews.CreateReportAction | back/reports/serializers.py:100-102 | The method on the database does what `CreateReportStep` says. |
| Analytics.PublishedPosts | back/analytics/views.py:45 | Exactly the posts whose status is PUBLISHED. |
| Analytics.ActiveUsers | back/analytics/views.py:47 | Exactly the users with `is_active` set. |
| Analytics.CommentsOnPublished | back/analytics/views.py:38-39 | Exactly the comments whose post is a PUBLISHED post of the category. |
| Analytics.RecentWindow | back/analytics/views.py:50-54 | The week window includes its lower end. It has no upper end, so it also includes posts dated after now. |
| Analytics.GeneralOf | back/analytics/views.py:44-54 | `total_posts` counts the PUBLISHED posts, `total_comments` every comment, `total_users` the active users, and `recent_posts_week` the recent PUBLISHED posts, which are never more than `total_posts`. |
| Analytics.PostsByCategory | back/analytics/views.py:19-21 | Every category appears exactly once with the number of its PUBLISHED posts, in non-increasing order of that number. |
| Analytics.SumIsPublishedIn | back/analytics/views.py:19-21 | Summing the per-category rows of distinct categories counts the PUBLISHED posts of those categories. |
| Analytics.PostsByCategoryAddsUp | back/analytics/views.py:19-21 | In a consistent database, the per-category counts add up to `total_posts`. |
| Analytics.MostCommented | back/analytics/views.py:38-42 | At most 10 categories, each with a positive number of comments on its PUBLISHED posts, in non-increasing order. A category left out has no more comments than any category listed. |
| Analytics.TopPosterIds | back/analytics/views.py:24-26 | At most 10 users, each with at least one PUBLISHED post, whether active or not, in non-increasing order. A user left out has no more posts than any user listed. |
| Analytics.PosterRows | back/analytics/views.py:28-35 | The loop builds one row per top user, in the same order, each with the user's id, full name, e-mail and count of PUBLISHED posts. |
| Analytics.Statistics | back/analytics/views.py:13-66 | An anonymous caller gets 401. Otherwise the response holds the counts above, and the loop builds one `top_posters` row per top user, in order, with the user's full name, e-mail and count. |
| Analytics.TopPostersRows | back/analytics/views.py:28-35 | Every `top_posters` row has at least one post, at most 10 rows are built, and the counts do not increase. |
| Analytics.TopPosts | back/analytics/views.py:82-87 | The top posts are at most 5 distinct PUBLISHED posts of the category, and fewer only when there are fewer such posts. They are in non-increasing order of comment count, and a post left out has no more comments than any post listed. |
| Analytics.CategoryStats | back/analytics/views.py:69-100 | An unknown category gives 404. Otherwise the response holds the category's id, name and description, the number of its PUBLISHED posts, the number of comments on exactly those posts, and the top posts. |
| Analytics.TopPostWithinTotal | back/analytics/views.py:80-87 | No top post has more comments than the category total. |
| JwtInterceptor.PublicReadIsGetAndUnprotected | front/campus-forum/src/app/shared/interceptors/jwt-interceptor.ts:32-33 | A protected route is never public-read, even for GET, and a request that is not a GET never is. |
| JwtInterceptor.MyPostsIsNotPublic | front/campus-forum/src/app/shared/interceptors/jwt-interceptor.ts:24-33 | Every URL that includes "/api/posts/my-posts" is a protected route, so no request for it is public-read, whatever its verb. |
| JwtInterceptor.MyPostsAddressIncluded | front/campus-forum/src/app/shared/interceptors/jwt-interceptor.ts:24-33 | The bare address "/api/posts/my-posts" includes that route. |
| JwtInterceptor.Outgoing | front/campus-forum/src/app/shared/interceptors/jwt-interceptor.ts:31-51 | Auth and public-read requests go out unchanged. Otherwise a present, valid token adds "Bearer " + token as the Authorization header, and in every other case the request goes out unchanged. |
| JwtInterceptor.ClearsTokens | front/campus-forum/src/app/shared/interceptors/jwt-interceptor.ts:52-56 | The stored tokens are removed exactly for a request that is not bypassed and carries a present but invalid token. |
| JwtInterceptor.BearerOnlyWithValidToken | front/campus-forum/src/app/shared/interceptors/jwt-interceptor.ts:45-56 | The outgoing request has an Authorization header exactly when it already had one or a valid token was attached. Clearing the tokens never adds a header. |
| JwtInterceptor.TokenStorage.Clear | front/campus-forum/src/app/shared/interceptors/jwt-interceptor.ts:52-56 | Both stored tokens are removed. |
| JwtInterceptor.Intercept | front/campus-forum/src/app/shared/interceptors/jwt-interceptor.ts:31-56 | The method forwards `Outgoing`. It empties both stored tokens exactly when `ClearsTokens` holds, and otherwise leaves them as they were. |
| JwtInterceptor.ErrorMessage | front/campus-forum/src/app/shared/interceptors/jwt-interceptor.ts:71 | The message is `detail`, else `message`, else "". |
| JwtInterceptor.ShouldRefresh | front/campus-forum/src/app/shared/interceptors/jwt-interceptor.ts:61-72 | A refresh is tried exactly on a 401 for a request that was not bypassed, with a present token that is still valid, and a message that contains "token", "Token" or "expired". |
| JwtInterceptor.NoRefreshOnAuthRoutes | front/campus-forum/src/app/shared/interceptors/jwt-interceptor.ts:36-38 | Login, register and refresh calls go out untouched, keep the stored tokens, and are never retried. |
| Profile.PictureUrl | front/campus-forum/src/app/screens/profile/profile.ts:53-62 | There is no URL exactly for a missing or empty one. An http or https URL is returned unchanged. A relative URL is joined to the origin, with a slash added only when it lacks one. |
| Profile.Origin | front/campus-forum/src/app/screens/profile/profile.ts:60 | An API base without "/api" is returned unchanged. Otherwise the origin is the API base with its first occurrence of "/api" cut out: the text before it followed by the text after it. |
| Profile.RelativeUrlJoined | front/campus-forum/src/app/screens/profile/profile.ts:60-61 | A relative URL is placed after the origin and a slash. Every character of the URL is kept. |
| Profile.RoleLabel | front/campus-forum/src/app/screens/profile/profile.ts:151-163 | The label is "" with no user or with an unknown role code. Otherwise it is one of the three labels. |
| Profile.RoleLabelsMatchChoices | front/campus-forum/src/app/screens/profile/profile.ts:151-163 | Each stored role code gets the display name that the account model declares for it. |
| Profile.ProfileComponent.StoredPreview | front/campus-forum/src/app/screens/profile/profile.ts:93-97 | The stored picture's preview is the picture's URL, and there is none when the user or the picture is missing. |
| Profile.ProfileComponent.RemovePhoto | front/campus-forum/src/app/screens/profile/profile.ts:91-98 | The chosen file is dropped. The preview goes back to the stored picture's URL, or to none. |
| Text.StripRemovesPadding | accounts/serializers.py:61-66 | A `CharField` strips its value: what is left starts and ends with a non-space character, and it is empty exactly when the input is all whitespace. The input is that value with whitespace only before and after it. |
| Text.StripTrimmed | accounts/serializers.py:61-66 | A value without surrounding whitespace is kept as it is. |
| Text.StripIdempotent | accounts/serializers.py:61-66 | Stripping twice gives the same value as stripping once. |
| Text.IgnoresCaseOfNeedle | posts/views.py:58 | `icontains` gives the same answer whatever the case of either string. |
| Ranking.OrderedBy | posts/views.py:32 | Ordering by a key descending lists every row exactly once, with non-increasing keys. |
| Ranking.FirstK | back/analytics/views.py:26 | The first k rows of that order have non-increasing keys, and no row left out has a larger key than a row kept. |

## Left out

- The ORM, HTTP, pagination and the generic filter backends are not modelled. The `author` filter, the `ordering` parameter and the search filter of the post viewset are left out. So is django-filter's rejection of an invalid status choice: an unknown `status` here simply matches nothing.
- Nested representations (author, category and tags inside a post, users inside a report) and `updated_at` are not modelled.
- Password hashing, `validate_password`, `build_absolute_uri` and ImageField storage are library calls and are not modelled. `normalize_email` is modelled as `AccountsManager.NormalizeEmail`.
  - `AccountSerializers.RegisterFieldErrors` does not check the e-mail's format (Django's `EmailValidator`) or the password's strength (`validate_password`). It checks the other field rules: required, not blank once stripped, at most 254 characters for the e-mail and 150 for a name, and the e-mail not used yet. The unique check compares the stripped e-mail with the stored ones exactly, without `normalize_email`, as `UniqueValidator` does.
  - The stored password is the value handed to `set_password`.
  - The absolute picture URI is the request's origin followed by the media URL.
  - An image without a `url` attribute, which makes the serializer return None, is not modelled.
- JWT issuance, refresh-token blacklisting and the claims written into the token are not modelled.
- The generic update endpoints of posts and comments are not modelled. Their object permission is the same as for destroy, which is modelled.
- `ReportViews.ResolveStep`: when resolve deletes the post or comment of a report, the model keeps the report and saves it RESOLVED. In the real database the CASCADE on `Report.post` and `Report.comment` deletes the report together with its target, and the following `report.save()` then fails. The model does not reproduce that delete-then-save sequence.
- `AccountSerializers.UpdateProfile` takes the supplied first name, last name and picture as already validated. The stripping and length checks of the update serializer's fields are not modelled.
- `CategorySerializers.UpdateMayKeepOwnName` is stated for a stored name without surrounding whitespace. Every name the model saves is stripped, but a name written to the database some other way may not be, and sending it again on update would then be compared after stripping.
- Choice fields of a request body are read as already valid choices: the registration `role`, the category `status`, the post `status` and the report `type`. DRF's 400 for any other text, the empty string included, under the key `role`, `status` or `type`, is not modelled. So `AccountSerializers.RegisterFieldErrors`, `PostSerializers.InputErrors`, `ReportSerializers.FieldErrors`, `CategoryViews.CreateStep` and `CategoryViews.UpdateStep` never report those keys.
- Raising AttributeError where an anonymous user's `role` is read is modelled as a refusal.
- Case-insensitive search, and the lower-casing of the domain in `AccountsManager.NormalizeEmail`, lower-case ASCII letters only. Unicode case folding is not modelled.
- comments/permissions.py is not part of this model. The comment viewset's author-or-moderator check is taken to decide as posts/permissions.py does. Its `has_permission` always allows.
- The RxJS refresh pipeline and its retry are not modelled, and neither are localStorage as real storage, the UI handlers, FileReader, timers and HTTP. `AuthService.isTokenValid` and the app configuration's API base URL are parameters.
- Rows with equal keys in an ordered listing appear in increasing id order. The database leaves that order unspecified.
- The routing tables and the admin registrations are not modelled.

## Behaviour of the code worth noting

- Registration with an e-mail that differs from a stored one only in the case of its domain passes the serializer's unique check, which compares exactly. `create_user` then normalizes it to the stored address and the database's unique constraint fails: an IntegrityError (500) instead of a 400 (accounts/models.py:12, accounts/serializers.py:58-76).
- Review, resolve and dismiss do not check the report's current status. Only the default listing scope keeps RESOLVED and DISMISSED reports out of reach (reports/views.py:27-29, 46-91).
- publish sets PUBLISHED from any status, ARCHIVED included; it has no transition check (posts/views.py:79-90).
- `category_stats` takes its top posts from the PUBLISHED posts of the category only (back/analytics/views.py:82-87).
- The seven-day window of `recent_posts_week` has an inclusive lower bound and no upper bound, so posts dated after now are counted (back/analytics/views.py:50-54).
- toggle_status turns ARCHIVED into ACTIVE, as it does for any status other than ACTIVE (categories/views.py:51-61).

=== FILE: access.dfy ===
/** How a viewset applies the permission classes `get_permissions` returns:
    `has_permission` before the action runs, `has_object_permission` when the
    action looks its object up. A refusal is 401 for an anonymous caller and
    403 for an authenticated one. */
module Access {
  import opened Common
  import opened AccountsModels
  import CategoryPermissions
  import ReportPermissions
  import PostPermissions

  datatype Permission = AllowAny | IsAuthenticated | IsAdminOrProfessor | IsModerator | IsAuthorOrModerator

  function HasPermission(perm: Permission, p: Principal): bool {
    match perm
    case AllowAny => true
    case IsAuthenticated => p.IsAuthenticated()
    case IsAdminOrProfessor => CategoryPermissions.HasPermission(p)
    case IsModerator => ReportPermissions.HasPermission(p)
    case IsAuthorOrModerator => true   // the class only decides per object
  }

  /** The error the permission check raises, if any. */
  function Gate(perm: Permission, p: Principal): (denied: Option<Error>)
    ensures denied.None? <==> HasPermission(perm, p)
    ensures denied.Some? ==> (denied.value == NotAuthenticated <==> p.Anonymous?)
    ensures denied.Some? ==> denied.value == NotAuthenticated || denied.value == PermissionDenied
  {
    if HasPermission(perm, p) then None
    else if p.Anonymous? then Some(NotAuthenticated)
    else Some(PermissionDenied)
  }

  /** The object-level check; only IsAuthorOrModerator has one. */
  function HasObjectPermission(perm: Permission, m: PostPermissions.Method, author: Id, p: Principal): bool {
    if perm == IsAuthorOrModerator then PostPermissions.HasObjectPermission(m, author, p) else true
  }

  /** The refusal of an object-level check. */
  function ObjectGate(perm: Permission, m: PostPermissions.Method, author: Id, p: Principal): (denied: Option<Error>)
    ensures denied.None? <==> HasObjectPermission(perm, m, author, p)
    ensures denied.Some? ==> (denied.value == NotAuthenticated <==> p.Anonymous?)
    ensures denied.Some? ==> denied.value == NotAuthenticated || denied.value == PermissionDenied
  {
    if HasObjectPermission(perm, m, author, p) then None
    else if p.Anonymous? then Some(NotAuthenticated)
    else Some(PermissionDenied)
  }

  /** The two moderator-only permissions admit exactly the moderators, and
      refuse anonymous callers with 401 and students with 403. */
  lemma ModeratorGate(perm: Permission, p: Principal)
    requires perm == IsAdminOrProfessor || perm == IsModerator
    ensures Gate(perm, p).None? <==> p.IsModerator()
    ensures p.Anonymous? ==> Gate(perm, p) == Some(NotAuthenticated)
    ensures p.Member? && p.role == Student ==> Gate(perm, p) == Some(PermissionDenied)
  {
  }
}

=== FILE: account_serializers.dfy ===
/** The serializers of accounts/serializers.py: the user representation
    with its picture URL, registration, and the profile update. */
module AccountSerializers {
  import opened Common
  import opened AccountsModels
  import opened Store
  import AccountsManager
  import Text

  const DefaultBaseUrl := "http://localhost:8001"

  /** `get_profile_picture`. `request` is the origin (`scheme://host`) of the
      request in the serializer context, if any; `baseUrl` is the BASE_URL
      setting, if set. With a request the absolute URI is built from its
      origin; without one the base URL is prefixed to the media URL. */
  function ProfilePictureUrl(picture: Option<string>, request: Option<string>, baseUrl: Option<string>): (r: Option<string>)
    ensures picture.None? <==> r.None?
    ensures picture.Some? && request.Some? ==> r == Some(request.value + picture.value)
    ensures picture.Some? && request.None? && baseUrl.None? ==> r == Some(DefaultBaseUrl + picture.value)
    ensures picture.Some? && request.None? && baseUrl.Some? ==> r == Some(baseUrl.value + picture.value)
    ensures r.Some? ==> Text.StartsWith(r.value, OrElse(request, OrElse(baseUrl, DefaultBaseUrl)))
  {
    match picture
    case None => None
    case Some(url) =>
      match request
      case Some(origin) => Some(origin + url)
      case None => Some(OrElse(baseUrl, DefaultBaseUrl) + url)
  }

  datatype UserData = UserData(
    id: Id, email: string, firstName: string, lastName: string, fullName: string,
    role: string, profilePicture: Option<string>, dateJoined: nat, isActive: bool)

  /** `UserSerializer(user).data`. */
  function Serialize(id: Id, u: User, request: Option<string>, baseUrl: Option<string>): (d: UserData)
    ensures d.id == id && d.email == u.email && d.role == RoleCode(u.role)
    ensures d.firstName == u.firstName && d.lastName == u.lastName
    ensures d.fullName == FullName(u) && d.isActive == u.isActive && d.dateJoined == u.dateJoined
    ensures d.profilePicture == ProfilePictureUrl(u.profilePicture, request, baseUrl)
  {
    UserData(id, u.email, u.firstName, u.lastName, FullName(u), RoleCode(u.role),
             ProfilePictureUrl(u.profilePicture, request, baseUrl), u.dateJoined, u.isActive)
  }

  // ---------------------------------------------------------------------------
  // Registration

  /** The fields of a registration as sent; the role is one of the model's
      choices, or absent. */
  datatype RegisterInput = RegisterInput(
    email: string, password: string, password2: string,
    firstName: string, lastName: string, role: Option<Role>)

  /** `email` is an `EmailField`, whose default length limit is 254. */
  const MaxEmailLength: nat := 254
  /** `first_name` and `last_name` have at most 150 characters. */
  const MaxNameLength: nat := 150

  /** The field checks, made on each value with its surrounding whitespace
      cut off (the `CharField` default): the e-mail is required, not blank,
      at most 254 characters and not used by any user (the validator the
      unique model field brings); the names are required, not blank and at
      most 150 characters; both passwords are required and not blank. All
      failing keys are reported together. */
  function RegisterFieldErrors(s: State, data: RegisterInput): (keys: set<string>)
    ensures keys <= {"email", "first_name", "last_name", "password", "password2"}
    ensures "email" in keys <==> !EmailOk(s, data.email)
    ensures "first_name" in keys <==> !NameOk(data.firstName)
    ensures "last_name" in keys <==> !NameOk(data.lastName)
    ensures "password" in keys <==> Text.Strip(data.password) == ""
    ensures "password2" in keys <==> Text.Strip(data.password2) == ""
  {
    NameErrors(s, data) + PasswordErrors(data)
  }

  /** The keys of the e-mail and name checks. */
  function NameErrors(s: State, data: RegisterInput): (keys: set<string>)
    ensures keys <= {"email", "first_name", "last_name"}
    ensures "email" in keys <==> !EmailOk(s, data.email)
    ensures "first_name" in keys <==> !NameOk(data.firstName)
    ensures "last_name" in keys <==> !NameOk(data.lastName)
  {
    var e, f, l := !EmailOk(s, data.email), !NameOk(data.firstName), !NameOk(data.lastName);
    ThreeKeys(e, "email", f, "first_name", l, "last_name");
    KeyIf(e, "email") + KeyIf(f, "first_name") + KeyIf(l, "last_name")
  }

  /** The keys of the two password checks. */
  function PasswordErrors(data: RegisterInput): (keys: set<string>)
    ensures keys <= {"password", "password2"}
    ensures "password" in keys <==> Text.Strip(data.password) == ""
    ensures "password2" in keys <==> Text.Strip(data.password2) == ""
  {
    var p, p2 := Text.Strip(data.password) == "", Text.Strip(data.password2) == "";
    TwoKeys(p, "password", p2, "password2");
    KeyIf(p, "password") + KeyIf(p2, "password2")
  }

  /** The e-mail, stripped, is not blank, fits and is not used yet. */
  predicate EmailOk(s: State, email: string) {
    var e := Text.Strip(email);
    e != "" && |e| <= MaxEmailLength && !AccountsManager.EmailTaken(s, e)
  }

  /** A name, stripped, is not blank and fits. */
  predicate NameOk(name: string) {
    Text.Strip(name) != "" && |Text.Strip(name)| <= MaxNameLength
  }

  /** The validated data: every text without its surrounding whitespace. */
  function Cleaned(data: RegisterInput): (c: RegisterInput)
    ensures c.email == Text.Strip(data.email) && c.password == Text.Strip(data.password)
    ensures c.password2 == Text.Strip(data.password2)
    ensures c.firstName == Text.Strip(data.firstName) && c.lastName == Text.Strip(data.lastName)
    ensures c.role == data.role
  {
    RegisterInput(Text.Strip(data.email), Text.Strip(data.password), Text.Strip(data.password2),
                  Text.Strip(data.firstName), Text.Strip(data.lastName), data.role)
  }

  /** `RegisterSerializer.validate`: the passwords must match, then an
      explicit role must be PROFESSOR or STUDENT. */
  function RegisterValidate(data: RegisterInput): (r: Result<RegisterInput>)
    ensures data.password != data.password2 ==> r == Err(ValidationError({"password"}))
    ensures data.password == data.password2 && data.role == Some(Admin) ==> r == Err(ValidationError({"role"}))
    ensures r.Ok? <==> data.password == data.password2 && data.role != Some(Admin)
    ensures r.Ok? ==> r.value == data
  {
    if data.password != data.password2 then Err(ValidationError({"password"}))
    else if data.role == Some(Admin) then Err(ValidationError({"role"}))
    else Ok(data)
  }

  /** With matching passwords, exactly an omitted role, PROFESSOR and
      STUDENT pass: the list the source checks against. */
  lemma RegistrationRoles(data: RegisterInput)
    requires data.password == data.password2
    ensures RegisterValidate(data).Ok? <==> data.role == None || data.role == Some(Professor) || data.role == Some(Student)
  {
    match data.role {
      case None =>
      case Some(role) =>
        match role {
          case Admin =>
          case Professor =>
          case Student =>
        }
    }
  }

  /** An omitted role passes validation. */
  lemma OmittedRolePasses(data: RegisterInput)
    requires data.password == data.password2 && data.role == None
    ensures RegisterValidate(data) == Ok(data)
  {
  }

  /** The keyword arguments `create` passes to `create_user` once
      `password2` and `password` are popped. */
  function CreateArgs(data: RegisterInput): (extra: ExtraFields)
    ensures extra.firstName == Some(data.firstName) && extra.lastName == Some(data.lastName)
    ensures extra.role == data.role
    ensures extra.isActive == None && extra.isStaff == None && extra.isSuperuser == None
  {
    ExtraFields(Some(data.firstName), Some(data.lastName), data.role, None, None, None)
  }

  /** `is_valid` then `save`: the field checks first, `validate` only when
      they all pass, then `create`, which hands the validated e-mail and
      password and the remaining fields to `create_user`. */
  function RegisterStep(s: State, data: RegisterInput, now: nat): (o: Step<Id>)
    ensures RegisterFieldErrors(s, data) != {} ==> o == Step(Err(ValidationError(RegisterFieldErrors(s, data))), s)
    ensures RegisterFieldErrors(s, data) == {} && RegisterValidate(Cleaned(data)).Err? ==>
      o == Step(Err(RegisterValidate(Cleaned(data)).error), s)
    ensures RegisterFieldErrors(s, data) == {} && RegisterValidate(Cleaned(data)).Ok? ==>
      var c := Cleaned(data);
      o == AccountsManager.CreateUserStep(s, c.email, Some(c.password), CreateArgs(c), now)
  {
    var keys := RegisterFieldErrors(s, data);
    if keys != {} then Step(Err(ValidationError(keys)), s)
    else
      match RegisterValidate(Cleaned(data))
      case Err(e) => Step(Err(e), s)
      case Ok(valid) => AccountsManager.CreateUserStep(s, valid.email, Some(valid.password), CreateArgs(valid), now)
  }

  /** Registration fails with a 400 keyed by the offending fields, or, once
      the field checks and `validate` pass, with the database's unique
      constraint when the address `normalize_email` stores is already used;
      a failure saves nothing. It succeeds exactly when neither happens. */
  lemma RegisterOutcome(s: State, data: RegisterInput, now: nat)
    ensures var o := RegisterStep(s, data, now);
      var stored := AccountsManager.NormalizeEmail(Text.Strip(data.email));
      && (o.response.Err? ==> o.after == s)
      && (o.response.Err? && !o.response.error.ValidationError? ==>
            o.response.error == IntegrityError("email") && AccountsManager.EmailTaken(s, stored))
      && (o.response.Ok? <==>
            RegisterFieldErrors(s, data) == {} && RegisterValidate(Cleaned(data)).Ok?
            && !AccountsManager.EmailTaken(s, stored))
  {
    if RegisterFieldErrors(s, data) == {} {
      assert Cleaned(data).email != [];
    }
  }

  /** An address the field check lets through, because no stored address
      equals it exactly, still fails with the unique constraint when its
      normalized form is stored: `x@A.com` beside a stored `x@a.com`. */
  lemma DomainCaseClashRaises(s: State, data: RegisterInput, now: nat, other: Id)
    requires RegisterFieldErrors(s, data) == {} && RegisterValidate(Cleaned(data)).Ok?
    requires other in s.users && s.users[other].email == AccountsManager.NormalizeEmail(Text.Strip(data.email))
    ensures RegisterStep(s, data, now) == Step(Err(IntegrityError("email")), s)
  {
    assert Cleaned(data).email != [];
    assert AccountsManager.EmailTaken(s, AccountsManager.NormalizeEmail(Cleaned(data).email));
  }

  /** A used e-mail is refused under the key `email`, even when the
      passwords do not match. */
  lemma UsedEmailRefused(s: State, data: RegisterInput, now: nat, other: Id)
    requires other in s.users && s.users[other].email == Text.Strip(data.email)
    ensures RegisterStep(s, data, now).response.Err?
    ensures "email" in RegisterStep(s, data, now).response.error.fields
    ensures RegisterStep(s, data, now).after == s
  {
    assert AccountsManager.EmailTaken(s, Text.Strip(data.email));
  }

  /** Registration never creates an ADMIN, staff member or superuser; the
      stored password is the one typed twice, the stored names are the ones
      sent without surrounding whitespace, and the stored e-mail is the one
      sent, stripped, as `normalize_email` leaves it. */
  lemma RegisteredUser(s: State, data: RegisterInput, now: nat)
    requires RegisterStep(s, data, now).response.Ok?
    ensures var o := RegisterStep(s, data, now);
      var u := o.after.users[o.response.value];
      && u.role != Admin && !u.isStaff && !u.isSuperuser && u.isActive
      && u.password == Some(Text.Strip(data.password)) && Text.Strip(data.password) == Text.Strip(data.password2)
      && u.email == AccountsManager.NormalizeEmail(Text.Strip(data.email))
      && u.firstName == Text.Strip(data.firstName) && u.lastName == Text.Strip(data.lastName)
  {
  }

  method Register(db: Db, data: RegisterInput, now: nat) returns (res: Result<Id>)
    modifies db
    ensures res == RegisterStep(old(db.Snapshot()), data, now).response
    ensures db.Snapshot() == RegisterStep(old(db.Snapshot()), data, now).after
  {
    var keys := RegisterFieldErrors(db.Snapshot(), data);
    if keys != {} {
      return Err(ValidationError(keys));
    }
    var valid := RegisterValidate(Cleaned(data));
    if valid.Err? {
      return Err(valid.error);
    }
    res := AccountsManager.CreateUser(db, valid.value.email, Some(valid.value.password), CreateArgs(valid.value), now);
  }

  // ---------------------------------------------------------------------------
  // Profile update

  /** One entry of the validated data of `UpdateProfileSerializer`. */
  datatype Assignment =
    | SetFirstName(firstName: string)
    | SetLastName(lastName: string)
    | SetProfilePicture(picture: Option<string>)

  /** `setattr(instance, attr, value)`. */
  function Assign(u: User, a: Assignment): (v: User)
    ensures v.email == u.email && v.role == u.role && v.password == u.password
    ensures v.isActive == u.isActive && v.isStaff == u.isStaff && v.isSuperuser == u.isSuperuser
    ensures v.dateJoined == u.dateJoined
  {
    match a
    case SetFirstName(n) => u.(firstName := n)
    case SetLastName(n) => u.(lastName := n)
    case SetProfilePicture(p) => u.(profilePicture := p)
  }

  /** The user after the assignments, in order. */
  function Assigned(u: User, data: seq<Assignment>): User
    decreases |data|
  {
    if data == [] then u else Assign(Assigned(u, data[..|data| - 1]), data[|data| - 1])
  }

  predicate SameField(a: Assignment, b: Assignment) {
    (a.SetFirstName? && b.SetFirstName?) || (a.SetLastName? && b.SetLastName?)
    || (a.SetProfilePicture? && b.SetProfilePicture?)
  }

  /** A dict holds each key once. */
  predicate DistinctKeys(data: seq<Assignment>) {
    forall i, j :: 0 <= i < j < |data| ==> !SameField(data[i], data[j])
  }

  /** The update writes exactly the supplied fields: a field given is set to
      its value, a field not given keeps its value, and nothing outside the
      three profile fields changes (in particular the read-only
      `date_joined` and `is_active`). */
  lemma AssignedWritesSupplied(u: User, data: seq<Assignment>)
    requires DistinctKeys(data)
    ensures var v := Assigned(u, data);
      && v.email == u.email && v.role == u.role && v.password == u.password
      && v.isActive == u.isActive && v.isStaff == u.isStaff && v.isSuperuser == u.isSuperuser
      && v.dateJoined == u.dateJoined
      && (forall k :: 0 <= k < |data| && data[k].SetFirstName? ==> v.firstName == data[k].firstName)
      && (forall k :: 0 <= k < |data| && data[k].SetLastName? ==> v.lastName == data[k].lastName)
      && (forall k :: 0 <= k < |data| && data[k].SetProfilePicture? ==> v.profilePicture == data[k].picture)
      && ((forall k :: 0 <= k < |data| ==> !data[k].SetFirstName?) ==> v.firstName == u.firstName)
      && ((forall k :: 0 <= k < |data| ==> !data[k].SetLastName?) ==> v.lastName == u.lastName)
      && ((forall k :: 0 <= k < |data| ==> !data[k].SetProfilePicture?) ==> v.profilePicture == u.profilePicture)
  {
    AssignedKeepsAccount(u, data);
    FirstNameWritten(u, data);
    LastNameWritten(u, data);
    PictureWritten(u, data);
  }

  /** Only the three profile fields are ever written. */
  lemma {:induction false} AssignedKeepsAccount(u: User, data: seq<Assignment>)
    ensures var v := Assigned(u, data);
      && v.email == u.email && v.role == u.role && v.password == u.password
      && v.isActive == u.isActive && v.isStaff == u.isStaff && v.isSuperuser == u.isSuperuser
      && v.dateJoined == u.dateJoined
    decreases |data|
  {
    if data != [] {
      AssignedKeepsAccount(u, data[..|data| - 1]);
    }
  }

  /** The last assignment of a field is the one that counts; with distinct
      keys it is the only one. */
  lemma {:induction false} FirstNameWritten(u: User, data: seq<Assignment>)
    requires DistinctKeys(data)
    ensures forall k :: 0 <= k < |data| && data[k].SetFirstName? ==> Assigned(u, data).firstName == data[k].firstName
    ensures (forall k :: 0 <= k < |data| ==> !data[k].SetFirstName?) ==> Assigned(u, data).firstName == u.firstName
    decreases |data|
  {
    if data != [] {
      var init := data[..|data| - 1];
      assert DistinctKeys(init);
      FirstNameWritten(u, init);
      forall k | 0 <= k < |init| ensures !SameField(init[k], data[|data| - 1]) {
        assert init[k] == data[k];
      }
    }
  }

  lemma {:induction false} LastNameWritten(u: User, data: seq<Assignment>)
    requires DistinctKeys(data)
    ensures forall k :: 0 <= k < |data| && data[k].SetLastName? ==> Assigned(u, data).lastName == data[k].lastName
    ensures (forall k :: 0 <= k < |data| ==> !data[k].SetLastName?) ==> Assigned(u, data).lastName == u.lastName
    decreases |data|
  {
    if data != [] {
      var init := data[..|data| - 1];
      assert DistinctKeys(init);
      LastNameWritten(u, init);
      forall k | 0 <= k < |init| ensures !SameField(init[k], data[|data| - 1]) {
        assert init[k] == data[k];
      }
    }
  }

  lemma {:induction false} PictureWritten(u: User, data: seq<Assignment>)
    requires DistinctKeys(data)
    ensures forall k :: 0 <= k < |data| && data[k].SetProfilePicture? ==> Assigned(u, data).profilePicture == data[k].picture
    ensures (forall k :: 0 <= k < |data| ==> !data[k].SetProfilePicture?) ==> Assigned(u, data).profilePicture == u.profilePicture
    decreases |data|
  {
    if data != [] {
      var init := data[..|data| - 1];
      assert DistinctKeys(init);
      PictureWritten(u, init);
      forall k | 0 <= k < |init| ensures !SameField(init[k], data[|data| - 1]) {
        assert init[k] == data[k];
      }
    }
  }

  /** `UpdateProfileSerializer.update` on the signed-in user's row: the
      fields are set one by one, then the row is saved. */
  method UpdateProfile(db: Db, id: Id, data: seq<Assignment>) returns (saved: User)
    requires id in db.users
    modifies db
    ensures saved == Assigned(old(db.users[id]), data)
    ensures db.Snapshot() == old(db.Snapshot()).(users := old(db.users)[id := saved])
  {
    var instance := db.users[id];
    var i := 0;
    while i < |data|
      invariant 0 <= i <= |data|
      invariant instance == Assigned(old(db.users[id]), data[..i])
    {
      assert data[..i + 1][..i] == data[..i];
      instance := Assign(instance, data[i]);
      i := i + 1;
    }
    assert data[..|data|] == data;
    db.users := db.users[id := instance];
    saved := instance;
  }

  /** A profile update keeps every constraint: e-mail addresses, which it
      does not touch, stay unique. */
  lemma UpdateProfileConsistent(s: State, id: Id, data: seq<Assignment>)
    requires Consistent(s) && id in s.users
    ensures Consistent(s.(users := s.users[id := Assigned(s.users[id], data)]))
  {
    var t := s.(users := s.users[id := Assigned(s.users[id], data)]);
    AssignedKeepsAccount(s.users[id], data);
    assert UniqueEmails(t.users) by {
      forall a, b | a in t.users && b in t.users && t.users[a].email == t.users[b].email
        ensures a == b
      {
        assert t.users[a].email == s.users[a].email && t.users[b].email == s.users[b].email;
      }
    }
    UsersReplacedConsistent(s, t.users);
  }

}

=== FILE: accounts_manager.dfy ===
/** `UserManager` of accounts/models.py: creating users and superusers. The
    e-mail address is stored as `normalize_email` leaves it, and the password
    is recorded as the value handed to `set_password`. */
module AccountsManager {
  import opened Common
  import opened AccountsModels
  import opened Store
  import Text

  const EmailRequired := "El correo electrónico es obligatorio"

  predicate EmailTaken(s: State, email: string) {
    exists u :: u in s.users && s.users[u].email == email
  }

  /** `BaseUserManager.normalize_email`: an address with an "@" is stripped
      and its domain, the part after the last "@", is lower-cased; an address
      without one is kept as given. */
  function NormalizeEmail(email: string): (e: string)
    ensures email != [] ==> e != []
    ensures '@' !in Text.Strip(email) ==> e == email
    ensures '@' in Text.Strip(email) ==> e == LowerDomain(Text.Strip(email))
  {
    var t := Text.Strip(email);
    if '@' in t then LowerDomain(t) else email
  }

  /** `name + "@" + domain.lower()` after `rsplit("@", 1)`: the address with
      everything after its last "@" lower-cased. */
  function LowerDomain(t: string): (e: string)
    requires '@' in t
    ensures |e| == |t| && '@' in e
    ensures var i := Text.LastIndexOf(t, '@').value;
      e[..i + 1] == t[..i + 1] && e[i + 1..] == Text.Lower(t[i + 1..])
  {
    var i := Text.LastIndexOf(t, '@').value;
    t[..i] + "@" + Text.Lower(t[i + 1..])
  }

  /** Two addresses that differ only in the case of their domain are stored
      as the same address. */
  lemma NormalizeIgnoresDomainCase(name: string, d1: string, d2: string)
    requires '@' !in d1 && '@' !in d2 && Text.Lower(d1) == Text.Lower(d2)
    requires Text.Trimmed(name + "@" + d1) && Text.Trimmed(name + "@" + d2)
    ensures NormalizeEmail(name + "@" + d1) == NormalizeEmail(name + "@" + d2)
  {
    NormalizeTrimmed(name + "@" + d1);
    NormalizeTrimmed(name + "@" + d2);
    DomainSplit(name, d1);
    DomainSplit(name, d2);
  }

  /** An address without surrounding whitespace that has an "@" only has its
      domain lower-cased. */
  lemma NormalizeTrimmed(t: string)
    requires Text.Trimmed(t) && '@' in t
    ensures NormalizeEmail(t) == LowerDomain(t)
  {
    Text.StripTrimmed(t);
  }

  /** The domain of `name@d`, with no "@" in `d`, is `d`. */
  lemma DomainSplit(name: string, d: string)
    requires '@' !in d
    ensures LowerDomain(name + "@" + d) == name + "@" + Text.Lower(d)
  {
    var t := name + "@" + d;
    forall j | |name| < j < |t| ensures t[j] != '@' {
      assert t[j] == d[j - |name| - 1];
    }
    Text.LastIndexAt(t, '@', |name|);
    assert t[..|name|] == name && t[|name| + 1..] == d;
  }

  /** `create_user`: an empty e-mail raises before anything is saved; the
      address is normalized, and one already in use breaks the unique
      constraint; otherwise a new row with the normalized address and the
      model defaults is written under a fresh id. */
  function CreateUserStep(s: State, email: string, password: Option<string>, extra: ExtraFields, now: nat): (o: Step<Id>)
    ensures email == [] ==> o.response == Err(ValueError(EmailRequired))
    ensures email != [] && EmailTaken(s, NormalizeEmail(email)) ==> o.response == Err(IntegrityError("email"))
    ensures o.response.Err? ==> o.after == s
    ensures o.response.Ok? <==> email != [] && !EmailTaken(s, NormalizeEmail(email))
    ensures o.response.Ok? ==>
      var id := o.response.value;
      && id !in s.users
      && o.after == s.(users := s.users[id := NewUser(NormalizeEmail(email), password, extra, now)])
  {
    if email == [] then Step(Err(ValueError(EmailRequired)), s)
    else
      var normalized := NormalizeEmail(email);
      if EmailTaken(s, normalized) then Step(Err(IntegrityError("email")), s)
      else
        var id := FreshId(s.users.Keys);
        Step(Ok(id), s.(users := s.users[id := NewUser(normalized, password, extra, now)]))
  }

  /** `create_superuser`: the defaults are filled in and checked, then the
      user is created as by `create_user`. */
  function CreateSuperuserStep(s: State, email: string, password: Option<string>, extra: ExtraFields, now: nat): (o: Step<Id>)
    ensures SuperuserFields(extra).Err? ==> o == Step(Err(SuperuserFields(extra).error), s)
    ensures SuperuserFields(extra).Ok? ==> o == CreateUserStep(s, email, password, SuperuserFields(extra).value, now)
  {
    match SuperuserFields(extra)
    case Err(e) => Step(Err(e), s)
    case Ok(filled) => CreateUserStep(s, email, password, filled, now)
  }

  /** A user created without extra fields is an active STUDENT who is not
      staff. */
  lemma PlainUserDefaults(s: State, email: string, password: Option<string>, now: nat)
    requires CreateUserStep(s, email, password, ExtraFields(None, None, None, None, None, None), now).response.Ok?
    ensures var o := CreateUserStep(s, email, password, ExtraFields(None, None, None, None, None, None), now);
      var u := o.after.users[o.response.value];
      u.role == Student && u.isActive && !u.isStaff && !u.isSuperuser && u.profilePicture == None
  {
  }

  /** A superuser is saved as staff and superuser, and is an active ADMIN
      unless the caller said otherwise. */
  lemma SuperuserFlags(s: State, email: string, password: Option<string>, extra: ExtraFields, now: nat)
    requires CreateSuperuserStep(s, email, password, extra, now).response.Ok?
    ensures var o := CreateSuperuserStep(s, email, password, extra, now);
      var u := o.after.users[o.response.value];
      && u.isStaff && u.isSuperuser
      && (extra.role == None ==> u.role == Admin)
      && (extra.isActive == None ==> u.isActive)
      && u.email == NormalizeEmail(email)
  {
  }

  /** A staff or superuser flag passed as False is refused and nothing is
      saved. */
  lemma SuperuserFlagsChecked(s: State, email: string, password: Option<string>, extra: ExtraFields, now: nat)
    requires extra.isStaff == Some(false) || extra.isSuperuser == Some(false)
    ensures CreateSuperuserStep(s, email, password, extra, now).response.Err?
    ensures CreateSuperuserStep(s, email, password, extra, now).response.error.ValueError?
    ensures CreateSuperuserStep(s, email, password, extra, now).after == s
  {
  }

  /** Creating a user keeps every e-mail address unique and every reference
      intact. */
  lemma CreateUserConsistent(s: State, email: string, password: Option<string>, extra: ExtraFields, now: nat)
    requires Consistent(s)
    ensures Consistent(CreateUserStep(s, email, password, extra, now).after)
  {
    var o := CreateUserStep(s, email, password, extra, now);
    if o.response.Ok? {
      var u := NewUser(NormalizeEmail(email), password, extra, now);
      AddedUserUnique(s.users, o.response.value, u);
      UsersReplacedConsistent(s, o.after.users);
    }
  }

  /** A row whose address no stored user has keeps the addresses unique. */
  lemma AddedUserUnique(users: map<Id, User>, id: Id, u: User)
    requires UniqueEmails(users) && id !in users
    requires forall k :: k in users ==> users[k].email != u.email
    ensures UniqueEmails(users[id := u])
  {
  }

  /** `create_user` on the database. */
  method CreateUser(db: Db, email: string, password: Option<string>, extra: ExtraFields, now: nat) returns (res: Result<Id>)
    modifies db
    ensures res == CreateUserStep(old(db.Snapshot()), email, password, extra, now).response
    ensures db.Snapshot() == CreateUserStep(old(db.Snapshot()), email, password, extra, now).after
  {
    if email == [] {
      return Err(ValueError(EmailRequired));
    }
    var normalized := NormalizeEmail(email);
    if EmailTaken(db.Snapshot(), normalized) {
      return Err(IntegrityError("email"));
    }
    var id := FreshId(db.users.Keys);
    db.users := db.users[id := NewUser(normalized, password, extra, now)];
    res := Ok(id);
  }

  /** `create_superuser` on the database. */
  method CreateSuperuser(db: Db, email: string, password: Option<string>, extra: ExtraFields, now: nat) returns (res: Result<Id>)
    modifies db
    ensures res == CreateSuperuserStep(old(db.Snapshot()), email, password, extra, now).response
    ensures db.Snapshot() == CreateSuperuserStep(old(db.Snapshot()), email, password, extra, now).after
  {
    var filled := SuperuserFields(extra);
    if filled.Err? {
      return Err(filled.error);
    }
    res := CreateUser(db, email, password, filled.value, now);
  }
}

=== FILE: accounts_models.dfy ===
/** The account model of accounts/models.py: roles, the user record with its
    defaults, the display-name helpers, and the principal a request is made
    by. */
module AccountsModels {
  import opened Common

  datatype Role = Admin | Professor | Student

  /** The value stored in the `role` column. */
  function RoleCode(r: Role): (code: string)
    ensures code in {"ADMIN", "PROFESSOR", "STUDENT"}
  {
    match r
    case Admin => "ADMIN"
    case Professor => "PROFESSOR"
    case Student => "STUDENT"
  }

  lemma RoleCodeInjective(a: Role, b: Role)
    ensures RoleCode(a) == RoleCode(b) <==> a == b
  {
  }

  /** "Moderator": the roles listed in every `role in ['ADMIN', 'PROFESSOR']`. */
  predicate IsModeratorRole(r: Role) {
    r == Admin || r == Professor
  }

  /** The user a request is made by: anonymous, or an authenticated account
      with its id and role. */
  datatype Principal = Anonymous | Member(id: Id, role: Role) {
    predicate IsAuthenticated() {
      Member?
    }

    predicate IsModerator() {
      Member? && IsModeratorRole(role)
    }
  }

  datatype User = User(
    email: string,
    password: Option<string>,      // the argument of set_password (see README)
    firstName: string,
    lastName: string,
    role: Role,
    profilePicture: Option<string>, // the media URL of the stored image
    isActive: bool,
    isStaff: bool,
    isSuperuser: bool,
    dateJoined: nat)

  /** `get_full_name`: the first name, one space, the last name. */
  function FullName(u: User): (r: string)
    ensures |r| == |u.firstName| + 1 + |u.lastName|
    ensures r[..|u.firstName|] == ShortName(u)
    ensures r[|u.firstName|] == ' ' && r[|u.firstName| + 1..] == u.lastName
  {
    u.firstName + " " + u.lastName
  }

  /** `get_short_name`: the first name. */
  function ShortName(u: User): string {
    u.firstName
  }

  /** The keyword arguments `create_user` accepts besides email and password;
      `None` means the argument was not passed. */
  datatype ExtraFields = ExtraFields(
    firstName: Option<string>,
    lastName: Option<string>,
    role: Option<Role>,
    isActive: Option<bool>,
    isStaff: Option<bool>,
    isSuperuser: Option<bool>)

  function OrElse<T>(o: Option<T>, default: T): T {
    match o
    case Some(v) => v
    case None => default
  }

  /** The user `self.model(email=email, **extra_fields)` builds: every field
      not passed takes the model default (role STUDENT, active, not staff,
      not superuser, no picture, empty names, joined now). */
  function NewUser(email: string, password: Option<string>, extra: ExtraFields, now: nat): (u: User)
    ensures u.email == email && u.password == password && u.dateJoined == now
    ensures u.profilePicture == None
    ensures extra.role == None ==> u.role == Student
    ensures extra.isActive == None ==> u.isActive
    ensures extra.isStaff == None ==> !u.isStaff
    ensures extra.isSuperuser == None ==> !u.isSuperuser
    ensures extra.role.Some? ==> u.role == extra.role.value
    ensures extra.isActive.Some? ==> u.isActive == extra.isActive.value
    ensures extra.isStaff.Some? ==> u.isStaff == extra.isStaff.value
    ensures extra.isSuperuser.Some? ==> u.isSuperuser == extra.isSuperuser.value
    ensures u.firstName == (if extra.firstName.Some? then extra.firstName.value else "")
    ensures u.lastName == (if extra.lastName.Some? then extra.lastName.value else "")
  {
    User(
      email, password,
      OrElse(extra.firstName, ""), OrElse(extra.lastName, ""),
      OrElse(extra.role, Student),
      None,
      OrElse(extra.isActive, true),
      OrElse(extra.isStaff, false),
      OrElse(extra.isSuperuser, false),
      now)
  }

  /** The argument handling of `create_superuser`: `setdefault` fills in
      staff, superuser, ADMIN and active, then a staff or superuser flag that
      is not True is rejected. */
  function SuperuserFields(extra: ExtraFields): (r: Result<ExtraFields>)
    ensures r.Ok? <==> extra.isStaff != Some(false) && extra.isSuperuser != Some(false)
    ensures r.Err? ==> r.error.ValueError?
    ensures r.Ok? ==> r.value.isStaff == Some(true) && r.value.isSuperuser == Some(true)
    ensures r.Ok? ==> r.value.role == Some(OrElse(extra.role, Admin))
    ensures r.Ok? ==> r.value.isActive == Some(OrElse(extra.isActive, true))
    ensures r.Ok? ==> r.value.firstName == extra.firstName && r.value.lastName == extra.lastName
  {
    var filled := extra.(
      isStaff := Some(OrElse(extra.isStaff, true)),
      isSuperuser := Some(OrElse(extra.isSuperuser, true)),
      role := Some(OrElse(extra.role, Admin)),
      isActive := Some(OrElse(extra.isActive, true)));
    DefaultTrue(extra.isStaff);
    DefaultTrue(extra.isSuperuser);
    if filled.isStaff != Some(true) then Err(ValueError("Superuser must have is_staff=True."))
    else if filled.isSuperuser != Some(true) then Err(ValueError("Superuser must have is_superuser=True."))
    else Ok(filled)
  }

  lemma DefaultTrue(o: Option<bool>)
    ensures Some(OrElse(o, true)) == Some(true) <==> o != Some(false)
  {
    match o {
      case None =>
      case Some(v) => if v { assert o == Some(true); } else { assert o == Some(false); }
    }
  }
}

=== FILE: analytics.dfy ===
/** The two read-only endpoints of back/analytics/views.py: the platform
    statistics and the statistics of one category. Timestamps are seconds
    and the current time is a parameter. */
module Analytics {
  import opened Common
  import A = AccountsModels
  import P = PostsModels
  import opened Store
  import Ranking
  import Access

  /** `timedelta(days=7)` in seconds. */
  const Week: nat := 604800
  const TopPostersLimit: nat := 10
  const MostCommentedLimit: nat := 10
  const TopPostsLimit: nat := 5

  // ---------------------------------------------------------------------------
  // The sets counted

  function PublishedPosts(s: State): (ids: set<Id>)
    ensures forall p :: p in ids <==> p in s.posts && s.posts[p].status == P.Published
  {
    set p | p in s.posts && s.posts[p].status == P.Published
  }

  /** The PUBLISHED posts of a user. */
  function PublishedBy(s: State, user: Id): (ids: set<Id>)
    ensures ids <= PublishedPosts(s)
    ensures forall p :: p in ids <==> p in PublishedPosts(s) && s.posts[p].author == user
  {
    set p | p in s.posts && s.posts[p].status == P.Published && s.posts[p].author == user
  }

  function ActiveUsers(s: State): (ids: set<Id>)
    ensures forall u :: u in ids <==> u in s.users && s.users[u].isActive
  {
    set u | u in s.users && s.users[u].isActive
  }

  /** `created_at__gte=week_ago`: from one week before `now` on, with no
      upper bound. */
  function RecentPublished(s: State, now: nat): (ids: set<Id>)
    ensures ids <= PublishedPosts(s)
  {
    set p | p in s.posts && s.posts[p].status == P.Published && s.posts[p].createdAt as int >= now as int - Week as int
  }

  /** The window includes its lower end and posts dated after `now`. */
  lemma RecentWindow(s: State, now: nat, p: Id)
    requires p in PublishedPosts(s)
    ensures s.posts[p].createdAt + Week == now ==> p in RecentPublished(s, now)
    ensures s.posts[p].createdAt > now ==> p in RecentPublished(s, now)
    ensures s.posts[p].createdAt + Week < now ==> p !in RecentPublished(s, now)
  {
  }

  /** The comments on the PUBLISHED posts of a category
      (`Count('posts__comments', filter=Q(posts__status='PUBLISHED'))`). */
  function CommentsOnPublished(s: State, category: Id): (ids: set<Id>)
    ensures ids <= s.comments.Keys
    ensures forall c :: c in ids <==> c in s.comments && s.comments[c].post in PublishedPostsOf(s, category)
  {
    set c | c in s.comments && s.comments[c].post in PublishedPostsOf(s, category)
  }

  // ---------------------------------------------------------------------------
  // statistics

  datatype General = General(totalPosts: nat, totalComments: nat, totalUsers: nat, recentPostsWeek: nat)
  datatype CategoryCount = CategoryCount(id: Id, name: string, count: nat)
  datatype PosterRow = PosterRow(id: Id, fullName: string, email: string, postsCount: nat)
  datatype Stats = Stats(
    general: General,
    postsByCategory: seq<CategoryCount>,
    topPosters: seq<PosterRow>,
    categoriesMostCommented: seq<CategoryCount>)

  function GeneralOf(s: State, now: nat): (g: General)
    ensures g.totalPosts == |PublishedPosts(s)| && g.totalComments == |s.comments|
    ensures g.totalUsers == |ActiveUsers(s)| && g.recentPostsWeek == |RecentPublished(s, now)|
    ensures g.recentPostsWeek <= g.totalPosts
  {
    CardinalityMono(RecentPublished(s, now), PublishedPosts(s));
    General(|PublishedPosts(s)|, |s.comments|, |ActiveUsers(s)|, |RecentPublished(s, now)|)
  }

  function CategoryIds(rows: seq<CategoryCount>): (ids: seq<Id>)
    ensures |ids| == |rows| && forall k :: 0 <= k < |rows| ==> ids[k] == rows[k].id
  {
    seq(|rows|, k requires 0 <= k < |rows| => rows[k].id)
  }

  /** `.values('id', 'name', <count>)` over an ordered list of categories. */
  function CategoryRows(s: State, ids: seq<Id>, counts: map<Id, nat>): (rows: seq<CategoryCount>)
    requires forall c :: c in ids ==> c in s.categories && c in counts
    ensures |rows| == |ids|
    ensures forall k :: 0 <= k < |ids| ==> rows[k] == CategoryCount(ids[k], s.categories[ids[k]].name, counts[ids[k]])
    ensures CategoryIds(rows) == ids
  {
    seq(|ids|, k requires 0 <= k < |ids| => CategoryCount(ids[k], s.categories[ids[k]].name, counts[ids[k]]))
  }

  function PublishedCounts(s: State): (counts: map<Id, nat>)
    ensures counts.Keys == s.categories.Keys
    ensures forall c :: c in counts ==> counts[c] == PostsCount(s, c)
  {
    map c | c in s.categories :: PostsCount(s, c)
  }

  /** `posts_by_category`: every category once, with the number of its
      PUBLISHED posts, largest count first. */
  function PostsByCategory(s: State): (rows: seq<CategoryCount>)
    ensures |rows| == |s.categories|
    ensures Ranking.Distinct(CategoryIds(rows))
    ensures forall c :: c in CategoryIds(rows) <==> c in s.categories
    ensures forall k :: 0 <= k < |rows| ==>
      rows[k].id in s.categories && rows[k].count == |PublishedPostsOf(s, rows[k].id)|
      && rows[k].name == s.categories[rows[k].id].name
    ensures forall i, j :: 0 <= i < j < |rows| ==> rows[i].count >= rows[j].count
  {
    var order := Ranking.OrderedBy(s.categories.Keys, PublishedCounts(s));
    CategoryRows(s, order, PublishedCounts(s))
  }

  function CommentCounts(s: State): (counts: map<Id, nat>)
    ensures counts.Keys == s.categories.Keys
    ensures forall c :: c in counts ==> counts[c] == |CommentsOnPublished(s, c)|
  {
    map c | c in s.categories :: |CommentsOnPublished(s, c)|
  }

  /** The categories with at least one comment on a PUBLISHED post. */
  function Commented(s: State): (ids: set<Id>)
    ensures forall c :: c in ids <==> c in s.categories && |CommentsOnPublished(s, c)| > 0
  {
    set c | c in s.categories && |CommentsOnPublished(s, c)| > 0
  }

  /** `categories_most_commented`: at most 10 categories, each with a
      positive count of comments on its PUBLISHED posts, largest first, and
      no category left out has more comments than one listed. */
  function MostCommented(s: State): (rows: seq<CategoryCount>)
    ensures |rows| <= MostCommentedLimit
    ensures Ranking.Distinct(CategoryIds(rows))
    ensures forall k :: 0 <= k < |rows| ==>
      rows[k].id in s.categories && rows[k].count == |CommentsOnPublished(s, rows[k].id)| && rows[k].count > 0
    ensures forall i, j :: 0 <= i < j < |rows| ==> rows[i].count >= rows[j].count
    ensures forall c :: c in Commented(s) && c !in CategoryIds(rows) ==>
      |rows| == MostCommentedLimit && forall k :: 0 <= k < |rows| ==> |CommentsOnPublished(s, c)| <= rows[k].count
  {
    var top := Ranking.FirstK(Commented(s), CommentCounts(s), MostCommentedLimit);
    TopRows(s, Commented(s), CommentCounts(s), MostCommentedLimit, top);
    CategoryRows(s, top, CommentCounts(s))
  }

  /** The rows of a top-k list of categories keep the list's guarantees. */
  lemma TopRows(s: State, candidates: set<Id>, counts: map<Id, nat>, limit: nat, top: seq<Id>)
    requires candidates <= counts.Keys && candidates <= s.categories.Keys
    requires top == Ranking.FirstK(candidates, counts, limit)
    ensures forall c :: c in top ==> c in s.categories && c in counts
    ensures var rows := CategoryRows(s, top, counts);
      && (forall k :: 0 <= k < |rows| ==> rows[k].id in candidates && rows[k].count == counts[rows[k].id])
      && (forall i, j :: 0 <= i < j < |rows| ==> rows[i].count >= rows[j].count)
      && (forall c :: c in candidates && c !in CategoryIds(rows) ==>
           |rows| == limit && forall k :: 0 <= k < |rows| ==> counts[c] <= rows[k].count)
  {
    var rows := CategoryRows(s, top, counts);
    assert CategoryIds(rows) == top;
    forall k | 0 <= k < |rows| ensures rows[k].id in candidates && rows[k].count == counts[rows[k].id] {
      assert rows[k].id == top[k] && top[k] in top;
    }
    forall i, j | 0 <= i < j < |rows| ensures rows[i].count >= rows[j].count {
      assert rows[i].count == counts[top[i]] && rows[j].count == counts[top[j]];
    }
    forall c | c in candidates && c !in top
      ensures |rows| == limit && forall k :: 0 <= k < |rows| ==> counts[c] <= rows[k].count
    {
      forall k | 0 <= k < |rows| ensures counts[c] <= rows[k].count {
        assert top[k] in top && rows[k].count == counts[top[k]];
      }
    }
  }

  function Posters(s: State): (ids: set<Id>)
    ensures forall u :: u in ids <==> u in s.users && |PublishedBy(s, u)| > 0
  {
    set u | u in s.users && |PublishedBy(s, u)| > 0
  }

  function PosterCounts(s: State): (counts: map<Id, nat>)
    ensures counts.Keys == s.users.Keys
    ensures forall u :: u in counts ==> counts[u] == |PublishedBy(s, u)|
  {
    map u | u in s.users :: |PublishedBy(s, u)|
  }

  /** The users `top_posters_raw` yields: at most 10 users with PUBLISHED
      posts, most posts first; no user left out has more. Active or not. */
  function TopPosterIds(s: State): (ids: seq<Id>)
    ensures |ids| <= TopPostersLimit
    ensures Ranking.Distinct(ids)
    ensures forall u :: u in ids ==> u in Posters(s)
    ensures forall i, j :: 0 <= i < j < |ids| ==> |PublishedBy(s, ids[i])| >= |PublishedBy(s, ids[j])|
    ensures forall u :: u in Posters(s) && u !in ids ==>
      |ids| == TopPostersLimit && forall v :: v in ids ==> |PublishedBy(s, u)| <= |PublishedBy(s, v)|
  {
    Ranking.FirstK(Posters(s), PosterCounts(s), TopPostersLimit)
  }

  /** The row the loop appends for a user. */
  function PosterRowOf(s: State, u: Id): (row: PosterRow)
    requires u in s.users
    ensures row.id == u && row.postsCount == |PublishedBy(s, u)|
    ensures row.fullName == A.FullName(s.users[u]) && row.email == s.users[u].email
  {
    PosterRow(u, A.FullName(s.users[u]), s.users[u].email, |PublishedBy(s, u)|)
  }

  /** The `for user in top_posters_raw` loop: one row per user, in order. */
  method PosterRows(s: State, raw: seq<Id>) returns (rows: seq<PosterRow>)
    requires forall u :: u in raw ==> u in s.users
    ensures |rows| == |raw|
    ensures forall k :: 0 <= k < |raw| ==> rows[k] == PosterRowOf(s, raw[k])
  {
    rows := [];
    var i := 0;
    while i < |raw|
      invariant 0 <= i <= |raw|
      invariant |rows| == i
      invariant forall k :: 0 <= k < i ==> rows[k] == PosterRowOf(s, raw[k])
    {
      var user := s.users[raw[i]];
      rows := rows + [PosterRow(raw[i], A.FullName(user), user.email, |PublishedBy(s, raw[i])|)];
      i := i + 1;
    }
  }

  lemma TopPostersAreUsers(s: State)
    ensures forall u :: u in TopPosterIds(s) ==> u in s.users
  {
  }

  /** `statistics`. The general counts and the two category lists are
      queries; `top_posters` is built by a loop over the top users. */
  method Statistics(s: State, p: A.Principal, now: nat) returns (r: Result<Stats>)
    ensures p.Anonymous? ==> r == Err(NotAuthenticated)
    ensures p.Member? ==> r.Ok?
    ensures r.Ok? ==> r.value.general == GeneralOf(s, now)
    ensures r.Ok? ==> r.value.postsByCategory == PostsByCategory(s)
    ensures r.Ok? ==> r.value.categoriesMostCommented == MostCommented(s)
    ensures r.Ok? ==> |r.value.topPosters| == |TopPosterIds(s)|
    ensures r.Ok? ==> forall k :: 0 <= k < |r.value.topPosters| ==>
      TopPosterIds(s)[k] in s.users && r.value.topPosters[k] == PosterRowOf(s, TopPosterIds(s)[k])
  {
    var denied := Access.Gate(Access.IsAuthenticated, p);
    if denied.Some? {
      return Err(denied.value);
    }
    var raw := TopPosterIds(s);
    TopPostersAreUsers(s);
    var topPosters := PosterRows(s, raw);
    r := Ok(Stats(GeneralOf(s, now), PostsByCategory(s), topPosters, MostCommented(s)));
  }

  /** Every listed top poster has at least one PUBLISHED post, and their
      counts are in non-increasing order. */
  lemma TopPostersRows(s: State, rows: seq<PosterRow>)
    requires |rows| == |TopPosterIds(s)|
    requires forall k :: 0 <= k < |rows| ==> TopPosterIds(s)[k] in s.users && rows[k] == PosterRowOf(s, TopPosterIds(s)[k])
    ensures |rows| <= TopPostersLimit
    ensures forall k :: 0 <= k < |rows| ==> rows[k].postsCount >= 1 && rows[k].id in s.users
    ensures forall i, j :: 0 <= i < j < |rows| ==> rows[i].postsCount >= rows[j].postsCount
  {
    forall k | 0 <= k < |rows| ensures rows[k].postsCount >= 1 {
      assert TopPosterIds(s)[k] in Posters(s);
    }
  }

  // ---------------------------------------------------------------------------
  // The per-category counts add up to the total

  function SumCounts(rows: seq<CategoryCount>): nat {
    if rows == [] then 0 else rows[0].count + SumCounts(rows[1..])
  }

  /** The PUBLISHED posts of the given categories. */
  function PublishedIn(s: State, categories: set<Id>): set<Id> {
    set p | p in s.posts && s.posts[p].status == P.Published && s.posts[p].category in categories
  }

  lemma {:induction false} SumIsPublishedIn(s: State, rows: seq<CategoryCount>)
    requires Ranking.Distinct(CategoryIds(rows))
    requires forall k :: 0 <= k < |rows| ==> rows[k].count == |PublishedPostsOf(s, rows[k].id)|
    ensures SumCounts(rows) == |PublishedIn(s, Ranking.Elems(CategoryIds(rows)))|
  {
    if rows != [] {
      var rest := rows[1..];
      assert CategoryIds(rest) == CategoryIds(rows)[1..];
      SumIsPublishedIn(s, rest);
      var restIds := Ranking.Elems(CategoryIds(rest));
      assert rows[0].id !in restIds by {
        forall k | 0 <= k < |rest| ensures rest[k].id != rows[0].id {
          assert CategoryIds(rows)[k + 1] == rest[k].id;
        }
      }
      assert Ranking.Elems(CategoryIds(rows)) == {rows[0].id} + restIds by {
        assert CategoryIds(rows) == [rows[0].id] + CategoryIds(rest);
      }
      PublishedInSplit(s, rows[0].id, restIds);
    }
  }

  /** Adding one more category adds exactly its PUBLISHED posts. */
  lemma PublishedInSplit(s: State, c: Id, categories: set<Id>)
    requires c !in categories
    ensures |PublishedIn(s, {c} + categories)| == |PublishedPostsOf(s, c)| + |PublishedIn(s, categories)|
  {
    var head := PublishedPostsOf(s, c);
    var tail := PublishedIn(s, categories);
    assert PublishedIn(s, {c} + categories) == head + tail;
    assert head * tail == {};
  }

  /** In a consistent database the PUBLISHED counts of `posts_by_category`
      add up to `total_posts`. */
  lemma PostsByCategoryAddsUp(s: State, now: nat)
    requires Consistent(s)
    ensures SumCounts(PostsByCategory(s)) == GeneralOf(s, now).totalPosts
  {
    SumIsPublishedIn(s, PostsByCategory(s));
    EveryCategoryListed(s);
    PublishedInEveryCategory(s);
  }

  lemma EveryCategoryListed(s: State)
    ensures Ranking.Elems(CategoryIds(PostsByCategory(s))) == s.categories.Keys
  {
    var ids := CategoryIds(PostsByCategory(s));
    assert forall c :: c in Ranking.Elems(ids) <==> c in ids;
  }

  lemma PublishedInEveryCategory(s: State)
    requires Consistent(s)
    ensures PublishedIn(s, s.categories.Keys) == PublishedPosts(s)
  {
    forall q | q in PublishedPosts(s) ensures q in PublishedIn(s, s.categories.Keys) {
      assert PostRefsOk(s, s.posts[q]);
    }
  }

  // ---------------------------------------------------------------------------
  // category_stats

  datatype TopPost = TopPost(id: Id, title: string, commentsCount: nat, createdAt: nat)
  datatype CategoryStatsData = CategoryStatsData(
    id: Id, name: string, description: Option<string>,
    totalPosts: nat, totalComments: nat, topPosts: seq<TopPost>)

  function CommentCountsOf(s: State, posts: set<Id>): (counts: map<Id, nat>)
    requires posts <= s.posts.Keys
    ensures counts.Keys == posts
    ensures forall q :: q in counts ==> counts[q] == CommentsCount(s, q)
  {
    map q | q in posts :: CommentsCount(s, q)
  }

  /** `top_posts`: at most 5 of the category's PUBLISHED posts, most
      commented first; none left out has more comments. */
  function TopPosts(s: State, category: Id): (rows: seq<TopPost>)
    ensures |rows| == Ranking.Min(TopPostsLimit, |PublishedPostsOf(s, category)|)
    ensures forall i, j :: 0 <= i < j < |rows| ==> rows[i].id != rows[j].id
    ensures forall k :: 0 <= k < |rows| ==>
      rows[k].id in PublishedPostsOf(s, category) && rows[k].commentsCount == |CommentsOn(s, rows[k].id)|
    ensures forall i, j :: 0 <= i < j < |rows| ==> rows[i].commentsCount >= rows[j].commentsCount
    ensures forall q :: q in PublishedPostsOf(s, category) && (forall k :: 0 <= k < |rows| ==> rows[k].id != q) ==>
      |rows| == TopPostsLimit && forall k :: 0 <= k < |rows| ==> |CommentsOn(s, q)| <= rows[k].commentsCount
  {
    var published := PublishedPostsOf(s, category);
    var counts := CommentCountsOf(s, published);
    var top := Ranking.FirstK(published, counts, TopPostsLimit);
    TopPostRowsOk(s, published, counts, top);
    TopPostRows(s, top, counts)
  }

  function TopPostRows(s: State, top: seq<Id>, counts: map<Id, nat>): (rows: seq<TopPost>)
    requires forall q :: q in top ==> q in s.posts && q in counts
    ensures |rows| == |top|
    ensures forall k :: 0 <= k < |top| ==> rows[k] == TopPost(top[k], s.posts[top[k]].title, counts[top[k]], s.posts[top[k]].createdAt)
  {
    seq(|top|, k requires 0 <= k < |top| =>
      TopPost(top[k], s.posts[top[k]].title, counts[top[k]], s.posts[top[k]].createdAt))
  }

  lemma TopPostRowsOk(s: State, published: set<Id>, counts: map<Id, nat>, top: seq<Id>)
    requires published <= s.posts.Keys && published <= counts.Keys
    requires top == Ranking.FirstK(published, counts, TopPostsLimit)
    ensures forall q :: q in top ==> q in s.posts && q in counts
    ensures var rows := TopPostRows(s, top, counts);
      && (forall k :: 0 <= k < |rows| ==> rows[k].id in published && rows[k].commentsCount == counts[rows[k].id])
      && (forall i, j :: 0 <= i < j < |rows| ==> rows[i].id != rows[j].id)
      && (forall i, j :: 0 <= i < j < |rows| ==> rows[i].commentsCount >= rows[j].commentsCount)
      && (forall q :: q in published && (forall k :: 0 <= k < |rows| ==> rows[k].id != q) ==>
           |rows| == TopPostsLimit && forall k :: 0 <= k < |rows| ==> counts[q] <= rows[k].commentsCount)
  {
    var rows := TopPostRows(s, top, counts);
    forall q | q in published && (forall k :: 0 <= k < |rows| ==> rows[k].id != q)
      ensures |rows| == TopPostsLimit && forall k :: 0 <= k < |rows| ==> counts[q] <= rows[k].commentsCount
    {
      assert q !in top;
      forall k | 0 <= k < |rows| ensures counts[q] <= rows[k].commentsCount {
        assert top[k] in top;
      }
    }
  }

  /** `category_stats`: 404 for an unknown category; otherwise its PUBLISHED
      posts, the comments on exactly those, and the top five. */
  function CategoryStats(s: State, p: A.Principal, category: Id): (r: Result<CategoryStatsData>)
    ensures p.Anonymous? ==> r == Err(NotAuthenticated)
    ensures p.Member? && category !in s.categories ==> r == Err(NotFound)
    ensures r.Ok? <==> p.Member? && category in s.categories
    ensures r.Ok? ==> r.value.id == category && r.value.name == s.categories[category].name
    ensures r.Ok? ==> r.value.description == s.categories[category].description
    ensures r.Ok? ==> r.value.totalPosts == |PublishedPostsOf(s, category)|
    ensures r.Ok? ==> r.value.totalComments == |CommentsOnPublished(s, category)|
    ensures r.Ok? ==> r.value.topPosts == TopPosts(s, category)
  {
    var denied := Access.Gate(Access.IsAuthenticated, p);
    if denied.Some? then Err(denied.value)
    else if category !in s.categories then Err(NotFound)
    else
      var c := s.categories[category];
      Ok(CategoryStatsData(category, c.name, c.description,
                           |PublishedPostsOf(s, category)|, |CommentsOnPublished(s, category)|,
                           TopPosts(s, category)))
  }

  /** No single top post has more comments than the category total. */
  lemma TopPostWithinTotal(s: State, category: Id, k: nat)
    requires k < |TopPosts(s, category)|
    ensures TopPosts(s, category)[k].commentsCount <= |CommentsOnPublished(s, category)|
  {
    var q := TopPosts(s, category)[k].id;
    assert CommentsOn(s, q) <= CommentsOnPublished(s, category);
    CardinalityMono(CommentsOn(s, q), CommentsOnPublished(s, category));
  }
}

=== FILE: categories_models.dfy ===
/** The category model of categories/models.py. */
module CategoriesModels {
  import opened Common

  datatype Status = Active | Inactive | Archived

  /** The value stored in the `status` column and accepted as `?status=`. */
  function StatusCode(s: Status): (code: string)
    ensures code in {"ACTIVE", "INACTIVE", "ARCHIVED"}
  {
    match s
    case Active => "ACTIVE"
    case Inactive => "INACTIVE"
    case Archived => "ARCHIVED"
  }

  /** `name` is a unique CharField of at most 100 characters. */
  const MaxNameLength: nat := 100

  datatype Category = Category(
    name: string,
    description: Option<string>,
    status: Status,
    createdBy: Option<Id>,   // SET_NULL when the creator is deleted
    createdAt: nat)

  /** A new row: the status takes its default ACTIVE unless one is given. */
  function NewCategory(name: string, description: Option<string>, status: Option<Status>,
                       createdBy: Option<Id>, now: nat): (c: Category)
    ensures c.name == name && c.description == description && c.createdBy == createdBy
    ensures status == None ==> c.status == Active
    ensures status.Some? ==> c.status == status.value
  {
    Category(name, description, if status.Some? then status.value else Active, createdBy, now)
  }
}

=== FILE: category_permissions.dfy ===
/** The permission class of categories/permissions.py. */
module CategoryPermissions {
  import opened AccountsModels

  /** `IsAdminOrProfessor.has_permission`: an authenticated ADMIN or
      PROFESSOR. It looks at the principal only, never at a target object. */
  function HasPermission(p: Principal): (allowed: bool)
    ensures p.Anonymous? ==> !allowed
    ensures p.Member? ==> (allowed <==> p.role != Student)
    ensures allowed <==> p.IsModerator()
  {
    if p.IsAuthenticated() then IsModeratorRole(p.role) else false
  }
}

=== FILE: category_serializers.dfy ===
/** `CategorySerializer` of categories/serializers.py: the name check and the
    representation returned by every category endpoint. */
module CategorySerializers {
  import opened Common
  import C = CategoriesModels
  import opened Store
  import Text

  /** Another category already uses the name; on an update the instance
      itself does not count. */
  predicate NameTaken(s: State, name: string, instance: Option<Id>) {
    exists c :: c in s.categories && s.categories[c].name == name && Some(c) != instance
  }

  /** The checks on `name`, made on the name with its surrounding whitespace
      cut off (the `CharField` default): the model field's (required, not
      blank, at most 100 characters), the unique field's and
      `validate_name`'s uniqueness check. Every failure is reported under the
      key `name`; the stripped name is what is kept. */
  function ValidateName(s: State, name: string, instance: Option<Id>): (r: Result<string>)
    ensures r.Ok? <==>
      var n := Text.Strip(name); n != "" && |n| <= C.MaxNameLength && !NameTaken(s, n, instance)
    ensures r.Ok? ==> r.value == Text.Strip(name)
    ensures r.Err? ==> r.error == ValidationError({"name"})
  {
    var n := Text.Strip(name);
    if n == "" || |n| > C.MaxNameLength || NameTaken(s, n, instance) then
      Err(ValidationError({"name"}))
    else Ok(n)
  }

  /** On create, a name that is an existing category's once its surrounding
      whitespace is cut off is refused. */
  lemma CreateRefusesExistingName(s: State, c: Id, name: string)
    requires c in s.categories && s.categories[c].name == Text.Strip(name)
    ensures ValidateName(s, name, None) == Err(ValidationError({"name"}))
  {
    assert NameTaken(s, Text.Strip(name), None);
  }

  /** On update, a category may keep its own name, as stored by the
      serializer (without surrounding whitespace). */
  lemma UpdateMayKeepOwnName(s: State, c: Id)
    requires UniqueNames(s.categories)
    requires c in s.categories
    requires Text.Trimmed(s.categories[c].name)
    requires s.categories[c].name != "" && |s.categories[c].name| <= C.MaxNameLength
    ensures ValidateName(s, s.categories[c].name, Some(c)) == Ok(s.categories[c].name)
  {
    Text.StripTrimmed(s.categories[c].name);
  }

  /** A name that passes the check can be stored, as the check returns it,
      under the instance's id without breaking the uniqueness of names. */
  lemma AcceptedNameStaysUnique(s: State, name: string, id: Id, instance: Option<Id>, c: C.Category)
    requires UniqueNames(s.categories)
    requires ValidateName(s, name, instance).Ok?
    requires (instance == None && id !in s.categories) || instance == Some(id)
    requires c.name == ValidateName(s, name, instance).value
    ensures UniqueNames(s.categories[id := c])
  {
    var t := s.categories[id := c];
    assert forall o :: o in s.categories && Some(o) != instance ==> s.categories[o].name != c.name;
    forall a, b | a in t && b in t && t[a].name == t[b].name ensures a == b {
      assert a != id ==> t[a] == s.categories[a];
      assert b != id ==> t[b] == s.categories[b];
    }
  }

  /** The serialized category. */
  datatype CategoryData = CategoryData(
    id: Id, name: string, description: Option<string>, status: C.Status,
    createdBy: Option<Id>, createdAt: nat, postsCount: nat)

  /** The representation; `get_posts_count` yields the annotated count or the
      model property, both the number of PUBLISHED posts. */
  function Serialize(s: State, id: Id): (d: CategoryData)
    requires id in s.categories
    ensures d.id == id && d.name == s.categories[id].name && d.status == s.categories[id].status
    ensures d.createdBy == s.categories[id].createdBy
    ensures d.description == s.categories[id].description && d.createdAt == s.categories[id].createdAt
    ensures d.postsCount == |PublishedPostsOf(s, id)| && d.postsCount <= |PostsOf(s, id)|
  {
    var c := s.categories[id];
    CategoryData(id, c.name, c.description, c.status, c.createdBy, c.createdAt, PostsCount(s, id))
  }

  /** The stored description: the text sent without its surrounding
      whitespace, or null. */
  function CleanDescription(d: Option<string>): (r: Option<string>)
    ensures r.None? <==> d.None?
    ensures r.Some? ==> r.value == Text.Strip(d.value)
  {
    match d
    case None => None
    case Some(text) => Some(Text.Strip(text))
  }

  /** What a client may write; `created_by`, the timestamps and
      `posts_count` are read-only and so have no place here. A `None` field
      was not sent. */
  datatype CategoryInput = CategoryInput(
    name: Option<string>, description: Option<Option<string>>, status: Option<C.Status>)
}

=== FILE: category_views.dfy ===
/** `CategoryViewSet` of categories/views.py: which permission each action
    needs, which categories a request can see, and the actions that change a
    category's status, create it or delete it. */
module CategoryViews {
  import opened Common
  import opened AccountsModels
  import C = CategoriesModels
  import opened Store
  import opened CategorySerializers
  import Access
  import Text

  datatype Action =
    | List | Retrieve | Create | Update | PartialUpdate | Destroy
    | ToggleStatus | Archive | Restore
    | Other   // any request DRF routes to no named action, such as OPTIONS

  /** `get_permissions`. */
  function PermissionFor(a: Action): (perm: Access.Permission)
    ensures perm == Access.AllowAny <==> a == List || a == Retrieve
    ensures perm == Access.IsAdminOrProfessor <==>
      a in {Create, Update, PartialUpdate, Destroy, ToggleStatus, Archive, Restore}
    ensures perm == Access.IsAuthenticated <==> a == Other
  {
    match a
    case List | Retrieve => Access.AllowAny
    case Create | Update | PartialUpdate | Destroy | ToggleStatus | Archive | Restore => Access.IsAdminOrProfessor
    case Other => Access.IsAuthenticated
  }

  /** `get_queryset`. `status` is the `?status=` parameter, "" when absent
      (an empty value counts as absent); a value that is no status code
      matches no category. */
  function Queryset(s: State, p: Principal, status: string): (ids: set<Id>)
    ensures ids <= s.categories.Keys
    ensures status != "" ==>
      forall c :: c in ids <==> c in s.categories && C.StatusCode(s.categories[c].status) == status
    ensures status == "" && !p.IsModerator() ==>
      forall c :: c in ids <==> c in s.categories && s.categories[c].status != C.Archived
    ensures status == "" && p.IsModerator() ==> ids == s.categories.Keys
  {
    if status != "" then
      set c | c in s.categories && C.StatusCode(s.categories[c].status) == status
    else if !p.IsAuthenticated() || !IsModeratorRole(p.role) then
      set c | c in s.categories && s.categories[c].status != C.Archived
    else
      s.categories.Keys
  }

  /** With a status parameter the listing does not depend on who asks. */
  lemma StatusFilterIgnoresRole(s: State, p: Principal, q: Principal, status: string)
    requires status != ""
    ensures Queryset(s, p, status) == Queryset(s, q, status)
  {
  }

  /** Without one, anonymous callers and students never see an ARCHIVED
      category, and moderators see every category. */
  lemma DefaultListing(s: State, p: Principal, c: Id)
    requires c in s.categories
    ensures !p.IsModerator() && s.categories[c].status == C.Archived ==> c !in Queryset(s, p, "")
    ensures p.IsModerator() ==> c in Queryset(s, p, "")
    ensures s.categories[c].status != C.Archived ==> c in Queryset(s, p, "")
  {
  }

  /** The permission check and `get_object` of a detail action: the id must
      be in the filtered queryset. */
  function Lookup(s: State, p: Principal, status: string, a: Action, id: Id): (e: Option<Error>)
    ensures e.None? ==> id in s.categories && id in Queryset(s, p, status)
    ensures e.None? <==> Access.Gate(PermissionFor(a), p).None? && id in Queryset(s, p, status)
  {
    var denied := Access.Gate(PermissionFor(a), p);
    if denied.Some? then denied
    else if id !in Queryset(s, p, status) then Some(NotFound)
    else None
  }

  /** Storing a changed category and answering with its representation. */
  function Saved(s: State, id: Id, c: C.Category): (o: Step<CategoryData>)
    ensures o.after == s.(categories := s.categories[id := c])
    ensures o.response.Ok? && o.response.value.id == id && o.response.value.status == c.status
  {
    var t := s.(categories := s.categories[id := c]);
    Step(Ok(Serialize(t, id)), t)
  }

  // ---------------------------------------------------------------------------
  // toggle_status, archive, restore, destroy

  function ToggleStatusStep(s: State, p: Principal, status: string, id: Id): (o: Step<CategoryData>)
    ensures o.response.Err? ==> o.after == s
    ensures o.response.Ok? ==> Lookup(s, p, status, ToggleStatus, id).None?
    ensures o.response.Ok? ==>
      && o.after.categories.Keys == s.categories.Keys
      && o.after.categories[id] == s.categories[id].(status := o.response.value.status)
      && (forall c :: c in s.categories && c != id ==> o.after.categories[c] == s.categories[c])
      && o.after == s.(categories := o.after.categories)
  {
    var e := Lookup(s, p, status, ToggleStatus, id);
    if e.Some? then Step(Err(e.value), s)
    else
      var c := s.categories[id];
      if c.status == C.Active then
        if PublishedPostsOf(s, id) != {} then Step(Err(Refused(HasPublishedPosts)), s)
        else Saved(s, id, c.(status := C.Inactive))
      else Saved(s, id, c.(status := C.Active))
  }

  function ArchiveStep(s: State, p: Principal, status: string, id: Id): (o: Step<CategoryData>)
    ensures o.response.Err? ==> o.after == s && Lookup(s, p, status, Archive, id) == Some(o.response.error)
    ensures o.response.Ok? ==> Lookup(s, p, status, Archive, id).None?
    ensures o.response.Ok? ==>
      o.after == s.(categories := s.categories[id := s.categories[id].(status := C.Archived)])
  {
    var e := Lookup(s, p, status, Archive, id);
    if e.Some? then Step(Err(e.value), s)
    else Saved(s, id, s.categories[id].(status := C.Archived))
  }

  function RestoreStep(s: State, p: Principal, status: string, id: Id): (o: Step<CategoryData>)
    ensures o.response.Err? ==> o.after == s
    ensures Lookup(s, p, status, Restore, id).Some? ==> o.response == Err(Lookup(s, p, status, Restore, id).value)
    ensures Lookup(s, p, status, Restore, id).None? ==>
      (o.response.Ok? <==> s.categories[id].status == C.Archived)
    ensures o.response.Ok? ==> Lookup(s, p, status, Restore, id).None? && s.categories[id].status == C.Archived
    ensures o.response.Ok? ==>
      o.after == s.(categories := s.categories[id := s.categories[id].(status := C.Active)])
  {
    var e := Lookup(s, p, status, Restore, id);
    if e.Some? then Step(Err(e.value), s)
    else if s.categories[id].status == C.Archived then Saved(s, id, s.categories[id].(status := C.Active))
    else Step(Err(Refused(NotArchived)), s)
  }

  function DestroyStep(s: State, p: Principal, status: string, id: Id): (o: Step<()>)
    ensures o.response.Err? ==> o.after == s
    ensures o.response.Ok? <==> Lookup(s, p, status, Destroy, id).None? && PostsOf(s, id) == {}
    ensures o.response.Ok? ==> o.after == s.(categories := s.categories - {id})
  {
    var e := Lookup(s, p, status, Destroy, id);
    if e.Some? then Step(Err(e.value), s)
    else
      var posts := PostsOf(s, id);
      if posts != {} then Step(Err(Refused(HasPosts(|posts|))), s)
      else Step(Ok(()), s.(categories := s.categories - {id}))
  }

  /** `toggle_status` on an ACTIVE category with a PUBLISHED post is refused
      and the category stays ACTIVE. */
  lemma ToggleBlockedByPublishedPosts(s: State, p: Principal, status: string, id: Id)
    requires Lookup(s, p, status, ToggleStatus, id).None?
    requires s.categories[id].status == C.Active && PublishedPostsOf(s, id) != {}
    ensures ToggleStatusStep(s, p, status, id) == Step(Err(Refused(HasPublishedPosts)), s)
  {
  }

  /** Otherwise the toggle turns ACTIVE into INACTIVE, and any other status,
      ARCHIVED included, into ACTIVE. */
  lemma ToggleOutcome(s: State, p: Principal, status: string, id: Id)
    requires Lookup(s, p, status, ToggleStatus, id).None?
    requires s.categories[id].status != C.Active || PublishedPostsOf(s, id) == {}
    ensures ToggleStatusStep(s, p, status, id).response.Ok?
    ensures ToggleStatusStep(s, p, status, id).after.categories[id].status ==
      if s.categories[id].status == C.Active then C.Inactive else C.Active
  {
  }

  /** Archiving twice leaves the database as archiving once. */
  lemma {:induction false} ArchiveIdempotent(s: State, p: Principal, status: string, id: Id)
    ensures var once := ArchiveStep(s, p, status, id).after;
            ArchiveStep(once, p, status, id).after == once
  {
    var once := ArchiveStep(s, p, status, id);
    if once.response.Ok? {
      var t := once.after;
      var twice := ArchiveStep(t, p, status, id);
      if twice.response.Ok? {
        assert t.categories[id].status == C.Archived;
        assert t.categories[id := t.categories[id].(status := C.Archived)] == t.categories;
      }
    }
  }

  /** `restore` of a category that is not ARCHIVED is refused and changes
      nothing. */
  lemma RestoreRefusesOthers(s: State, p: Principal, status: string, id: Id)
    requires Lookup(s, p, status, Restore, id).None?
    requires s.categories[id].status != C.Archived
    ensures RestoreStep(s, p, status, id) == Step(Err(Refused(NotArchived)), s)
  {
  }

  /** `destroy` of a category with posts of any status is refused with their
      number. */
  lemma DestroyRefusedWithPosts(s: State, p: Principal, status: string, id: Id)
    requires Lookup(s, p, status, Destroy, id).None?
    requires PostsOf(s, id) != {}
    ensures DestroyStep(s, p, status, id) == Step(Err(Refused(HasPosts(|PostsOf(s, id)|))), s)
  {
  }

  /** None of the changing actions is open to anyone but a moderator: an
      anonymous caller gets 401, a student 403, and the database is left as
      it was. */
  lemma ModeratorsOnly(s: State, p: Principal, status: string, id: Id)
    requires !p.IsModerator()
    ensures var e := if p.Anonymous? then NotAuthenticated else PermissionDenied;
      && ToggleStatusStep(s, p, status, id) == Step(Err(e), s)
      && ArchiveStep(s, p, status, id) == Step(Err(e), s)
      && RestoreStep(s, p, status, id) == Step(Err(e), s)
      && DestroyStep(s, p, status, id) == Step(Err(e), s)
  {
  }

  // ---------------------------------------------------------------------------
  // create

  /** `create`: the serializer validates the input, then `perform_create`
      saves it with the caller as `created_by`. */
  function CreateStep(s: State, p: Principal, input: CategoryInput, now: nat): (o: Step<CategoryData>)
    ensures o.response.Err? ==> o.after == s
    ensures !p.IsModerator() ==> o.response == Err(Access.Gate(PermissionFor(Create), p).value)
    ensures o.response.Ok? <==>
      p.IsModerator() && input.name.Some? && ValidateName(s, input.name.value, None).Ok?
    ensures o.response.Ok? ==>
      && var id := o.response.value.id;
         && id !in s.categories && id in o.after.categories
         && var c := o.after.categories[id];
         && o.after == s.(categories := s.categories[id := c])
         && c.name == Text.Strip(input.name.value)
         && c.description == (if input.description.Some? then CleanDescription(input.description.value) else None)
         && c.status == (if input.status.Some? then input.status.value else C.Active)
         && c.createdBy == Some(p.id) && c.createdAt == now
  {
    var denied := Access.Gate(PermissionFor(Create), p);
    if denied.Some? then Step(Err(denied.value), s)
    else if input.name.None? then Step(Err(ValidationError({"name"})), s)
    else match ValidateName(s, input.name.value, None)
      case Err(e) => Step(Err(e), s)
      case Ok(name) =>
        var id := FreshId(s.categories.Keys);
        var description := if input.description.Some? then CleanDescription(input.description.value) else None;
        Saved(s, id, C.NewCategory(name, description, input.status, Some(p.id), now))
  }

  /** The action an update request is routed to: PATCH is `partial_update`,
      PUT is `update`. */
  function UpdateAction(partial: bool): (a: Action)
    ensures a == Update || a == PartialUpdate
    ensures PermissionFor(a) == PermissionFor(Update)
  {
    if partial then PartialUpdate else Update
  }

  /** `update` (PUT, `partial` false) and `partial_update` (PATCH): a PUT
      must send `name`, the one field of the model with neither a default
      nor `blank`; the name sent is checked against the other categories,
      then the fields sent are written. */
  function UpdateStep(s: State, p: Principal, status: string, id: Id, input: CategoryInput, partial: bool): (o: Step<CategoryData>)
    ensures o.response.Err? ==> o.after == s
    ensures Lookup(s, p, status, UpdateAction(partial), id).Some? ==>
      o.response == Err(Lookup(s, p, status, UpdateAction(partial), id).value)
    ensures Lookup(s, p, status, UpdateAction(partial), id).None? && !partial && input.name.None? ==>
      o.response == Err(ValidationError({"name"}))
    ensures o.response.Ok? <==>
      && Lookup(s, p, status, UpdateAction(partial), id).None?
      && (if input.name.Some? then ValidateName(s, input.name.value, Some(id)).Ok? else partial)
    ensures o.response.Ok? ==>
      && o.after.categories.Keys == s.categories.Keys
      && o.after == s.(categories := o.after.categories)
      && (forall c :: c in s.categories && c != id ==> o.after.categories[c] == s.categories[c])
      && var before, c := s.categories[id], o.after.categories[id];
         && c.name == (if input.name.Some? then Text.Strip(input.name.value) else before.name)
         && c.description == (if input.description.Some? then CleanDescription(input.description.value) else before.description)
         && c.status == (if input.status.Some? then input.status.value else before.status)
         && c.createdBy == before.createdBy && c.createdAt == before.createdAt
  {
    var e := Lookup(s, p, status, UpdateAction(partial), id);
    if e.Some? then Step(Err(e.value), s)
    else if !partial && input.name.None? then Step(Err(ValidationError({"name"})), s)
    else
      var checked := if input.name.Some? then ValidateName(s, input.name.value, Some(id)) else Ok("");
      if checked.Err? then Step(Err(checked.error), s)
      else
        var old_ := s.categories[id];
        var c := old_.(
          name := if input.name.Some? then checked.value else old_.name,
          description := if input.description.Some? then CleanDescription(input.description.value) else old_.description,
          status := if input.status.Some? then input.status.value else old_.status);
        Saved(s, id, c)
  }

  // ---------------------------------------------------------------------------
  // Integrity

  lemma ToggleStatusConsistent(s: State, p: Principal, status: string, id: Id)
    requires Consistent(s)
    ensures Consistent(ToggleStatusStep(s, p, status, id).after)
  {
    var t := ToggleStatusStep(s, p, status, id).after;
    if t != s {
      assert t.categories[id].name == s.categories[id].name;
      StatusChangeConsistent(s, id, t.categories[id]);
    }
  }

  lemma ArchiveConsistent(s: State, p: Principal, status: string, id: Id)
    requires Consistent(s)
    ensures Consistent(ArchiveStep(s, p, status, id).after)
  {
    if ArchiveStep(s, p, status, id).response.Ok? {
      StatusChangeConsistent(s, id, s.categories[id].(status := C.Archived));
    }
  }

  lemma RestoreConsistent(s: State, p: Principal, status: string, id: Id)
    requires Consistent(s)
    ensures Consistent(RestoreStep(s, p, status, id).after)
  {
    if RestoreStep(s, p, status, id).response.Ok? {
      StatusChangeConsistent(s, id, s.categories[id].(status := C.Active));
    }
  }

  /** A category without posts can go: no post points at it any more. */
  lemma DestroyConsistent(s: State, p: Principal, status: string, id: Id)
    requires Consistent(s)
    ensures Consistent(DestroyStep(s, p, status, id).after)
  {
    var t := DestroyStep(s, p, status, id).after;
    if DestroyStep(s, p, status, id).response.Ok? {
      forall q | q in t.posts ensures PostRefsOk(t, t.posts[q]) {
        assert PostRefsOk(s, s.posts[q]);
        assert q !in PostsOf(s, id);
      }
    }
  }

  lemma CreateConsistent(s: State, p: Principal, input: CategoryInput, now: nat)
    requires Consistent(s) && Known(s, p)
    ensures Consistent(CreateStep(s, p, input, now).after)
  {
    var o := CreateStep(s, p, input, now);
    if o.response.Ok? {
      var id := o.response.value.id;
      AcceptedNameStaysUnique(s, input.name.value, id, None, o.after.categories[id]);
      ReplaceCategoryConsistent(s, id, o.after.categories[id]);
    }
  }

  lemma UpdateConsistent(s: State, p: Principal, status: string, id: Id, input: CategoryInput, partial: bool)
    requires Consistent(s)
    ensures Consistent(UpdateStep(s, p, status, id, input, partial).after)
  {
    var o := UpdateStep(s, p, status, id, input, partial);
    if o.response.Ok? {
      var c := o.after.categories[id];
      if input.name.Some? {
        AcceptedNameStaysUnique(s, input.name.value, id, Some(id), c);
      } else {
        StatusChangeConsistent(s, id, c);
      }
      ReplaceCategoryConsistent(s, id, c);
    }
  }

  /** Replacing a category keeps its name and creator. */
  lemma StatusChangeConsistent(s: State, id: Id, c: C.Category)
    requires Consistent(s) && id in s.categories
    requires c.name == s.categories[id].name && c.createdBy == s.categories[id].createdBy
    ensures Consistent(s.(categories := s.categories[id := c]))
  {
    var t := s.categories[id := c];
    forall a, b | a in t && b in t && t[a].name == t[b].name ensures a == b {
      assert t[a].name == s.categories[a].name && t[b].name == s.categories[b].name;
    }
    ReplaceCategoryConsistent(s, id, c);
  }

  lemma ReplaceCategoryConsistent(s: State, id: Id, c: C.Category)
    requires Consistent(s)
    requires UniqueNames(s.categories[id := c])
    requires c.createdBy.Some? ==> c.createdBy.value in s.users
    ensures Consistent(s.(categories := s.categories[id := c]))
  {
    var t := s.(categories := s.categories[id := c]);
    forall q | q in t.posts ensures PostRefsOk(t, t.posts[q]) {
      assert PostRefsOk(s, s.posts[q]);
    }
  }

  // ---------------------------------------------------------------------------
  // The actions on the database

  method ToggleStatusAction(db: Db, p: Principal, status: string, id: Id) returns (res: Result<CategoryData>)
    modifies db
    ensures res == ToggleStatusStep(old(db.Snapshot()), p, status, id).response
    ensures db.Snapshot() == ToggleStatusStep(old(db.Snapshot()), p, status, id).after
  {
    var e := Lookup(db.Snapshot(), p, status, ToggleStatus, id);
    if e.Some? {
      return Err(e.value);
    }
    var category := db.categories[id];
    if category.status == C.Active {
      if PublishedPostsOf(db.Snapshot(), id) != {} {
        return Err(Refused(HasPublishedPosts));
      }
      category := category.(status := C.Inactive);
    } else {
      category := category.(status := C.Active);
    }
    db.categories := db.categories[id := category];
    res := Ok(Serialize(db.Snapshot(), id));
  }

  method ArchiveAction(db: Db, p: Principal, status: string, id: Id) returns (res: Result<CategoryData>)
    modifies db
    ensures res == ArchiveStep(old(db.Snapshot()), p, status, id).response
    ensures db.Snapshot() == ArchiveStep(old(db.Snapshot()), p, status, id).after
  {
    var e := Lookup(db.Snapshot(), p, status, Archive, id);
    if e.Some? {
      return Err(e.value);
    }
    db.categories := db.categories[id := db.categories[id].(status := C.Archived)];
    res := Ok(Serialize(db.Snapshot(), id));
  }

  method RestoreAction(db: Db, p: Principal, status: string, id: Id) returns (res: Result<CategoryData>)
    modifies db
    ensures res == RestoreStep(old(db.Snapshot()), p, status, id).response
    ensures db.Snapshot() == RestoreStep(old(db.Snapshot()), p, status, id).after
  {
    var e := Lookup(db.Snapshot(), p, status, Restore, id);
    if e.Some? {
      return Err(e.value);
    }
    if db.categories[id].status == C.Archived {
      db.categories := db.categories[id := db.categories[id].(status := C.Active)];
      return Ok(Serialize(db.Snapshot(), id));
    }
    res := Err(Refused(NotArchived));
  }

  method DestroyAction(db: Db, p: Principal, status: string, id: Id) returns (res: Result<()>)
    modifies db
    ensures res == DestroyStep(old(db.Snapshot()), p, status, id).response
    ensures db.Snapshot() == DestroyStep(old(db.Snapshot()), p, status, id).after
  {
    var e := Lookup(db.Snapshot(), p, status, Destroy, id);
    if e.Some? {
      return Err(e.value);
    }
    var posts := PostsOf(db.Snapshot(), id);
    if posts != {} {
      return Err(Refused(HasPosts(|posts|)));
    }
    db.categories := db.categories - {id};
    res := Ok(());
  }

  method CreateAction(db: Db, p: Principal, input: CategoryInput, now: nat) returns (res: Result<CategoryData>)
    modifies db
    ensures res == CreateStep(old(db.Snapshot()), p, input, now).response
    ensures db.Snapshot() == CreateStep(old(db.Snapshot()), p, input, now).after
  {
    var denied := Access.Gate(PermissionFor(Create), p);
    if denied.Some? {
      return Err(denied.value);
    }
    if input.name.None? {
      return Err(ValidationError({"name"}));
    }
    var checked := ValidateName(db.Snapshot(), input.name.value, None);
    if checked.Err? {
      return Err(checked.error);
    }
    var id := FreshId(db.categories.Keys);
    var description := if input.description.Some? then CleanDescription(input.description.value) else None;
    db.categories := db.categories[id := C.NewCategory(checked.value, description, input.status, Some(p.id), now)];
    res := Ok(Serialize(db.Snapshot(), id));
  }
}

=== FILE: comment_serializers.dfy ===
/** `CommentSerializer` of comments/serializers.py with the field rule of
    comments/models.py: the checks on a new comment and its
    representation. */
module CommentSerializers {
  import opened Common
  import K = CommentsModels
  import opened Store
  import Text

  /** What a client may write: `author` and the timestamps are read-only;
      `post_id` is the write-only field the constructor adds. A `None` field
      was not sent. */
  datatype CommentInput = CommentInput(content: Option<string>, postId: Option<Id>)

  /** The content checks, on the content with its surrounding whitespace
      cut off (the `CharField` default): required and not blank, at least 5
      characters (the model validator and `validate_content`). The stripped
      content is what is kept. */
  function ValidateContent(content: Option<string>): (r: Result<string>)
    ensures r.Ok? <==> content.Some? && |Text.Strip(content.value)| >= K.MinContentLength
    ensures r.Ok? ==> r.value == Text.Strip(content.value)
    ensures r.Err? ==> r.error == ValidationError({"content"})
  {
    match content
    case None => Err(ValidationError({"content"}))
    case Some(raw) =>
      var c := Text.Strip(raw);
      if c == "" || |c| < K.MinContentLength then Err(ValidationError({"content"}))
      else Ok(c)
  }

  /** `post_id`: required; its choices are all posts, whatever their
      status. */
  function ValidatePost(s: State, post: Option<Id>): (r: Result<Id>)
    ensures r.Ok? <==> post.Some? && post.value in s.posts
    ensures r.Ok? ==> r.value == post.value
    ensures r.Err? ==> r.error == ValidationError({"post_id"})
  {
    if post.Some? && post.value in s.posts then Ok(post.value)
    else Err(ValidationError({"post_id"}))
  }

  function Keys<T>(r: Result<T>): set<string> {
    if r.Err? && r.error.ValidationError? then r.error.fields else {}
  }

  /** `is_valid`: both fields are checked and every failing key reported. */
  function InputErrors(s: State, input: CommentInput): (keys: set<string>)
    ensures keys <= {"content", "post_id"}
    ensures "content" in keys <==> ValidateContent(input.content).Err?
    ensures "post_id" in keys <==> ValidatePost(s, input.postId).Err?
  {
    Keys(ValidateContent(input.content)) + Keys(ValidatePost(s, input.postId))
  }

  /** The serialized comment; the post and the author stand for their nested
      representations. */
  datatype CommentData = CommentData(id: Id, content: string, post: Id, author: Id, createdAt: nat)

  function Serialize(s: State, id: Id): (d: CommentData)
    requires id in s.comments
    ensures d.id == id && d.content == s.comments[id].content
    ensures d.post == s.comments[id].post && d.author == s.comments[id].author
    ensures d.createdAt == s.comments[id].createdAt
  {
    var c := s.comments[id];
    CommentData(id, c.content, c.post, c.author, c.createdAt)
  }
}

=== FILE: comment_views.dfy ===
/** `CommentViewSet` of comments/views.py: permissions, the newest-first
    listing with its `post` filter, `create` and `destroy`. The permission
    class it imports, comments/permissions.py, is not part of this model; it
    is taken to decide like the one of posts/permissions.py. */
module CommentViews {
  import opened Common
  import opened AccountsModels
  import K = CommentsModels
  import opened Store
  import opened CommentSerializers
  import Access
  import PostPermissions
  import Ranking
  import Text

  datatype Action = List | Retrieve | Create | Update | PartialUpdate | Destroy | Other

  /** `get_permissions`: the author-or-moderator class for changes, the
      class default `IsAuthenticated` for everything else. */
  function PermissionFor(a: Action): (perm: Access.Permission)
    ensures perm == Access.IsAuthorOrModerator <==> a in {Update, PartialUpdate, Destroy}
    ensures perm != Access.IsAuthorOrModerator ==> perm == Access.IsAuthenticated
  {
    if a in {Update, PartialUpdate, Destroy} then Access.IsAuthorOrModerator else Access.IsAuthenticated
  }

  /** The comments `get_queryset` keeps: those of the `post` parameter, or
      all when it is absent. */
  function Selected(s: State, post: Option<Id>): (ids: set<Id>)
    ensures ids <= s.comments.Keys
    ensures forall c :: c in ids <==> c in s.comments && (post.Some? ==> s.comments[c].post == post.value)
  {
    if post.Some? then CommentsOn(s, post.value) else s.comments.Keys
  }

  function CreatedAt(s: State): (key: map<Id, nat>)
    ensures key.Keys == s.comments.Keys
  {
    map c | c in s.comments :: s.comments[c].createdAt
  }

  /** `get_queryset` with `order_by('-created_at')`. */
  function Queryset(s: State, post: Option<Id>): (r: seq<Id>)
    ensures forall c :: c in r <==> c in Selected(s, post)
    ensures |r| == |Selected(s, post)|
    ensures forall i, j :: 0 <= i < j < |r| ==>
      r[i] in s.comments && r[j] in s.comments && s.comments[r[i]].createdAt >= s.comments[r[j]].createdAt
  {
    Ranking.OrderedBy(Selected(s, post), CreatedAt(s))
  }

  /** `list`: only for logged-in users. */
  function ListStep(s: State, p: Principal, post: Option<Id>): (r: Result<seq<Id>>)
    ensures r.Err? <==> p.Anonymous?
    ensures r.Err? ==> r.error == NotAuthenticated
    ensures r.Ok? ==> r.value == Queryset(s, post)
  {
    var denied := Access.Gate(PermissionFor(List), p);
    if denied.Some? then Err(denied.value) else Ok(Queryset(s, post))
  }

  /** A post filter never lets in a comment of another post. */
  lemma PostFilter(s: State, p: Principal, post: Id)
    requires p.Member?
    ensures forall c :: c in ListStep(s, p, Some(post)).value ==> c in CommentsOn(s, post)
    ensures forall c :: c in CommentsOn(s, post) ==> c in ListStep(s, p, Some(post)).value
  {
  }

  // ---------------------------------------------------------------------------
  // create

  /** `create`: validate, save with the caller as author, answer 201 with
      the new comment. */
  function CreateStep(s: State, p: Principal, input: CommentInput, now: nat): (o: Step<CommentData>)
    ensures o.response.Err? ==> o.after == s
    ensures p.Anonymous? ==> o.response == Err(NotAuthenticated)
    ensures p.Member? && InputErrors(s, input) != {} ==>
      o.response == Err(ValidationError(InputErrors(s, input)))
    ensures o.response.Ok? <==> p.Member? && InputErrors(s, input) == {}
    ensures o.response.Ok? ==>
      && var id := o.response.value.id;
         && id !in s.comments
         && o.after == s.(comments := s.comments[id := K.Comment(Text.Strip(input.content.value), input.postId.value, p.id, now)])
         && K.FieldsValid(o.after.comments[id])
  {
    var denied := Access.Gate(PermissionFor(Create), p);
    if denied.Some? then Step(Err(denied.value), s)
    else
      var errors := InputErrors(s, input);
      if errors != {} then Step(Err(ValidationError(errors)), s)
      else
        var id := FreshId(s.comments.Keys);
        var t := s.(comments := s.comments[id := K.Comment(Text.Strip(input.content.value), input.postId.value, p.id, now)]);
        Step(Ok(Serialize(t, id)), t)
  }

  /** A comment may be made on a post of any status. */
  lemma AnyPostStatus(s: State, p: Principal, content: string, post: Id, now: nat)
    requires p.Member? && post in s.posts && |Text.Strip(content)| >= K.MinContentLength
    ensures CreateStep(s, p, CommentInput(Some(content), Some(post)), now).response.Ok?
  {
  }

  lemma CreateConsistent(s: State, p: Principal, input: CommentInput, now: nat)
    requires Consistent(s) && Known(s, p)
    ensures Consistent(CreateStep(s, p, input, now).after)
  {
    var o := CreateStep(s, p, input, now);
    if o.response.Ok? {
      var id := o.response.value.id;
      assert CommentRefsOk(s, o.after.comments[id]) by {
        assert input.postId.value in s.posts && p.id in s.users;
      }
      CommentStoredConsistent(s, id, o.after.comments[id]);
    }
  }

  // ---------------------------------------------------------------------------
  // destroy

  /** `destroy`: the comment must be in the (filtered) queryset, then the
      author-or-moderator object check; the comment goes with the reports
      about it. */
  function DestroyStep(s: State, p: Principal, post: Option<Id>, id: Id): (o: Step<()>)
    ensures o.response.Err? ==> o.after == s
    ensures o.response.Ok? <==>
      (id in Selected(s, post)
       && PostPermissions.HasObjectPermission(PostPermissions.Delete, s.comments[id].author, p))
    ensures o.response.Ok? ==> o.after == DeleteComment(s, id)
  {
    // the author-or-moderator class lets every request past `has_permission`
    if id !in Selected(s, post) then Step(Err(NotFound), s)
    else
      var objectDenied := Access.ObjectGate(PermissionFor(Destroy), PostPermissions.Delete, s.comments[id].author, p);
      if objectDenied.Some? then Step(Err(objectDenied.value), s)
      else Step(Ok(()), DeleteComment(s, id))
  }

  /** A student cannot delete someone else's comment. */
  lemma OthersCannotDestroy(s: State, p: Principal, post: Option<Id>, id: Id)
    requires p.Member? && p.role == Student
    requires id in s.comments && s.comments[id].author != p.id
    ensures DestroyStep(s, p, post, id).response.Err?
    ensures DestroyStep(s, p, post, id).after == s
  {
  }

  lemma DestroyConsistent(s: State, p: Principal, post: Option<Id>, id: Id)
    requires Consistent(s)
    ensures Consistent(DestroyStep(s, p, post, id).after)
  {
    if DestroyStep(s, p, post, id).response.Ok? {
      DeleteCommentConsistent(s, id);
    }
  }

  // ---------------------------------------------------------------------------
  // The actions on the database

  method CreateAction(db: Db, p: Principal, input: CommentInput, now: nat) returns (res: Result<CommentData>)
    modifies db
    ensures res == CreateStep(old(db.Snapshot()), p, input, now).response
    ensures db.Snapshot() == CreateStep(old(db.Snapshot()), p, input, now).after
  {
    var denied := Access.Gate(PermissionFor(Create), p);
    if denied.Some? {
      return Err(denied.value);
    }
    var errors := InputErrors(db.Snapshot(), input);
    if errors != {} {
      return Err(ValidationError(errors));
    }
    var id := FreshId(db.comments.Keys);
    db.comments := db.comments[id := K.Comment(Text.Strip(input.content.value), input.postId.value, p.id, now)];
    res := Ok(Serialize(db.Snapshot(), id));
  }

  method DestroyAction(db: Db, p: Principal, post: Option<Id>, id: Id) returns (res: Result<()>)
    modifies db
    ensures res == DestroyStep(old(db.Snapshot()), p, post, id).response
    ensures db.Snapshot() == DestroyStep(old(db.Snapshot()), p, post, id).after
  {
    if id !in Selected(db.Snapshot(), post) {
      return Err(NotFound);
    }
    var objectDenied := Access.ObjectGate(PermissionFor(Destroy), PostPermissions.Delete, db.comments[id].author, p);
    if objectDenied.Some? {
      return Err(objectDenied.value);
    }
    var t := DeleteComment(db.Snapshot(), id);
    db.comments, db.reports := t.comments, t.reports;
    res := Ok(());
  }
}

=== FILE: comments_models.dfy ===
/** The comment model of comments/models.py. */
module CommentsModels {
  import opened Common

  const MinContentLength: nat := 5

  datatype Comment = Comment(
    content: string,
    post: Id,     // CASCADE: deleting the post deletes the comment
    author: Id,   // CASCADE: deleting the author deletes the comment
    createdAt: nat)

  /** The field validator of the model: at least 5 characters of content. */
  predicate FieldsValid(c: Comment) {
    |c.content| >= MinContentLength
  }
}

=== FILE: common.dfy ===
/** Values shared by every part of the forum model: database ids, optional
    values, the error kinds a request can end in, and results. */
module Common {

  /** Primary keys of every table. */
  type Id = nat

  datatype Option<+T> = None | Some(value: T)

  /** Why a category action was refused with a 400 response. */
  datatype Refusal =
    | HasPublishedPosts          // toggle_status on an ACTIVE category with PUBLISHED posts
    | NotArchived                // restore on a category that is not ARCHIVED
    | HasPosts(postsCount: nat)  // destroy on a category that still owns posts

  /** The ways a request or a model operation can fail. */
  datatype Error =
    | NotAuthenticated              // 401: the permission needs a logged-in user
    | PermissionDenied              // 403
    | NotFound                      // 404: the id is not in the (filtered) queryset
    | ValidationError(fields: set<string>) // 400, keyed by the offending input fields
    | Refused(why: Refusal)         // 400 with an explanatory body
    | ValueError(message: string)   // exception raised by the user manager
    | IntegrityError(field: string) // a unique constraint of the database

  datatype Result<+T> = Ok(value: T) | Err(error: Error)

  /** The input key a failed field check reports: the error dictionary of
      a 400 response holds one entry per failing field. */
  function KeyIf(failed: bool, key: string): (keys: set<string>)
    ensures keys <= {key} && (key in keys <==> failed)
  {
    if failed then {key} else {}
  }

  /** Three field checks under distinct keys report exactly the failing ones. */
  lemma ThreeKeys(a: bool, ka: string, b: bool, kb: string, c: bool, kc: string)
    requires ka != kb && ka != kc && kb != kc
    ensures var keys := KeyIf(a, ka) + KeyIf(b, kb) + KeyIf(c, kc);
      keys <= {ka, kb, kc} && (ka in keys <==> a) && (kb in keys <==> b) && (kc in keys <==> c)
  {
  }

  /** Two field checks under distinct keys report exactly the failing ones. */
  lemma TwoKeys(a: bool, ka: string, b: bool, kb: string)
    requires ka != kb
    ensures var keys := KeyIf(a, ka) + KeyIf(b, kb);
      keys <= {ka, kb} && (ka in keys <==> a) && (kb in keys <==> b)
  {
  }
}

=== FILE: jwt_interceptor.dfy ===
/** The HTTP interceptor of the Angular front end
    (shared/interceptors/jwt-interceptor.ts): which requests carry the access
    token, and when a stored token is dropped or a refresh is tried. The
    browser's localStorage is the `TokenStorage` object; whether the token is
    still valid is the answer of `AuthService.isTokenValid`, which is not
    part of this model and so is a parameter. */
module JwtInterceptor {
  import opened Common
  import Text

  const AuthRoutes: seq<string> := ["/api/auth/login", "/api/auth/register", "/api/auth/refresh"]
  const PublicReadRoutes: seq<string> := ["/api/categories", "/api/posts/"]
  const ProtectedRoutes: seq<string> :=
    ["/api/posts/posts/my-posts", "/api/posts/my-posts", "/api/users/me", "/api/users/me/"]

  datatype Request = Request(verb: string, url: string, headers: map<string, string>)

  /** `routes.some(route => url.includes(route))`. */
  predicate IncludesAny(url: string, routes: seq<string>) {
    exists i :: 0 <= i < |routes| && Text.Contains(url, routes[i])
  }

  predicate IsAuthRoute(req: Request) {
    IncludesAny(req.url, AuthRoutes)
  }

  predicate IsProtectedRoute(req: Request) {
    IncludesAny(req.url, ProtectedRoutes)
  }

  predicate IsPublicReadRoute(req: Request) {
    req.verb == "GET" && IncludesAny(req.url, PublicReadRoutes) && !IsProtectedRoute(req)
  }

  /** Requests passed on untouched, before the token is looked at. */
  predicate Bypassed(req: Request) {
    IsAuthRoute(req) || IsPublicReadRoute(req)
  }

  /** A protected route is never public, even for GET, and only GET can be. */
  lemma PublicReadIsGetAndUnprotected(req: Request)
    ensures IsProtectedRoute(req) ==> !IsPublicReadRoute(req)
    ensures req.verb != "GET" ==> !IsPublicReadRoute(req)
  {
  }

  /** Any request for the "my posts" listing, query string or not, is
      fetched with the token even when it is a GET under the public
      `/api/posts/` prefix. */
  lemma MyPostsIsNotPublic(req: Request)
    requires Text.Contains(req.url, "/api/posts/my-posts")
    ensures IsProtectedRoute(req) && !IsPublicReadRoute(req)
  {
    assert Text.Contains(req.url, ProtectedRoutes[1]);
  }

  /** The bare "my posts" address is such a request. */
  lemma MyPostsAddressIncluded(req: Request)
    requires req.url == "/api/posts/my-posts"
    ensures Text.Contains(req.url, "/api/posts/my-posts")
  {
    assert Text.OccursAt(req.url, ProtectedRoutes[1], 0);
    Text.ContainsFactor(req.url, ProtectedRoutes[1], 0);
  }

  /** JavaScript truthiness of a stored string: present and non-empty. */
  predicate Truthy(t: Option<string>) {
    t.Some? && t.value != ""
  }

  /** The request handed to `next`. */
  function Outgoing(req: Request, token: Option<string>, valid: bool): (out: Request)
    ensures Bypassed(req) ==> out == req
    ensures !Bypassed(req) && Truthy(token) && valid ==>
      out == req.(headers := req.headers["Authorization" := "Bearer " + token.value])
    ensures !(Truthy(token) && valid) ==> out == req
    ensures out.verb == req.verb && out.url == req.url
  {
    if Bypassed(req) then req
    else if Truthy(token) && valid then req.(headers := req.headers["Authorization" := "Bearer " + token.value])
    else req
  }

  /** Whether the interceptor removes the stored tokens. */
  function ClearsTokens(req: Request, token: Option<string>, valid: bool): (clears: bool)
    ensures clears <==> !Bypassed(req) && Truthy(token) && !valid
  {
    !Bypassed(req) && Truthy(token) && !valid
  }

  /** The Authorization header is set exactly for a request that is not
      bypassed and has a valid token; a header already there is otherwise
      left as it was. */
  lemma BearerOnlyWithValidToken(req: Request, token: Option<string>, valid: bool)
    ensures "Authorization" in Outgoing(req, token, valid).headers <==>
      "Authorization" in req.headers || (!Bypassed(req) && Truthy(token) && valid)
    ensures !Bypassed(req) && Truthy(token) && valid ==>
      Outgoing(req, token, valid).headers["Authorization"] == "Bearer " + token.value
    ensures ClearsTokens(req, token, valid) ==> Outgoing(req, token, valid) == req
  {
  }

  /** localStorage, as far as the interceptor uses it. */
  class TokenStorage {
    var accessToken: Option<string>
    var refreshToken: Option<string>

    constructor (access: Option<string>, refresh: Option<string>)
      ensures accessToken == access && refreshToken == refresh
    {
      accessToken := access;
      refreshToken := refresh;
    }

    /** `localStorage.removeItem` of both keys. */
    method Clear()
      modifies this
      ensures accessToken == None && refreshToken == None
    {
      accessToken := None;
      refreshToken := None;
    }
  }

  /** The interceptor up to `next(req)`: bypassed requests go out unchanged;
      otherwise a valid token is attached as a Bearer header, and a present
      but invalid one is removed from storage together with the refresh
      token. */
  method Intercept(storage: TokenStorage, req: Request, valid: bool) returns (out: Request)
    modifies storage
    ensures out == Outgoing(req, old(storage.accessToken), valid)
    ensures ClearsTokens(req, old(storage.accessToken), valid) ==>
      storage.accessToken == None && storage.refreshToken == None
    ensures !ClearsTokens(req, old(storage.accessToken), valid) ==>
      storage.accessToken == old(storage.accessToken) && storage.refreshToken == old(storage.refreshToken)
  {
    var isAuthRoute := IsAuthRoute(req);
    var isPublicReadRoute := IsPublicReadRoute(req);
    if isAuthRoute || isPublicReadRoute {
      return req;
    }
    var token := storage.accessToken;
    out := req;
    if Truthy(token) && valid {
      out := req.(headers := req.headers["Authorization" := "Bearer " + token.value]);
    } else if Truthy(token) && !valid {
      storage.Clear();
    }
  }

  /** The error body's message: `detail`, else `message`, else empty. */
  function ErrorMessage(detail: Option<string>, message: Option<string>): (m: string)
    ensures Truthy(detail) ==> m == detail.value
    ensures !Truthy(detail) && Truthy(message) ==> m == message.value
    ensures !Truthy(detail) && !Truthy(message) ==> m == ""
  {
    if Truthy(detail) then detail.value else if Truthy(message) then message.value else ""
  }

  /** Whether a failed request leads to a refresh attempt: a 401 on a route
      that was not bypassed, with a token still stored and valid, whose
      message mentions "token", "Token" or "expired" (case-sensitively). */
  function ShouldRefresh(req: Request, status: int, token: Option<string>, valid: bool, message: string): (refresh: bool)
    ensures refresh <==>
      && !Bypassed(req) && status == 401 && Truthy(token) && valid
      && (Text.Contains(message, "token") || Text.Contains(message, "Token") || Text.Contains(message, "expired"))
  {
    if Bypassed(req) then false
    else
      && status == 401 && Truthy(token) && valid
      && (Text.Contains(message, "token") || Text.Contains(message, "Token") || Text.Contains(message, "expired"))
  }

  /** Login, registration and refresh calls are never retried with a
      refreshed token, whatever the error. */
  lemma NoRefreshOnAuthRoutes(req: Request, status: int, token: Option<string>, valid: bool, message: string)
    requires IsAuthRoute(req)
    ensures !ShouldRefresh(req, status, token, valid, message)
    ensures Outgoing(req, token, valid) == req && !ClearsTokens(req, token, valid)
  {
  }
}

=== FILE: post_permissions.dfy ===
/** The object permission of posts/permissions.py, used by the post and the
    comment viewsets. */
module PostPermissions {
  import opened Common
  import opened AccountsModels

  datatype Method = Get | Head | Options | Post | Put | Patch | Delete

  /** DRF's SAFE_METHODS. */
  predicate IsSafe(m: Method) {
    m == Get || m == Head || m == Options
  }

  /** `IsAuthorOrModerator.has_object_permission`: reads are always allowed;
      a write is allowed to the object's author and to any ADMIN or
      PROFESSOR, and to nobody else. */
  function HasObjectPermission(m: Method, author: Id, p: Principal): (allowed: bool)
    ensures IsSafe(m) ==> allowed
    ensures p.Member? && p.id == author ==> allowed
    ensures p.IsModerator() ==> allowed
    ensures !IsSafe(m) && p.Member? && p.id != author && p.role == Student ==> !allowed
    ensures !IsSafe(m) && p.Anonymous? ==> !allowed
  {
    if IsSafe(m) then true
    else if p.Member? && p.id == author then true
    else if p.Member? && IsModeratorRole(p.role) then true
    else false
  }
}

=== FILE: post_serializers.dfy ===
/** `PostSerializer` of posts/serializers.py together with the field rules of
    posts/models.py it inherits: the checks on a new post, the fields it
    fills in itself, and the representation with its comment count. */
module PostSerializers {
  import opened Common
  import P = PostsModels
  import C = CategoriesModels
  import opened Store
  import Text

  /** What a client may write. `author` and the timestamps are read-only and
      so have no place here; `category_id` and `tag_ids` are the write-only
      fields the constructor adds. A `None` field was not sent. */
  datatype PostInput = PostInput(
    title: Option<string>,
    content: Option<string>,
    categoryId: Option<Id>,
    tagIds: Option<set<Id>>,
    status: Option<P.Status>)

  /** The title checks, on the title with its surrounding whitespace cut
      off (the `CharField` default): required and not blank, at most 200
      characters (the model field), at least 5 (the model validator and
      `validate_title`). The stripped title is what is kept. */
  function ValidateTitle(title: Option<string>): (r: Result<string>)
    ensures r.Ok? <==> title.Some? && P.MinTitleLength <= |Text.Strip(title.value)| <= P.MaxTitleLength
    ensures r.Ok? ==> r.value == Text.Strip(title.value)
    ensures r.Err? ==> r.error == ValidationError({"title"})
  {
    match title
    case None => Err(ValidationError({"title"}))
    case Some(raw) =>
      var t := Text.Strip(raw);
      if t == "" || |t| > P.MaxTitleLength || |t| < P.MinTitleLength then Err(ValidationError({"title"}))
      else Ok(t)
  }

  /** The content checks, on the stripped content: required and not blank,
      at least 20 characters (the model validator and `validate_content`).
      The stripped content is what is kept. */
  function ValidateContent(content: Option<string>): (r: Result<string>)
    ensures r.Ok? <==> content.Some? && |Text.Strip(content.value)| >= P.MinContentLength
    ensures r.Ok? ==> r.value == Text.Strip(content.value)
    ensures r.Err? ==> r.error == ValidationError({"content"})
  {
    match content
    case None => Err(ValidationError({"content"}))
    case Some(raw) =>
      var c := Text.Strip(raw);
      if c == "" || |c| < P.MinContentLength then Err(ValidationError({"content"}))
      else Ok(c)
  }

  /** Whitespace around a title or a content neither helps nor hurts: the
      checks give the same answer with or without it. */
  lemma PaddingIgnored(title: string, content: string)
    ensures ValidateTitle(Some(title)) == ValidateTitle(Some(Text.Strip(title)))
    ensures ValidateContent(Some(content)) == ValidateContent(Some(Text.Strip(content)))
  {
    Text.StripIdempotent(title);
    Text.StripIdempotent(content);
  }

  /** The choices of `category_id`: the ACTIVE categories. */
  predicate Selectable(s: State, category: Id) {
    category in s.categories && s.categories[category].status == C.Active
  }

  /** `category_id`: required, and only an ACTIVE category is accepted. */
  function ValidateCategory(s: State, category: Option<Id>): (r: Result<Id>)
    ensures r.Ok? <==> category.Some? && Selectable(s, category.value)
    ensures r.Ok? ==> r.value == category.value && s.categories[r.value].status == C.Active
    ensures r.Err? ==> r.error == ValidationError({"category_id"})
  {
    if category.Some? && Selectable(s, category.value) then Ok(category.value)
    else Err(ValidationError({"category_id"}))
  }

  /** `tag_ids`: optional (no tags when absent); every id must be a tag. */
  function ValidateTags(s: State, tags: Option<set<Id>>): (r: Result<set<Id>>)
    ensures tags.None? ==> r == Ok({})
    ensures r.Ok? <==> tags.None? || tags.value <= s.tags.Keys
    ensures r.Ok? ==> r.value <= s.tags.Keys
    ensures r.Err? ==> r.error == ValidationError({"tag_ids"})
  {
    match tags
    case None => Ok({})
    case Some(ts) => if ts <= s.tags.Keys then Ok(ts) else Err(ValidationError({"tag_ids"}))
  }

  /** `is_valid`: every field is checked and all the keys that fail are
      reported together. */
  function InputErrors(s: State, input: PostInput): (keys: set<string>)
    ensures keys <= {"title", "content", "category_id", "tag_ids"}
    ensures "title" in keys <==> ValidateTitle(input.title).Err?
    ensures "content" in keys <==> ValidateContent(input.content).Err?
    ensures "category_id" in keys <==> ValidateCategory(s, input.categoryId).Err?
    ensures "tag_ids" in keys <==> ValidateTags(s, input.tagIds).Err?
  {
    var t, c := ValidateTitle(input.title).Err?, ValidateContent(input.content).Err?;
    var k, g := ValidateCategory(s, input.categoryId).Err?, ValidateTags(s, input.tagIds).Err?;
    TwoKeys(t, "title", c, "content");
    TwoKeys(k, "category_id", g, "tag_ids");
    KeyIf(t, "title") + KeyIf(c, "content") + (KeyIf(k, "category_id") + KeyIf(g, "tag_ids"))
  }

  /** The post `create` saves: the stripped title and content, the category
      and tags sent, the author is the caller, the status is the one sent or
      DRAFT. */
  function Build(s: State, input: PostInput, author: Id, now: nat): (post: P.Post)
    requires InputErrors(s, input) == {}
    ensures P.FieldsValid(post)
    ensures post.author == author && post.createdAt == now
    ensures post.title == Text.Strip(input.title.value) && post.content == Text.Strip(input.content.value)
    ensures post.category == input.categoryId.value && Selectable(s, post.category)
    ensures post.tags == (if input.tagIds.Some? then input.tagIds.value else {}) && post.tags <= s.tags.Keys
    ensures post.status == (if input.status.Some? then input.status.value else P.Draft)
  {
    P.NewPost(ValidateTitle(input.title).value, ValidateContent(input.content).value, input.categoryId.value, author,
              input.status, ValidateTags(s, input.tagIds).value, now)
  }

  /** The serialized post; the author and the category stand for their
      nested representations. */
  datatype PostData = PostData(
    id: Id, title: string, content: string, category: Id, author: Id,
    status: P.Status, tags: set<Id>, commentsCount: nat, createdAt: nat)

  /** The representation; `get_comments_count` yields the annotated count or
      the model property, both the number of the post's comments. */
  function Serialize(s: State, id: Id): (d: PostData)
    requires id in s.posts
    ensures d.id == id && d.author == s.posts[id].author && d.status == s.posts[id].status
    ensures d.category == s.posts[id].category && d.title == s.posts[id].title
    ensures d.content == s.posts[id].content && d.tags == s.posts[id].tags
    ensures d.createdAt == s.posts[id].createdAt
    ensures d.commentsCount == |CommentsOn(s, id)|
  {
    var p := s.posts[id];
    PostData(id, p.title, p.content, p.category, p.author, p.status, p.tags, CommentsCount(s, id), p.createdAt)
  }
}

=== FILE: post_views.dfy ===
/** `PostViewSet` and `TagViewSet` of posts/views.py: the permission each
    action needs, the filter chain of `get_queryset`, `my_posts`, and the
    `publish` and `archive` transitions. */
module PostViews {
  import opened Common
  import opened AccountsModels
  import P = PostsModels
  import opened Store
  import opened PostSerializers
  import Access
  import PostPermissions
  import Text
  import Ranking

  datatype Action =
    | List | Retrieve | Create | Update | PartialUpdate | Destroy
    | MyPosts | Publish | Archive
    | Other   // any request DRF routes to no named action, such as OPTIONS

  /** `PostViewSet.get_permissions`. */
  function PermissionFor(a: Action): (perm: Access.Permission)
    ensures perm == Access.AllowAny <==> a == List || a == Retrieve
    ensures perm == Access.IsAuthorOrModerator <==> a in {Update, PartialUpdate, Destroy}
    ensures perm == Access.IsAuthenticated <==> a in {Create, MyPosts, Publish, Archive, Other}
  {
    match a
    case List | Retrieve => Access.AllowAny
    case Update | PartialUpdate | Destroy => Access.IsAuthorOrModerator
    case _ => Access.IsAuthenticated
  }

  datatype TagAction = TagList | TagRetrieve | TagOther

  /** `TagViewSet.get_permissions`: listing is public, everything else needs
      a logged-in user. */
  function TagPermissionFor(a: TagAction): (perm: Access.Permission)
    ensures perm == Access.AllowAny <==> a == TagList
    ensures perm != Access.AllowAny ==> perm == Access.IsAuthenticated
  {
    if a == TagList then Access.AllowAny else Access.IsAuthenticated
  }

  /** The query parameters `get_queryset` reads; "" stands for an absent or
      empty `status` or `search`. */
  datatype Params = Params(category: Option<Id>, status: string, search: string)

  /** `Q(title__icontains=search) | Q(content__icontains=search)`. */
  predicate Matches(post: P.Post, search: string) {
    Text.ContainsIgnoringCase(post.title, search) || Text.ContainsIgnoringCase(post.content, search)
  }

  /** The status rule: the requested status, or else PUBLISHED only for
      anonymous callers and students. */
  predicate StatusShown(p: Principal, status: string, post: P.Post) {
    if status != "" then P.StatusCode(post.status) == status
    else p.IsModerator() || post.status == P.Published
  }

  /** `get_queryset`: the category, status and search filters, ANDed. */
  function Queryset(s: State, p: Principal, params: Params): (ids: set<Id>)
    ensures ids <= s.posts.Keys
    ensures forall i :: i in ids ==> StatusShown(p, params.status, s.posts[i])
    ensures forall i :: i in ids && params.category.Some? ==> s.posts[i].category == params.category.value
    ensures forall i :: i in ids && params.search != "" ==> Matches(s.posts[i], params.search)
    ensures forall i :: (i in s.posts
                         && (params.category.Some? ==> s.posts[i].category == params.category.value)
                         && StatusShown(p, params.status, s.posts[i])
                         && (params.search != "" ==> Matches(s.posts[i], params.search)))
                        ==> i in ids
  {
    var byCategory :=
      if params.category.Some? then set i | i in s.posts && s.posts[i].category == params.category.value
      else s.posts.Keys;
    var byStatus :=
      if params.status != "" then set i | i in byCategory && P.StatusCode(s.posts[i].status) == params.status
      else if !p.IsAuthenticated() || !IsModeratorRole(p.role) then
        set i | i in byCategory && s.posts[i].status == P.Published
      else byCategory;
    if params.search != "" then set i | i in byStatus && Matches(s.posts[i], params.search)
    else byStatus
  }

  /** Without a status parameter, anonymous callers and students only get
      PUBLISHED posts; with one, exactly that status, whoever asks. */
  lemma StatusVisibility(s: State, p: Principal, params: Params, i: Id)
    requires i in Queryset(s, p, params)
    ensures params.status == "" && !p.IsModerator() ==> s.posts[i].status == P.Published
    ensures params.status != "" ==> P.StatusCode(s.posts[i].status) == params.status
  {
  }

  /** The search ignores the case of the searched text and only narrows the
      other filters. */
  lemma SearchFilter(s: State, p: Principal, params: Params)
    requires params.search != ""
    ensures Queryset(s, p, params.(search := Text.Lower(params.search))) == Queryset(s, p, params)
    ensures Queryset(s, p, params) ==
      set i | i in Queryset(s, p, params.(search := "")) && Matches(s.posts[i], params.search)
  {
    var lowered := params.(search := Text.Lower(params.search));
    forall i | i in s.posts ensures Matches(s.posts[i], lowered.search) == Matches(s.posts[i], params.search) {
      Text.IgnoresCaseOfNeedle(s.posts[i].title, params.search);
      Text.IgnoresCaseOfNeedle(s.posts[i].content, params.search);
    }
    assert Text.Lower(params.search) != "";
    var a := Queryset(s, p, lowered);
    var b := Queryset(s, p, params);
    forall i | i in a ensures i in b { }
    forall i | i in b ensures i in a { }
  }

  function CreatedAt(s: State): (key: map<Id, nat>)
    ensures key.Keys == s.posts.Keys
  {
    map i | i in s.posts :: s.posts[i].createdAt
  }

  /** `my_posts`: the caller's own posts among those `get_queryset` shows,
      newest first. */
  function MyPostsOf(s: State, p: Principal, params: Params): (r: Result<seq<Id>>)
    ensures p.Anonymous? <==> r == Err(NotAuthenticated)
    ensures r.Ok? ==> forall i :: i in r.value <==>
      i in Queryset(s, p, params) && s.posts[i].author == p.id
    ensures r.Ok? ==> forall i :: i in r.value ==> i in s.posts
    ensures r.Ok? ==> forall i, j :: 0 <= i < j < |r.value| ==>
      s.posts[r.value[i]].createdAt >= s.posts[r.value[j]].createdAt
    ensures r.Ok? ==> Ranking.Distinct(r.value)
  {
    var denied := Access.Gate(PermissionFor(MyPosts), p);
    if denied.Some? then Err(denied.value)
    else
      var mine := set i | i in Queryset(s, p, params) && s.posts[i].author == p.id;
      Ok(Ranking.OrderedBy(mine, CreatedAt(s)))
  }

  /** A student does not find their own drafts in `my_posts` unless they ask
      for a status. */
  lemma StudentsOwnDraftsHidden(s: State, p: Principal, i: Id)
    requires p.Member? && p.role == Student
    requires i in s.posts && s.posts[i].author == p.id && s.posts[i].status == P.Draft
    ensures i !in MyPostsOf(s, p, Params(None, "", "")).value
  {
  }

  // ---------------------------------------------------------------------------
  // publish and archive

  /** The permission check and `get_object` of a detail action. */
  function Lookup(s: State, p: Principal, params: Params, a: Action, id: Id): (e: Option<Error>)
    ensures e.None? ==> id in s.posts
    ensures e.None? <==> Access.Gate(PermissionFor(a), p).None? && id in Queryset(s, p, params)
  {
    var denied := Access.Gate(PermissionFor(a), p);
    if denied.Some? then denied
    else if id !in Queryset(s, p, params) then Some(NotFound)
    else None
  }

  /** `publish` and `archive`: after the lookup, the author or a moderator
      sets the status; anyone else gets 403. */
  function ChangeStatus(s: State, p: Principal, params: Params, a: Action, id: Id, target: P.Status): (o: Step<PostData>)
    requires a == Publish || a == Archive
    ensures o.response.Err? ==> o.after == s
    ensures o.response.Ok? <==>
      Lookup(s, p, params, a, id).None? && (s.posts[id].author == p.id || p.IsModerator())
    ensures o.response.Ok? ==>
      o.after == s.(posts := s.posts[id := s.posts[id].(status := target)])
      && o.response.value.status == target && o.response.value.id == id
  {
    var e := Lookup(s, p, params, a, id);
    if e.Some? then Step(Err(e.value), s)
    else if s.posts[id].author != p.id && !IsModeratorRole(p.role) then Step(Err(PermissionDenied), s)
    else
      var t := s.(posts := s.posts[id := s.posts[id].(status := target)]);
      Step(Ok(Serialize(t, id)), t)
  }

  function PublishStep(s: State, p: Principal, params: Params, id: Id): Step<PostData> {
    ChangeStatus(s, p, params, Publish, id, P.Published)
  }

  function ArchiveStep(s: State, p: Principal, params: Params, id: Id): Step<PostData> {
    ChangeStatus(s, p, params, Archive, id, P.Archived)
  }

  /** `publish` works from every status, ARCHIVED included. */
  lemma PublishFromAnyStatus(s: State, p: Principal, params: Params, id: Id)
    requires p.Member? && id in Queryset(s, p, params)
    requires s.posts[id].author == p.id || IsModeratorRole(p.role)
    ensures PublishStep(s, p, params, id).response.Ok?
    ensures PublishStep(s, p, params, id).after.posts[id] == s.posts[id].(status := P.Published)
  {
  }

  /** A student who is not the author gets 403 and nothing changes. */
  lemma OthersDenied(s: State, p: Principal, params: Params, id: Id)
    requires p.Member? && p.role == Student && id in Queryset(s, p, params)
    requires s.posts[id].author != p.id
    ensures PublishStep(s, p, params, id) == Step(Err(PermissionDenied), s)
    ensures ArchiveStep(s, p, params, id) == Step(Err(PermissionDenied), s)
  {
  }

  /** A post the listing hides cannot be published or archived: in
      particular a student cannot publish their own draft without asking for
      that status. */
  lemma HiddenPostsUnreachable(s: State, p: Principal, params: Params, id: Id)
    requires p.Member? && id !in Queryset(s, p, params)
    ensures PublishStep(s, p, params, id) == Step(Err(NotFound), s)
    ensures ArchiveStep(s, p, params, id) == Step(Err(NotFound), s)
  {
  }

  lemma StudentsOwnDraftUnreachable(s: State, p: Principal, id: Id)
    requires p.Member? && p.role == Student
    requires id in s.posts && s.posts[id].author == p.id && s.posts[id].status == P.Draft
    ensures PublishStep(s, p, Params(None, "", ""), id) == Step(Err(NotFound), s)
  {
    assert !StatusShown(p, "", s.posts[id]);
  }

  lemma ChangeStatusConsistent(s: State, p: Principal, params: Params, a: Action, id: Id, target: P.Status)
    requires a == Publish || a == Archive
    requires Consistent(s)
    ensures Consistent(ChangeStatus(s, p, params, a, id, target).after)
  {
    var o := ChangeStatus(s, p, params, a, id, target);
    if o.response.Ok? {
      PostStatusConsistent(s, id, target);
    }
  }

  // ---------------------------------------------------------------------------
  // create and destroy

  /** `create`: validate, then save with the caller as author. */
  function CreateStep(s: State, p: Principal, input: PostInput, now: nat): (o: Step<PostData>)
    ensures o.response.Err? ==> o.after == s
    ensures p.Anonymous? ==> o.response == Err(NotAuthenticated)
    ensures p.Member? && InputErrors(s, input) != {} ==>
      o.response == Err(ValidationError(InputErrors(s, input)))
    ensures o.response.Ok? <==> p.Member? && InputErrors(s, input) == {}
    ensures o.response.Ok? ==>
      && var id := o.response.value.id;
         && id !in s.posts && id in o.after.posts
         && var post := o.after.posts[id];
         && o.after == s.(posts := s.posts[id := post])
         && post.author == p.id && post.createdAt == now
         && post.title == Text.Strip(input.title.value) && post.content == Text.Strip(input.content.value)
         && post.category == input.categoryId.value && Selectable(s, post.category)
         && post.tags == (if input.tagIds.Some? then input.tagIds.value else {})
         && post.status == (if input.status.Some? then input.status.value else P.Draft)
         && P.FieldsValid(post)
  {
    var denied := Access.Gate(PermissionFor(Create), p);
    if denied.Some? then Step(Err(denied.value), s)
    else
      var errors := InputErrors(s, input);
      if errors != {} then Step(Err(ValidationError(errors)), s)
      else
        var id := FreshId(s.posts.Keys);
        var t := s.(posts := s.posts[id := Build(s, input, p.id, now)]);
        Step(Ok(Serialize(t, id)), t)
  }

  lemma CreateConsistent(s: State, p: Principal, input: PostInput, now: nat)
    requires Consistent(s) && Known(s, p)
    ensures Consistent(CreateStep(s, p, input, now).after)
  {
    var o := CreateStep(s, p, input, now);
    if o.response.Ok? {
      var id := o.response.value.id;
      var post := o.after.posts[id];
      assert PostRefsOk(s, post) by {
        assert post.category in s.categories && post.author in s.users && post.tags <= s.tags.Keys;
      }
      PostStoredConsistent(s, id, post);
    }
  }

  /** `destroy`: the lookup, the author-or-moderator object check, then the
      post goes with its comments and the reports about them. */
  function DestroyStep(s: State, p: Principal, params: Params, id: Id): (o: Step<()>)
    ensures o.response.Err? ==> o.after == s
    ensures o.response.Ok? <==>
      (id in Queryset(s, p, params)
       && PostPermissions.HasObjectPermission(PostPermissions.Delete, s.posts[id].author, p))
    ensures o.response.Ok? ==> o.after == DeletePost(s, id)
  {
    var e := Lookup(s, p, params, Destroy, id);
    if e.Some? then Step(Err(e.value), s)
    else
      var denied := Access.ObjectGate(PermissionFor(Destroy), PostPermissions.Delete, s.posts[id].author, p);
      if denied.Some? then Step(Err(denied.value), s)
      else Step(Ok(()), DeletePost(s, id))
  }

  // ---------------------------------------------------------------------------
  // The actions on the database

  method ChangeStatusAction(db: Db, p: Principal, params: Params, a: Action, id: Id, target: P.Status)
    returns (res: Result<PostData>)
    requires a == Publish || a == Archive
    modifies db
    ensures res == ChangeStatus(old(db.Snapshot()), p, params, a, id, target).response
    ensures db.Snapshot() == ChangeStatus(old(db.Snapshot()), p, params, a, id, target).after
  {
    var e := Lookup(db.Snapshot(), p, params, a, id);
    if e.Some? {
      return Err(e.value);
    }
    var post := db.posts[id];
    if post.author != p.id && !IsModeratorRole(p.role) {
      return Err(PermissionDenied);
    }
    post := post.(status := target);
    db.posts := db.posts[id := post];
    res := Ok(Serialize(db.Snapshot(), id));
  }

  method PublishAction(db: Db, p: Principal, params: Params, id: Id) returns (res: Result<PostData>)
    modifies db
    ensures res == PublishStep(old(db.Snapshot()), p, params, id).response
    ensures db.Snapshot() == PublishStep(old(db.Snapshot()), p, params, id).after
  {
    res := ChangeStatusAction(db, p, params, Publish, id, P.Published);
  }

  method ArchiveAction(db: Db, p: Principal, params: Params, id: Id) returns (res: Result<PostData>)
    modifies db
    ensures res == ArchiveStep(old(db.Snapshot()), p, params, id).response
    ensures db.Snapshot() == ArchiveStep(old(db.Snapshot()), p, params, id).after
  {
    res := ChangeStatusAction(db, p, params, Archive, id, P.Archived);
  }

  method CreateAction(db: Db, p: Principal, input: PostInput, now: nat) returns (res: Result<PostData>)
    modifies db
    ensures res == CreateStep(old(db.Snapshot()), p, input, now).response
    ensures db.Snapshot() == CreateStep(old(db.Snapshot()), p, input, now).after
  {
    var denied := Access.Gate(PermissionFor(Create), p);
    if denied.Some? {
      return Err(denied.value);
    }
    var errors := InputErrors(db.Snapshot(), input);
    if errors != {} {
      return Err(ValidationError(errors));
    }
    var id := FreshId(db.posts.Keys);
    db.posts := db.posts[id := Build(db.Snapshot(), input, p.id, now)];
    res := Ok(Serialize(db.Snapshot(), id));
  }

  method DestroyAction(db: Db, p: Principal, params: Params, id: Id) returns (res: Result<()>)
    modifies db
    ensures res == DestroyStep(old(db.Snapshot()), p, params, id).response
    ensures db.Snapshot() == DestroyStep(old(db.Snapshot()), p, params, id).after
  {
    var e := Lookup(db.Snapshot(), p, params, Destroy, id);
    if e.Some? {
      return Err(e.value);
    }
    var denied := Access.ObjectGate(PermissionFor(Destroy), PostPermissions.Delete, db.posts[id].author, p);
    if denied.Some? {
      return Err(denied.value);
    }
    var t := DeletePost(db.Snapshot(), id);
    db.posts, db.comments, db.reports := t.posts, t.comments, t.reports;
    res := Ok(());
  }

  lemma DestroyConsistent(s: State, p: Principal, params: Params, id: Id)
    requires Consistent(s)
    ensures Consistent(DestroyStep(s, p, params, id).after)
  {
    if DestroyStep(s, p, params, id).response.Ok? {
      DeletePostConsistent(s, id);
    }
  }
}

=== FILE: posts_models.dfy ===
/** The post and tag models of posts/models.py. */
module PostsModels {
  import opened Common

  datatype Status = Published | Draft | Archived

  /** The value stored in the `status` column and accepted as `?status=`. */
  function StatusCode(s: Status): (code: string)
    ensures code in {"PUBLISHED", "DRAFT", "ARCHIVED"}
  {
    match s
    case Published => "PUBLISHED"
    case Draft => "DRAFT"
    case Archived => "ARCHIVED"
  }

  const MinTitleLength: nat := 5
  const MaxTitleLength: nat := 200
  const MinContentLength: nat := 20

  datatype Tag = Tag(name: string)

  datatype Post = Post(
    title: string,
    content: string,
    category: Id,   // PROTECT: a category with posts cannot be deleted
    author: Id,     // CASCADE: deleting the author deletes the post
    status: Status,
    tags: set<Id>,
    createdAt: nat)

  /** The field validators of the model: a title of 5 to 200 characters and a
      content of at least 20. */
  predicate FieldsValid(p: Post) {
    MinTitleLength <= |p.title| <= MaxTitleLength && |p.content| >= MinContentLength
  }

  /** A new row: the status takes its default DRAFT unless one is given. */
  function NewPost(title: string, content: string, category: Id, author: Id,
                   status: Option<Status>, tags: set<Id>, now: nat): (p: Post)
    ensures p.title == title && p.content == content && p.tags == tags
    ensures p.category == category && p.author == author && p.createdAt == now
    ensures status == None ==> p.status == Draft
    ensures status.Some? ==> p.status == status.value
  {
    Post(title, content, category, author, if status.Some? then status.value else Draft, tags, now)
  }
}

=== FILE: profile.dfy ===
/** The profile screen of the Angular front end (screens/profile/profile.ts):
    building the picture URL, the role label, and discarding a chosen photo.
    The API base URL comes from the app configuration, which is not part of
    this model; the component holds it as `apiBase`. A chosen file is
    represented by its data URL. */
module Profile {
  import opened Common
  import Text
  import A = AccountsModels

  /** The user record the front end receives (`User` interface). */
  datatype ProfileUser = ProfileUser(
    email: string, firstName: string, lastName: string, role: string, profilePicture: Option<string>)

  /** JavaScript truthiness of an optional string. */
  predicate Truthy(t: Option<string>) {
    t.Some? && t.value != ""
  }

  predicate IsAbsolute(url: string) {
    Text.StartsWith(url, "http://") || Text.StartsWith(url, "https://")
  }

  /** The server origin: the API base with its first "/api" removed. */
  function Origin(apiBase: string): (base: string)
    ensures Text.IndexOf(apiBase, "/api").None? ==> base == apiBase
    ensures Text.IndexOf(apiBase, "/api").Some? ==>
      var i := Text.IndexOf(apiBase, "/api").value;
      && Text.OccursAt(apiBase, "/api", i)
      && base == apiBase[..i] + apiBase[i + 4..]
      && (forall j :: 0 <= j < i ==> !Text.OccursAt(apiBase, "/api", j))
      && |base| == |apiBase| - 4
  {
    Text.ReplaceFirst(apiBase, "/api", "")
  }

  /** `getProfilePictureUrl`: nothing for a missing or empty URL, an absolute
      URL as it is, and a relative one joined to the server origin with
      exactly one slash added when it has none. */
  function PictureUrl(url: Option<string>, apiBase: string): (r: Option<string>)
    ensures !Truthy(url) <==> r.None?
    ensures Truthy(url) && IsAbsolute(url.value) ==> r == url
    ensures Truthy(url) && !IsAbsolute(url.value) && Text.StartsWith(url.value, "/") ==> r == Some(Origin(apiBase) + url.value)
    ensures Truthy(url) && !IsAbsolute(url.value) && !Text.StartsWith(url.value, "/") ==> r == Some(Origin(apiBase) + ("/" + url.value))
  {
    if !Truthy(url) then None
    else if IsAbsolute(url.value) then url
    else
      var path := if Text.StartsWith(url.value, "/") then url.value else "/" + url.value;
      Some(Origin(apiBase) + path)
  }

  /** A relative URL ends up right after the origin and a slash, and keeps
      every character it had. */
  lemma RelativeUrlJoined(url: string, apiBase: string)
    requires url != [] && !IsAbsolute(url)
    ensures var r := PictureUrl(Some(url), apiBase).value;
      var base := Origin(apiBase);
      && Text.StartsWith(r, base)
      && |r| > |base| && r[|base|] == '/'
      && (r[|base|..] == url || r[|base| + 1..] == url)
  {
    var r := PictureUrl(Some(url), apiBase).value;
    var base := Origin(apiBase);
    if Text.StartsWith(url, "/") {
      assert url[0] == url[..1][0] == '/';
      assert r == base + url;
      assert r[..|base|] == base;
      assert r[|base|..] == url;
    } else {
      assert r == base + "/" + url;
      assert r[..|base|] == base;
      assert r[|base| + 1..] == url;
    }
  }

  /** `getRoleLabel`: the display name of the user's role code, or "" with
      no user or an unknown code. */
  function RoleLabel(user: Option<ProfileUser>): (text: string)
    ensures user.None? ==> text == ""
    ensures user.Some? && user.value.role !in {"ADMIN", "PROFESSOR", "STUDENT"} ==> text == ""
    ensures text in {"", "Administrador", "Profesor", "Estudiante"}
  {
    if user.None? then ""
    else match user.value.role
      case "ADMIN" => "Administrador"
      case "PROFESSOR" => "Profesor"
      case "STUDENT" => "Estudiante"
      case _ => ""
  }

  /** The label of each stored role is the display name its choice declares
      in the account model, and different roles get different labels. */
  lemma RoleLabelsMatchChoices(u: ProfileUser, role: A.Role)
    requires u.role == A.RoleCode(role)
    ensures role == A.Admin ==> RoleLabel(Some(u)) == "Administrador"
    ensures role == A.Professor ==> RoleLabel(Some(u)) == "Profesor"
    ensures role == A.Student ==> RoleLabel(Some(u)) == "Estudiante"
    ensures RoleLabel(Some(u)) != ""
  {
  }

  class ProfileComponent {
    const apiBase: string
    var user: Option<ProfileUser>
    var selectedFile: Option<string>
    var previewUrl: Option<string>

    constructor (apiBase: string, user: Option<ProfileUser>)
      ensures this.apiBase == apiBase && this.user == user
      ensures selectedFile == None && previewUrl == None
    {
      this.apiBase := apiBase;
      this.user := user;
      selectedFile := None;
      previewUrl := None;
    }

    /** The preview shown for the stored picture. */
    function StoredPreview(): (url: Option<string>)
      reads this
      ensures user.None? || !Truthy(user.value.profilePicture) ==> url == None
      ensures user.Some? && Truthy(user.value.profilePicture) ==> url == PictureUrl(user.value.profilePicture, apiBase)
    {
      if user.Some? && Truthy(user.value.profilePicture) then PictureUrl(user.value.profilePicture, apiBase) else None
    }

    /** `removePhoto`: the chosen file is dropped and the preview goes back
      to the stored picture, or to nothing. */
    method RemovePhoto()
      modifies this
      ensures selectedFile == None
      ensures previewUrl == StoredPreview()
      ensures user == old(user)
    {
      selectedFile := None;
      if user.Some? && Truthy(user.value.profilePicture) {
        previewUrl := PictureUrl(user.value.profilePicture, apiBase);
      } else {
        previewUrl := None;
      }
    }
  }
}

=== FILE: ranking.dfy ===
/** Ordering helpers standing in for the database's `ORDER BY ... DESC` and
    `[:k]` slices: a stable descending insertion sort over scored items, the
    top-k prefix, and an ascending enumeration of a finite set of ids (the
    table order rows come back in before they are sorted). */
module Ranking {
  import opened Common

  /** An item with the number it is ordered by (a count or a timestamp). */
  datatype Scored<T> = Scored(item: T, score: nat)

  predicate NonIncreasing<T>(xs: seq<Scored<T>>) {
    forall i, j :: 0 <= i < j < |xs| ==> xs[i].score >= xs[j].score
  }

  function Min(a: nat, b: nat): nat { if a <= b then a else b }

  /** Inserts `e` after every element whose score is at least its own. */
  function Insert<T(==)>(e: Scored<T>, xs: seq<Scored<T>>): (r: seq<Scored<T>>)
    requires NonIncreasing(xs)
    ensures NonIncreasing(r)
    ensures multiset(r) == multiset(xs) + multiset{e}
    ensures forall y :: y in r ==> y == e || y in xs
  {
    if xs == [] then [e]
    else if e.score > xs[0].score then
      PrependNonIncreasing(e, xs);
      [e] + xs
    else
      var rest := Insert(e, xs[1..]);
      assert xs == [xs[0]] + xs[1..];
      assert forall y :: y in rest ==> y.score <= xs[0].score by {
        forall y | y in rest ensures y.score <= xs[0].score {
          assert y == e || y in xs;
        }
      }
      PrependNonIncreasing(xs[0], rest);
      [xs[0]] + rest
  }

  /** An element no smaller than the head of a non-increasing sequence can
      go in front of it. */
  lemma PrependNonIncreasing<T>(e: Scored<T>, xs: seq<Scored<T>>)
    requires NonIncreasing(xs)
    requires xs != [] ==> xs[0].score <= e.score
    ensures NonIncreasing([e] + xs)
  {
    var r := [e] + xs;
    forall i, j | 0 <= i < j < |r| ensures r[i].score >= r[j].score {
      if i > 0 {
        assert r[i] == xs[i - 1] && r[j] == xs[j - 1];
      } else {
        assert r[j] == xs[j - 1];
      }
    }
  }

  /** Stable sort by descending score: equal scores keep their input order. */
  function SortDesc<T(==)>(xs: seq<Scored<T>>): (r: seq<Scored<T>>)
    ensures NonIncreasing(r)
    ensures multiset(r) == multiset(xs)
    ensures |r| == |xs|
  {
    if xs == [] then []
    else
      var init := xs[..|xs| - 1];
      assert xs == init + [xs[|xs| - 1]];
      var r := Insert(xs[|xs| - 1], SortDesc(init));
      assert |r| == |multiset(r)|;
      r
  }

  function Items<T>(xs: seq<Scored<T>>): (r: seq<T>)
    ensures |r| == |xs| && forall i :: 0 <= i < |xs| ==> r[i] == xs[i].item
  {
    seq(|xs|, i requires 0 <= i < |xs| => xs[i].item)
  }

  predicate Distinct<T(==)>(xs: seq<T>) {
    forall i, j :: 0 <= i < j < |xs| ==> xs[i] != xs[j]
  }

  lemma LeastWitness(s: set<Id>) returns (m: Id)
    requires s != {}
    ensures m in s && forall y :: y in s ==> m <= y
  {
    var x :| x in s;
    if s == {x} {
      m := x;
    } else {
      var below := LeastWitness(s - {x});
      m := if x < below then x else below;
      forall y | y in s ensures m <= y {
        if y != x { assert y in s - {x}; }
      }
    }
  }

  lemma LeastExists(s: set<Id>)
    requires s != {}
    ensures exists m :: m in s && forall y :: y in s ==> m <= y
  {
    var w := LeastWitness(s);
  }

  function Least(s: set<Id>): (m: Id)
    requires s != {}
    ensures m in s && forall y :: y in s ==> m <= y
  {
    LeastExists(s);
    var m :| m in s && forall y :: y in s ==> m <= y;
    m
  }

  /** The elements of a finite set of ids, in increasing order. */
  function Ascending(s: set<Id>): (r: seq<Id>)
    decreases |s|
    ensures |r| == |s|
    ensures forall x :: x in r <==> x in s
    ensures forall i, j :: 0 <= i < j < |r| ==> r[i] < r[j]
  {
    if s == {} then []
    else
      var m := Least(s);
      var rest := Ascending(s - {m});
      LeastFirst(m, s, rest);
      [m] + rest
  }

  /** The least id in front of the others in increasing order lists the
      whole set in increasing order. */
  lemma LeastFirst(m: Id, s: set<Id>, rest: seq<Id>)
    requires m in s && forall y :: y in s ==> m <= y
    requires |rest| == |s - {m}|
    requires forall x :: x in rest <==> x in s - {m}
    requires forall i, j :: 0 <= i < j < |rest| ==> rest[i] < rest[j]
    ensures |[m] + rest| == |s|
    ensures forall x :: x in [m] + rest <==> x in s
    ensures forall i, j :: 0 <= i < j < |[m] + rest| ==> ([m] + rest)[i] < ([m] + rest)[j]
  {
    assert |s - {m}| == |s| - 1;
    var r := [m] + rest;
    forall i, j | 0 <= i < j < |r| ensures r[i] < r[j] {
      assert r[j] == rest[j - 1] && rest[j - 1] in rest;
      if i > 0 { assert r[i] == rest[i - 1]; }
    }
  }

  /** Pairs each id with its key. */
  function Keyed(xs: seq<Id>, key: map<Id, nat>): (r: seq<Scored<Id>>)
    requires forall x :: x in xs ==> x in key
    ensures |r| == |xs| && forall i :: 0 <= i < |xs| ==> r[i] == Scored(xs[i], key[xs[i]])
  {
    seq(|xs|, i requires 0 <= i < |xs| => Scored(xs[i], key[xs[i]]))
  }

  /** `ORDER BY key DESC` over a set of rows: every id exactly once, keys
      non-increasing. Rows with equal keys keep the increasing id order they
      are enumerated in, as the sort is stable. */
  function OrderedBy(ids: set<Id>, key: map<Id, nat>): (r: seq<Id>)
    requires ids <= key.Keys
    ensures |r| == |ids|
    ensures forall x :: x in r <==> x in ids
    ensures forall i, j :: 0 <= i < j < |r| ==> key[r[i]] >= key[r[j]]
    ensures Distinct(r)
  {
    var keyed := Keyed(Ascending(ids), key);
    var sorted := SortDesc(keyed);
    SortedKeepsKeys(ids, key, keyed, sorted);
    var r := Items(sorted);
    SameElementsDistinct(r, ids);
    r
  }

  lemma SameElementsDistinct(r: seq<Id>, ids: set<Id>)
    requires |r| == |ids|
    requires forall x :: x in r <==> x in ids
    ensures Distinct(r)
  {
    assert Elems(r) == ids;
    DistinctByCount(r);
  }

  function Elems(r: seq<Id>): set<Id> {
    set x | x in r
  }

  /** A sequence with as many elements as distinct values repeats none. */
  lemma {:induction false} DistinctByCount(r: seq<Id>)
    ensures |Elems(r)| <= |r|
    ensures |Elems(r)| == |r| ==> Distinct(r)
  {
    if r != [] {
      var rest := r[1..];
      var elems := Elems(r);
      var restElems := Elems(rest);
      DistinctByCount(rest);
      assert elems == {r[0]} + restElems by {
        assert r == [r[0]] + rest;
      }
      if r[0] in rest {
        assert elems == restElems;
      } else {
        assert r[0] !in restElems;
        assert |elems| == 1 + |restElems|;
        if |elems| == |r| {
          assert |restElems| == |rest|;
          assert Distinct(rest);
          forall i, j | 0 <= i < j < |r| ensures r[i] != r[j] {
            assert r[j] == rest[j - 1];
            if i > 0 { assert r[i] == rest[i - 1]; }
          }
        }
      }
    }
  }

  /** The first `k` ids of that order (`ORDER BY key DESC LIMIT k`): no id
      left out has a larger key than an id kept. */
  function FirstK(ids: set<Id>, key: map<Id, nat>, k: nat): (r: seq<Id>)
    requires ids <= key.Keys
    ensures |r| == Min(k, |ids|)
    ensures Distinct(r)
    ensures forall x :: x in r ==> x in ids
    ensures forall i, j :: 0 <= i < j < |r| ==> key[r[i]] >= key[r[j]]
    ensures forall x :: x in ids && x !in r ==> |r| == k && forall y :: y in r ==> key[x] <= key[y]
  {
    var order := OrderedBy(ids, key);
    var n := Min(k, |order|);
    TopPrefix(ids, key, order, n);
    order[..n]
  }

  lemma TopPrefix(ids: set<Id>, key: map<Id, nat>, order: seq<Id>, n: nat)
    requires ids <= key.Keys && n <= |order|
    requires forall x :: x in order <==> x in ids
    requires forall i, j :: 0 <= i < j < |order| ==> key[order[i]] >= key[order[j]]
    ensures forall x :: x in ids && x !in order[..n] ==> forall y :: y in order[..n] ==> key[x] <= key[y]
    ensures forall x :: x in ids && x !in order[..n] ==> n < |order|
  {
    forall x | x in ids && x !in order[..n]
      ensures n < |order| && forall y :: y in order[..n] ==> key[x] <= key[y]
    {
      var i :| 0 <= i < |order| && order[i] == x;
      assert i >= n;
      forall y | y in order[..n] ensures key[x] <= key[y] {
        var j :| 0 <= j < n && order[j] == y;
      }
    }
  }

  lemma SortedKeepsKeys(ids: set<Id>, key: map<Id, nat>, keyed: seq<Scored<Id>>, sorted: seq<Scored<Id>>)
    requires ids <= key.Keys
    requires keyed == Keyed(Ascending(ids), key)
    requires multiset(sorted) == multiset(keyed)
    ensures forall i :: 0 <= i < |sorted| ==> sorted[i].item in ids && sorted[i].score == key[sorted[i].item]
    ensures forall x :: x in ids ==> x in Items(sorted)
  {
    SortedRowsKeyed(ids, key, keyed, sorted);
    SortedRowsComplete(ids, key, keyed, sorted);
  }

  /** Every sorted row is an id of the set paired with its key. */
  lemma SortedRowsKeyed(ids: set<Id>, key: map<Id, nat>, keyed: seq<Scored<Id>>, sorted: seq<Scored<Id>>)
    requires ids <= key.Keys
    requires keyed == Keyed(Ascending(ids), key)
    requires multiset(sorted) == multiset(keyed)
    ensures forall i :: 0 <= i < |sorted| ==> sorted[i].item in ids && sorted[i].score == key[sorted[i].item]
  {
    forall i | 0 <= i < |sorted|
      ensures sorted[i].item in ids && sorted[i].score == key[sorted[i].item]
    {
      assert sorted[i] in multiset(keyed);
      var k :| 0 <= k < |keyed| && keyed[k] == sorted[i];
      assert Ascending(ids)[k] in ids;
    }
  }

  /** Every id of the set has a sorted row. */
  lemma SortedRowsComplete(ids: set<Id>, key: map<Id, nat>, keyed: seq<Scored<Id>>, sorted: seq<Scored<Id>>)
    requires ids <= key.Keys
    requires keyed == Keyed(Ascending(ids), key)
    requires multiset(sorted) == multiset(keyed)
    ensures forall x :: x in ids ==> x in Items(sorted)
  {
    var items := Items(sorted);
    forall x | x in ids ensures x in items {
      var k :| 0 <= k < |keyed| && Ascending(ids)[k] == x;
      assert keyed[k] in multiset(sorted);
      var i :| 0 <= i < |sorted| && sorted[i] == keyed[k];
      assert items[i] == x;
    }
  }
}

=== FILE: report_permissions.dfy ===
/** The permission class of reports/permissions.py. */
module ReportPermissions {
  import opened AccountsModels
  import CategoryPermissions

  /** `IsModerator.has_permission`: an authenticated ADMIN or PROFESSOR. */
  function HasPermission(p: Principal): (allowed: bool)
    ensures p.Anonymous? ==> !allowed
    ensures p.Member? ==> (allowed <==> p.role != Student)
  {
    if p.IsAuthenticated() then IsModeratorRole(p.role) else false
  }

  /** The report moderators are exactly the category managers. */
  lemma SameAsIsAdminOrProfessor(p: Principal)
    ensures HasPermission(p) == CategoryPermissions.HasPermission(p)
  {
  }
}

=== FILE: report_serializers.dfy ===
/** `ReportSerializer`, in its two variants (reports/serializers.py and
    back/reports/serializers.py), which share their field checks, `validate`
    and `create`; the representation follows the second variant, whose
    `get_post` and `get_comment` guard against a target that is gone. */
module ReportSerializers {
  import opened Common
  import opened AccountsModels
  import P = PostsModels
  import R = ReportsModels
  import opened Store
  import Text

  /** What a client may write. `reported_by`, `reviewed_by`, `reviewed_at`,
      `status` and `action_taken` are read-only and so have no place here; a
      `None` field was not sent. */
  datatype ReportInput = ReportInput(
    kind: Option<R.ReportType>, postId: Option<Id>, commentId: Option<Id>, reason: Option<string>)

  /** The data the field checks let through. */
  datatype ReportFields = ReportFields(kind: R.ReportType, post: Option<Id>, comment: Option<Id>, reason: string)

  /** The field checks: `type` and a `reason` that is not blank once its
      surrounding whitespace is cut off (the `CharField` default) are
      required; `post_id` and `comment_id` are optional but must name a row.
      Every failing key is reported. */
  function FieldErrors(s: State, input: ReportInput): (keys: set<string>)
    ensures "type" in keys <==> input.kind.None?
    ensures "reason" in keys <==> input.reason.None? || Text.Strip(input.reason.value) == ""
    ensures "post_id" in keys <==> input.postId.Some? && input.postId.value !in s.posts
    ensures "comment_id" in keys <==> input.commentId.Some? && input.commentId.value !in s.comments
    ensures keys <= {"type", "reason", "post_id", "comment_id"}
  {
    (if input.kind.None? then {"type"} else {})
    + (if input.reason.None? || Text.Strip(input.reason.value) == "" then {"reason"} else {})
    + (if input.postId.Some? && input.postId.value !in s.posts then {"post_id"} else {})
    + (if input.commentId.Some? && input.commentId.value !in s.comments then {"comment_id"} else {})
  }

  /** The validated data handed to `validate`: the reason is kept without
      its surrounding whitespace. */
  function Fields(input: ReportInput): (data: ReportFields)
    requires input.kind.Some? && input.reason.Some?
    ensures data.kind == input.kind.value && data.post == input.postId && data.comment == input.commentId
    ensures data.reason == Text.Strip(input.reason.value)
  {
    ReportFields(input.kind.value, input.postId, input.commentId, Text.Strip(input.reason.value))
  }

  /** `validate`, the same in both variants: a POST report needs a post, a
      COMMENT report a comment; data that passes is returned unchanged. */
  function Validate(data: ReportFields): (r: Result<ReportFields>)
    ensures data.kind == R.PostReport && data.post.None? ==> r == Err(ValidationError({"post_id"}))
    ensures data.kind == R.CommentReport && data.comment.None? ==> r == Err(ValidationError({"comment_id"}))
    ensures r.Ok? <==> (data.kind == R.PostReport ==> data.post.Some?) && (data.kind == R.CommentReport ==> data.comment.Some?)
    ensures r.Ok? ==> r.value == data
  {
    if data.kind == R.PostReport && data.post.None? then Err(ValidationError({"post_id"}))
    else if data.kind == R.CommentReport && data.comment.None? then Err(ValidationError({"comment_id"}))
    else Ok(data)
  }

  /** What `validate` accepts is exactly what the model's `clean` accepts. */
  lemma ValidateAgreesWithClean(data: ReportFields, reportedBy: Id, now: nat)
    ensures Validate(data).Ok? <==>
      R.Clean(R.NewReport(data.kind, reportedBy, data.post, data.comment, data.reason, now))
  {
  }

  /** `create`: the validated data plus `reported_by` = the caller, saved
      through `Report.save`. Data the serializer accepts always passes the
      model's `full_clean`, so the save never fails. */
  function CreateStep(s: State, p: Principal, input: ReportInput, now: nat): (o: Step<(Id, R.Report)>)
    requires p.Member?
    ensures o.response.Err? ==> o.after == s
    ensures FieldErrors(s, input) != {} ==> o.response == Err(ValidationError(FieldErrors(s, input)))
    ensures FieldErrors(s, input) == {} && Validate(Fields(input)).Err? ==>
      o.response == Err(Validate(Fields(input)).error)
    ensures o.response.Ok? <==> FieldErrors(s, input) == {} && Validate(Fields(input)).Ok?
    ensures o.response.Ok? ==>
      && var (id, r) := o.response.value;
         && id !in s.reports
         && o.after == s.(reports := s.reports[id := r])
         && r.kind == input.kind.value && r.post == input.postId && r.comment == input.commentId
         && r.reason == Text.Strip(input.reason.value) && r.reason != ""
         && r.reportedBy == p.id && r.status == R.Pending
         && r.reviewedBy.None? && r.actionTaken.None? && r.reviewedAt.None?
         && r.createdAt == now && R.FullCleanErrors(r) == {}
  {
    if FieldErrors(s, input) != {} then Step(Err(ValidationError(FieldErrors(s, input))), s)
    else
      var data := Fields(input);
      ValidateAgreesWithClean(data, p.id, now);
      match Validate(data)
      case Err(e) => Step(Err(e), s)
      case Ok(d) =>
        var id := FreshId(s.reports.Keys);
        var saved := SaveReportStep(s, id, R.NewReport(d.kind, p.id, d.post, d.comment, d.reason, now));
        match saved.response
        case Ok(r) => Step(Ok((id, r)), saved.after)
        case Err(e) => Step(Err(e), saved.after)
  }

  lemma CreateConsistent(s: State, p: Principal, input: ReportInput, now: nat)
    requires p.Member?
    requires Consistent(s) && Known(s, p)
    ensures Consistent(CreateStep(s, p, input, now).after)
  {
    var o := CreateStep(s, p, input, now);
    if o.response.Ok? {
      var (id, r) := o.response.value;
      assert ReportRefsOk(s, r);
      ReportStoredConsistent(s, id, r);
    }
  }

  // ---------------------------------------------------------------------------
  // Representation

  datatype PostSummary = PostSummary(id: Id, title: string, status: P.Status)
  datatype CommentSummary = CommentSummary(id: Id, content: string, author: Id, createdAt: nat)

  /** `get_post`: None without a post or when the post is gone, otherwise
      its id, title and status. */
  function GetPost(s: State, r: R.Report): (d: Option<PostSummary>)
    ensures d.None? <==> r.post.None? || r.post.value !in s.posts
    ensures d.Some? ==> d.value == PostSummary(r.post.value, s.posts[r.post.value].title, s.posts[r.post.value].status)
  {
    if r.post.None? || r.post.value !in s.posts then None
    else
      var post := s.posts[r.post.value];
      Some(PostSummary(r.post.value, post.title, post.status))
  }

  /** `get_comment`: None without a comment or when the comment is gone,
      otherwise its id, content, author and creation time. */
  function GetComment(s: State, r: R.Report): (d: Option<CommentSummary>)
    ensures d.None? <==> r.comment.None? || r.comment.value !in s.comments
    ensures d.Some? ==> d.value.id == r.comment.value && d.value.content == s.comments[r.comment.value].content
    ensures d.Some? ==> d.value.author == s.comments[r.comment.value].author
    ensures d.Some? ==> d.value.createdAt == s.comments[r.comment.value].createdAt
  {
    if r.comment.None? || r.comment.value !in s.comments then None
    else
      var c := s.comments[r.comment.value];
      Some(CommentSummary(r.comment.value, c.content, c.author, c.createdAt))
  }

  datatype ReportData = ReportData(
    id: Id, kind: R.ReportType, reportedBy: Id, post: Option<PostSummary>, comment: Option<CommentSummary>,
    reason: string, status: R.Status, reviewedBy: Option<Id>, actionTaken: Option<string>,
    createdAt: nat, reviewedAt: Option<nat>)

  /** The representation: the stored fields as they are, and the post and
      the comment only while the row they point to still exists. */
  function Serialize(s: State, id: Id, r: R.Report): (d: ReportData)
    ensures d.id == id && d.kind == r.kind && d.reportedBy == r.reportedBy
    ensures d.reason == r.reason && d.status == r.status && d.actionTaken == r.actionTaken
    ensures d.reviewedBy == r.reviewedBy && d.createdAt == r.createdAt && d.reviewedAt == r.reviewedAt
    ensures d.post.Some? <==> r.post.Some? && r.post.value in s.posts
    ensures d.comment.Some? <==> r.comment.Some? && r.comment.value in s.comments
  {
    ReportData(id, r.kind, r.reportedBy, GetPost(s, r), GetComment(s, r), r.reason, r.status,
               r.reviewedBy, r.actionTaken, r.createdAt, r.reviewedAt)
  }
}

=== FILE: report_views.dfy ===
/** `ReportViewSet` of reports/views.py: who sees which reports, the
    permission each action needs, and the moderation actions `review`,
    `resolve` and `dismiss`. None of the three looks at the report's current
    status; only the default listing scope keeps RESOLVED and DISMISSED
    reports out of reach. */
module ReportViews {
  import opened Common
  import opened AccountsModels
  import P = PostsModels
  import R = ReportsModels
  import opened Store
  import opened ReportSerializers
  import Access
  import Text
  import Ranking

  datatype Action = List | Retrieve | Create | Update | PartialUpdate | Destroy
                  | Review | Resolve | Dismiss | Other

  /** `get_permissions`. */
  function PermissionFor(a: Action): (perm: Access.Permission)
    ensures perm == Access.IsModerator <==> a in {Review, Resolve, Dismiss}
    ensures perm != Access.IsModerator ==> perm == Access.IsAuthenticated
  {
    if a in {Review, Resolve, Dismiss} then Access.IsModerator else Access.IsAuthenticated
  }

  /** The reports `get_queryset` keeps. A moderator gets the `status` asked
      for ("" when absent), or else the PENDING and REVIEWED ones; anyone
      else gets the reports they filed, whatever the parameter says. */
  function Visible(s: State, p: Principal, status: string): (ids: set<Id>)
    ensures ids <= s.reports.Keys
    ensures p.IsModerator() && status != "" ==>
      forall r :: r in ids <==> r in s.reports && R.StatusCode(s.reports[r].status) == status
    ensures p.IsModerator() && status == "" ==>
      forall r :: r in ids <==> r in s.reports && s.reports[r].status in {R.Pending, R.Reviewed}
    ensures !p.IsModerator() ==>
      forall r :: r in ids <==> r in s.reports && p.Member? && s.reports[r].reportedBy == p.id
  {
    if p.Member? && IsModeratorRole(p.role) then
      if status != "" then set r | r in s.reports && R.StatusCode(s.reports[r].status) == status
      else set r | r in s.reports && (s.reports[r].status == R.Pending || s.reports[r].status == R.Reviewed)
    else set r | r in s.reports && p.Member? && s.reports[r].reportedBy == p.id
  }

  /** A non-moderator's reports do not depend on the status parameter. */
  lemma StatusIgnoredForOthers(s: State, p: Principal, a: string, b: string)
    requires !p.IsModerator()
    ensures Visible(s, p, a) == Visible(s, p, b)
  {
  }

  function CreatedAt(s: State): (key: map<Id, nat>)
    ensures key.Keys == s.reports.Keys
  {
    map r | r in s.reports :: s.reports[r].createdAt
  }

  /** `get_queryset` with `order_by('-created_at')`. */
  function Queryset(s: State, p: Principal, status: string): (r: seq<Id>)
    ensures forall x :: x in r <==> x in Visible(s, p, status)
    ensures forall i, j :: 0 <= i < j < |r| ==>
      r[i] in s.reports && r[j] in s.reports && s.reports[r[i]].createdAt >= s.reports[r[j]].createdAt
  {
    Ranking.OrderedBy(Visible(s, p, status), CreatedAt(s))
  }

  /** The permission check and `get_object` of a detail action. */
  function Lookup(s: State, p: Principal, status: string, a: Action, id: Id): (e: Option<Error>)
    ensures e.None? ==> id in s.reports
    ensures e.None? <==> Access.Gate(PermissionFor(a), p).None? && id in Visible(s, p, status)
  {
    var denied := Access.Gate(PermissionFor(a), p);
    if denied.Some? then denied
    else if id !in Visible(s, p, status) then Some(NotFound)
    else None
  }

  /** Answering with the saved report's representation. */
  function Answer(o: Step<R.Report>, id: Id): (a: Step<ReportData>)
    ensures a.after == o.after
    ensures a.response.Ok? <==> o.response.Ok?
    ensures o.response.Err? ==> a.response == Err(o.response.error)
  {
    match o.response
    case Ok(r) => Step(Ok(Serialize(o.after, id, r)), o.after)
    case Err(e) => Step(Err(e), o.after)
  }

  /** The reviewer fields every moderation action sets. */
  function Reviewed(r: R.Report, status: R.Status, p: Principal, now: nat): (t: R.Report)
    requires p.Member?
    ensures t.status == status && t.reviewedBy == Some(p.id) && t.reviewedAt == Some(now)
    ensures t.kind == r.kind && t.post == r.post && t.comment == r.comment && t.reason == r.reason
    ensures t.reportedBy == r.reportedBy && t.createdAt == r.createdAt && t.actionTaken == r.actionTaken
  {
    r.(status := status, reviewedBy := Some(p.id), reviewedAt := Some(now))
  }

  /** What the reporter wrote is untouched by a moderation action: type,
      target, reason, reporter and filing time. */
  predicate SameFiling(r: R.Report, before: R.Report) {
    && r.kind == before.kind && r.post == before.post && r.comment == before.comment
    && r.reason == before.reason && r.reportedBy == before.reportedBy && r.createdAt == before.createdAt
  }

  // ---------------------------------------------------------------------------
  // review

  /** `review`: a report in reach becomes REVIEWED, with the caller as
      reviewer and now as review time; `action_taken` and everything the
      reporter wrote are kept, and no other row changes. The save fails only
      on a stored report that `full_clean` already refuses. */
  function ReviewStep(s: State, p: Principal, status: string, id: Id, now: nat): (o: Step<ReportData>)
    ensures Lookup(s, p, status, Review, id).Some? ==>
      o == Step(Err(Lookup(s, p, status, Review, id).value), s)
    ensures o.response.Err? ==> o.after == s
    ensures Lookup(s, p, status, Review, id).None? ==>
      (o.response.Ok? <==> R.FullCleanErrors(s.reports[id]) == {})
    ensures o.response.Ok? ==>
      && id in s.reports && id in o.after.reports
      && var before, r := s.reports[id], o.after.reports[id];
         && o.after == s.(reports := s.reports[id := r])
         && r.status == R.Reviewed && r.reviewedBy == Some(p.id) && r.reviewedAt == Some(now)
         && r.actionTaken == before.actionTaken
         && SameFiling(r, before)
         && o.response.value.id == id && o.response.value.status == R.Reviewed
  {
    var e := Lookup(s, p, status, Review, id);
    if e.Some? then Step(Err(e.value), s)
    else Answer(SaveReportStep(s, id, Reviewed(s.reports[id], R.Reviewed, p, now)), id)
  }

  /** `review` of a report in reach, whatever its status: REVIEWED, the
      caller as reviewer, now as review time, `action_taken` kept; nothing
      else changes. */
  lemma ReviewOutcome(s: State, p: Principal, status: string, id: Id, now: nat)
    requires Consistent(s)
    requires Lookup(s, p, status, Review, id).None?
    ensures var o := ReviewStep(s, p, status, id, now);
      && o.response.Ok?
      && o.after == s.(reports := s.reports[id := o.after.reports[id]])
      && o.after.reports[id].status == R.Reviewed
      && o.after.reports[id].reviewedBy == Some(p.id)
      && o.after.reports[id].reviewedAt == Some(now)
      && o.after.reports[id].actionTaken == s.reports[id].actionTaken
  {
    assert ReportRefsOk(s, s.reports[id]);
  }

  // ---------------------------------------------------------------------------
  // resolve

  /** `'archive' in action_taken.lower()` and the same for "delete". */
  predicate Says(text: string, word: string) {
    Text.Contains(Text.Lower(text), word)
  }

  /** What `resolve` does to the reported content before it saves the
      report: a POST report whose post exists archives it when the text
      mentions "archive", else deletes it when the text mentions "delete"; a
      COMMENT report whose comment exists deletes it when the text mentions
      "delete". */
  function ContentEffect(s: State, r: R.Report, text: string): (t: State)
    ensures t.users == s.users && t.categories == s.categories && t.tags == s.tags && t.reports == s.reports
  {
    if r.kind == R.PostReport && r.post.Some? && r.post.value in s.posts then
      var post := r.post.value;
      if Says(text, "archive") then s.(posts := s.posts[post := s.posts[post].(status := P.Archived)])
      else if Says(text, "delete") then RemovePost(s, post)
      else s
    else if r.kind == R.CommentReport && r.comment.Some? && r.comment.value in s.comments then
      if Says(text, "delete") then RemoveComment(s, r.comment.value) else s
    else s
  }

  /** `resolve`: the reported content is dealt with first (see
      `ContentEffect`), then the report becomes RESOLVED with the caller as
      reviewer, now as review time and the text (default "") as
      `action_taken`; everything the reporter wrote is kept. Users,
      categories and tags never change. */
  function ResolveStep(s: State, p: Principal, status: string, id: Id, actionTaken: Option<string>, now: nat): (o: Step<ReportData>)
    ensures Lookup(s, p, status, Resolve, id).Some? ==>
      o == Step(Err(Lookup(s, p, status, Resolve, id).value), s)
    ensures o.after.users == s.users && o.after.categories == s.categories && o.after.tags == s.tags
    ensures Lookup(s, p, status, Resolve, id).None? ==>
      && (o.response.Ok? <==> R.FullCleanErrors(s.reports[id]) == {})
      && var effect := ContentEffect(s, s.reports[id], OrElse(actionTaken, ""));
         && o.after.posts == effect.posts && o.after.comments == effect.comments
    ensures o.response.Err? ==> o.after.reports == s.reports
    ensures o.response.Ok? ==>
      && id in s.reports && id in o.after.reports
      && var before, r := s.reports[id], o.after.reports[id];
         && o.after.reports == s.reports[id := r]
         && r.status == R.Resolved && r.reviewedBy == Some(p.id) && r.reviewedAt == Some(now)
         && r.actionTaken == Some(if actionTaken.Some? then actionTaken.value else "")
         && SameFiling(r, before)
         && o.response.value.id == id && o.response.value.status == R.Resolved
  {
    var e := Lookup(s, p, status, Resolve, id);
    if e.Some? then Step(Err(e.value), s)
    else
      var text := OrElse(actionTaken, "");
      var report := s.reports[id];
      var r := Reviewed(report, R.Resolved, p, now).(actionTaken := Some(text));
      Answer(SaveReportStep(ContentEffect(s, report, text), id, r), id)
  }

  /** On a POST report whose post exists, "archive" archives the post, even
      when the text also says "delete". */
  lemma ResolveArchiveWins(s: State, p: Principal, status: string, id: Id, text: string, now: nat)
    requires Consistent(s) && Lookup(s, p, status, Resolve, id).None?
    requires s.reports[id].kind == R.PostReport && s.reports[id].post.Some?
    requires s.reports[id].post.value in s.posts
    requires Says(text, "archive")
    ensures var o := ResolveStep(s, p, status, id, Some(text), now);
            var post := s.reports[id].post.value;
      && o.response.Ok?
      && o.after.posts == s.posts[post := s.posts[post].(status := P.Archived)]
      && o.after.comments == s.comments
  {
    assert ReportRefsOk(s, s.reports[id]);
  }

  /** Otherwise "delete" removes the post and its comments. */
  lemma ResolveDeletesPost(s: State, p: Principal, status: string, id: Id, text: string, now: nat)
    requires Consistent(s) && Lookup(s, p, status, Resolve, id).None?
    requires s.reports[id].kind == R.PostReport && s.reports[id].post.Some?
    requires s.reports[id].post.value in s.posts
    requires !Says(text, "archive") && Says(text, "delete")
    ensures var o := ResolveStep(s, p, status, id, Some(text), now);
            var post := s.reports[id].post.value;
      && o.response.Ok?
      && o.after.posts == s.posts - {post}
      && o.after.comments.Keys == s.comments.Keys - CommentsOn(s, post)
  {
    assert ReportRefsOk(s, s.reports[id]);
  }

  /** After resolve has deleted the reported post, the report is RESOLVED and
      its representation carries no post. */
  lemma DeletedPostShownAsNone(s: State, p: Principal, status: string, id: Id, text: string, now: nat)
    requires Consistent(s) && Lookup(s, p, status, Resolve, id).None?
    requires s.reports[id].kind == R.PostReport && s.reports[id].post.Some?
    requires s.reports[id].post.value in s.posts
    requires !Says(text, "archive") && Says(text, "delete")
    ensures var o := ResolveStep(s, p, status, id, Some(text), now);
      && id in o.after.reports
      && var d := ReportSerializers.Serialize(o.after, id, o.after.reports[id]);
         && d.post.None? && d.status == R.Resolved && d.kind == R.PostReport
  {
    ResolveDeletesPost(s, p, status, id, text, now);
  }

  /** On a COMMENT report whose comment exists, the comment goes exactly
      when the text says "delete"; posts are never touched. */
  lemma ResolveComment(s: State, p: Principal, status: string, id: Id, text: string, now: nat)
    requires Consistent(s) && Lookup(s, p, status, Resolve, id).None?
    requires s.reports[id].kind == R.CommentReport && s.reports[id].comment.Some?
    requires s.reports[id].comment.value in s.comments
    ensures var o := ResolveStep(s, p, status, id, Some(text), now);
            var comment := s.reports[id].comment.value;
      && o.response.Ok?
      && o.after.posts == s.posts
      && o.after.comments == if Says(text, "delete") then s.comments - {comment} else s.comments
  {
    assert ReportRefsOk(s, s.reports[id]);
  }

  /** Whatever the prior status, `resolve` leaves the report RESOLVED with the
      caller, the time and the text (default ""). */
  lemma ResolveMarksReport(s: State, p: Principal, status: string, id: Id, actionTaken: Option<string>, now: nat)
    requires Consistent(s) && Lookup(s, p, status, Resolve, id).None?
    ensures var o := ResolveStep(s, p, status, id, actionTaken, now);
      && o.response.Ok?
      && o.after.reports == s.reports[id := o.after.reports[id]]
      && o.after.reports[id].status == R.Resolved
      && o.after.reports[id].reviewedBy == Some(p.id)
      && o.after.reports[id].reviewedAt == Some(now)
      && o.after.reports[id].actionTaken == Some(if actionTaken.Some? then actionTaken.value else "")
  {
    assert ReportRefsOk(s, s.reports[id]);
  }

  // ---------------------------------------------------------------------------
  // dismiss

  const DismissDefault: string := "Reporte descartado"

  /** `dismiss`: a report in reach becomes DISMISSED with the caller as
      reviewer, now as review time and the text (default "Reporte
      descartado") as `action_taken`; the reported content and every other
      row are left alone. */
  function DismissStep(s: State, p: Principal, status: string, id: Id, actionTaken: Option<string>, now: nat): (o: Step<ReportData>)
    ensures Lookup(s, p, status, Dismiss, id).Some? ==>
      o == Step(Err(Lookup(s, p, status, Dismiss, id).value), s)
    ensures o.response.Err? ==> o.after == s
    ensures Lookup(s, p, status, Dismiss, id).None? ==>
      (o.response.Ok? <==> R.FullCleanErrors(s.reports[id]) == {})
    ensures o.response.Ok? ==>
      && id in s.reports && id in o.after.reports
      && var before, r := s.reports[id], o.after.reports[id];
         && o.after == s.(reports := s.reports[id := r])
         && r.status == R.Dismissed && r.reviewedBy == Some(p.id) && r.reviewedAt == Some(now)
         && r.actionTaken == Some(if actionTaken.Some? then actionTaken.value else DismissDefault)
         && SameFiling(r, before)
         && o.response.value.id == id && o.response.value.status == R.Dismissed
  {
    var e := Lookup(s, p, status, Dismiss, id);
    if e.Some? then Step(Err(e.value), s)
    else
      var r := Reviewed(s.reports[id], R.Dismissed, p, now).(actionTaken := Some(OrElse(actionTaken, DismissDefault)));
      Answer(SaveReportStep(s, id, r), id)
  }

  /** `dismiss` never touches the reported content, and records the text or
      "Reporte descartado". */
  lemma DismissLeavesContent(s: State, p: Principal, status: string, id: Id, actionTaken: Option<string>, now: nat)
    requires Consistent(s) && Lookup(s, p, status, Dismiss, id).None?
    ensures var o := DismissStep(s, p, status, id, actionTaken, now);
      && o.response.Ok?
      && o.after.posts == s.posts && o.after.comments == s.comments
      && o.after.reports[id].status == R.Dismissed
      && o.after.reports[id].actionTaken == Some(if actionTaken.Some? then actionTaken.value else DismissDefault)
  {
    assert ReportRefsOk(s, s.reports[id]);
  }

  // ---------------------------------------------------------------------------
  // Reach and integrity

  /** Without a status parameter, a RESOLVED or DISMISSED report is out of
      reach of all three actions, for moderators too. */
  lemma ClosedReportsOutOfReach(s: State, p: Principal, id: Id, text: Option<string>, now: nat)
    requires id in s.reports && s.reports[id].status in {R.Resolved, R.Dismissed}
    ensures ReviewStep(s, p, "", id, now).response.Err?
    ensures ResolveStep(s, p, "", id, text, now).response.Err?
    ensures DismissStep(s, p, "", id, text, now).response.Err?
  {
  }

  /** Non-moderators are refused the three actions (401 or 403) and
      nothing changes. */
  lemma ModeratorsOnly(s: State, p: Principal, status: string, id: Id, text: Option<string>, now: nat)
    requires !p.IsModerator()
    ensures var e := if p.Anonymous? then NotAuthenticated else PermissionDenied;
      && ReviewStep(s, p, status, id, now) == Step(Err(e), s)
      && ResolveStep(s, p, status, id, text, now) == Step(Err(e), s)
      && DismissStep(s, p, status, id, text, now) == Step(Err(e), s)
  {
  }

  lemma SaveReviewedConsistent(s: State, id: Id, r: R.Report)
    requires Consistent(s) && id in s.reports
    requires r.reportedBy in s.users && (r.reviewedBy.Some? ==> r.reviewedBy.value in s.users)
    ensures Consistent(SaveReportStep(s, id, r).after)
  {
    if SaveReportStep(s, id, r).response.Ok? {
      ReportStoredConsistent(s, id, r);
    }
  }

  lemma ReviewConsistent(s: State, p: Principal, status: string, id: Id, now: nat)
    requires Consistent(s) && Known(s, p)
    ensures Consistent(ReviewStep(s, p, status, id, now).after)
  {
    if Lookup(s, p, status, Review, id).None? {
      assert ReportRefsOk(s, s.reports[id]);
      SaveReviewedConsistent(s, id, Reviewed(s.reports[id], R.Reviewed, p, now));
    }
  }

  lemma DismissConsistent(s: State, p: Principal, status: string, id: Id, text: Option<string>, now: nat)
    requires Consistent(s) && Known(s, p)
    ensures Consistent(DismissStep(s, p, status, id, text, now).after)
  {
    if Lookup(s, p, status, Dismiss, id).None? {
      assert ReportRefsOk(s, s.reports[id]);
      var r := Reviewed(s.reports[id], R.Dismissed, p, now).(actionTaken := Some(OrElse(text, DismissDefault)));
      SaveReviewedConsistent(s, id, r);
    }
  }

  lemma ResolveConsistent(s: State, p: Principal, status: string, id: Id, text: Option<string>, now: nat)
    requires Consistent(s) && Known(s, p)
    ensures Consistent(ResolveStep(s, p, status, id, text, now).after)
  {
    if Lookup(s, p, status, Resolve, id).None? {
      var report := s.reports[id];
      var t := OrElse(text, "");
      assert ReportRefsOk(s, report);
      ContentEffectConsistent(s, report, t);
      var mid := ContentEffect(s, report, t);
      SaveReviewedConsistent(mid, id, Reviewed(report, R.Resolved, p, now).(actionTaken := Some(t)));
    }
  }

  lemma ContentEffectConsistent(s: State, r: R.Report, text: string)
    requires Consistent(s)
    ensures Consistent(ContentEffect(s, r, text))
  {
    if r.kind == R.PostReport && r.post.Some? && r.post.value in s.posts {
      var post := r.post.value;
      if Says(text, "archive") {
        PostStatusConsistent(s, post, P.Archived);
      } else if Says(text, "delete") {
        RemovePostConsistent(s, post);
      }
    } else if r.kind == R.CommentReport && r.comment.Some? && r.comment.value in s.comments {
      RemoveCommentConsistent(s, r.comment.value);
    }
  }

  // ---------------------------------------------------------------------------
  // create

  /** `create`: a logged-in caller files a report through the serializer. */
  function CreateReportStep(s: State, p: Principal, input: ReportInput, now: nat): (o: Step<ReportData>)
    ensures p.Anonymous? ==> o == Step(Err(NotAuthenticated), s)
    ensures p.Member? ==> o.after == ReportSerializers.CreateStep(s, p, input, now).after
    ensures p.Member? ==> (o.response.Ok? <==> ReportSerializers.CreateStep(s, p, input, now).response.Ok?)
  {
    var denied := Access.Gate(PermissionFor(Create), p);
    if denied.Some? then Step(Err(denied.value), s)
    else
      var o := ReportSerializers.CreateStep(s, p, input, now);
      match o.response
      case Ok((id, r)) => Step(Ok(Serialize(o.after, id, r)), o.after)
      case Err(e) => Step(Err(e), o.after)
  }

  // ---------------------------------------------------------------------------
  // The actions on the database

  /** Shared tail of the three actions: save the report, answer with it. */
  method SaveAndAnswer(db: Db, id: Id, r: R.Report) returns (res: Result<ReportData>)
    modifies db
    ensures res == Answer(SaveReportStep(old(db.Snapshot()), id, r), id).response
    ensures db.Snapshot() == SaveReportStep(old(db.Snapshot()), id, r).after
  {
    var saved := db.SaveReport(id, r);
    match saved {
      case Ok(report) => res := Ok(Serialize(db.Snapshot(), id, report));
      case Err(e) => res := Err(e);
    }
  }

  method ReviewAction(db: Db, p: Principal, status: string, id: Id, now: nat) returns (res: Result<ReportData>)
    modifies db
    ensures res == ReviewStep(old(db.Snapshot()), p, status, id, now).response
    ensures db.Snapshot() == ReviewStep(old(db.Snapshot()), p, status, id, now).after
  {
    var e := Lookup(db.Snapshot(), p, status, Review, id);
    if e.Some? {
      return Err(e.value);
    }
    var report := db.reports[id];
    report := report.(status := R.Reviewed);
    report := report.(reviewedBy := Some(p.id));
    report := report.(reviewedAt := Some(now));
    res := SaveAndAnswer(db, id, report);
  }

  method ResolveAction(db: Db, p: Principal, status: string, id: Id, actionTaken: Option<string>, now: nat)
    returns (res: Result<ReportData>)
    modifies db
    ensures res == ResolveStep(old(db.Snapshot()), p, status, id, actionTaken, now).response
    ensures db.Snapshot() == ResolveStep(old(db.Snapshot()), p, status, id, actionTaken, now).after
  {
    var e := Lookup(db.Snapshot(), p, status, Resolve, id);
    if e.Some? {
      return Err(e.value);
    }
    ghost var s := db.Snapshot();
    var report := db.reports[id];
    var text := if actionTaken.Some? then actionTaken.value else "";
    if report.kind == R.PostReport && report.post.Some? && report.post.value in db.posts {
      var post := report.post.value;
      if Says(text, "archive") {
        db.posts := db.posts[post := db.posts[post].(status := P.Archived)];
      } else if Says(text, "delete") {
        var t := RemovePost(db.Snapshot(), post);
        db.posts, db.comments := t.posts, t.comments;
      }
    } else if report.kind == R.CommentReport && report.comment.Some? && report.comment.value in db.comments {
      if Says(text, "delete") {
        db.comments := db.comments - {report.comment.value};
      }
    }
    assert db.Snapshot() == ContentEffect(s, report, text);
    report := report.(status := R.Resolved, reviewedBy := Some(p.id), reviewedAt := Some(now));
    report := report.(actionTaken := Some(text));
    res := SaveAndAnswer(db, id, report);
  }

  method DismissAction(db: Db, p: Principal, status: string, id: Id, actionTaken: Option<string>, now: nat)
    returns (res: Result<ReportData>)
    modifies db
    ensures res == DismissStep(old(db.Snapshot()), p, status, id, actionTaken, now).response
    ensures db.Snapshot() == DismissStep(old(db.Snapshot()), p, status, id, actionTaken, now).after
  {
    var e := Lookup(db.Snapshot(), p, status, Dismiss, id);
    if e.Some? {
      return Err(e.value);
    }
    var report := db.reports[id];
    report := report.(status := R.Dismissed, reviewedBy := Some(p.id), reviewedAt := Some(now));
    report := report.(actionTaken := Some(if actionTaken.Some? then actionTaken.value else DismissDefault));
    res := SaveAndAnswer(db, id, report);
  }

  method CreateReportAction(db: Db, p: Principal, input: ReportInput, now: nat) returns (res: Result<ReportData>)
    modifies db
    ensures res == CreateReportStep(old(db.Snapshot()), p, input, now).response
    ensures db.Snapshot() == CreateReportStep(old(db.Snapshot()), p, input, now).after
  {
    var denied := Access.Gate(PermissionFor(Create), p);
    if denied.Some? {
      return Err(denied.value);
    }
    var errors := FieldErrors(db.Snapshot(), input);
    if errors != {} {
      return Err(ValidationError(errors));
    }
    var data := Fields(input);
    var checked := Validate(data);
    if checked.Err? {
      return Err(checked.error);
    }
    var id := FreshId(db.reports.Keys);
    var report := R.NewReport(data.kind, p.id, data.post, data.comment, data.reason, now);
    res := SaveAndAnswer(db, id, report);
  }
}

=== FILE: reports_models.dfy ===
/** The report model of reports/models.py: type and status choices, the
    record with its defaults, and the checks `save` runs before persisting. */
module ReportsModels {
  import opened Common

  datatype ReportType = PostReport | CommentReport
  datatype Status = Pending | Reviewed | Resolved | Dismissed

  /** The value stored in the `status` column and accepted as `?status=`. */
  function StatusCode(s: Status): (code: string)
    ensures code in {"PENDING", "REVIEWED", "RESOLVED", "DISMISSED"}
  {
    match s
    case Pending => "PENDING"
    case Reviewed => "REVIEWED"
    case Resolved => "RESOLVED"
    case Dismissed => "DISMISSED"
  }

  datatype Report = Report(
    kind: ReportType,
    reportedBy: Id,            // CASCADE
    post: Option<Id>,          // CASCADE, nullable
    comment: Option<Id>,       // CASCADE, nullable
    reason: string,
    status: Status,
    reviewedBy: Option<Id>,    // SET_NULL
    actionTaken: Option<string>,
    createdAt: nat,
    reviewedAt: Option<nat>)

  /** A report as filed: status PENDING, no reviewer, no action, no review
      time. */
  function NewReport(kind: ReportType, reportedBy: Id, post: Option<Id>, comment: Option<Id>,
                     reason: string, now: nat): (r: Report)
    ensures r.status == Pending && r.reviewedBy == None && r.actionTaken == None
    ensures r.reviewedAt == None && r.createdAt == now && r.reportedBy == reportedBy
    ensures r.kind == kind && r.post == post && r.comment == comment && r.reason == reason
  {
    Report(kind, reportedBy, post, comment, reason, Pending, None, None, now, None)
  }

  /** `clean`: a POST report needs a post and a COMMENT report a comment. */
  predicate Clean(r: Report) {
    (r.kind == PostReport ==> r.post.Some?) && (r.kind == CommentReport ==> r.comment.Some?)
  }

  /** The error keys `full_clean` collects: `reason` when the required reason
      is blank (field validation), `__all__` when `clean` fails. Both checks
      always run. */
  function FullCleanErrors(r: Report): (keys: set<string>)
    ensures keys == {} <==> Clean(r) && r.reason != ""
    ensures "__all__" in keys <==> !Clean(r)
    ensures "reason" in keys <==> r.reason == ""
  {
    (if r.reason == "" then {"reason"} else {}) + (if Clean(r) then {} else {"__all__"})
  }
}

=== FILE: store.dfy ===
/** The database the views work on: one finite map from ids to records per
    table, the referential integrity the foreign keys keep, the counts the
    models expose (`posts_count`, `comments_count`) and the delete rules of
    the foreign keys (CASCADE, SET_NULL). */
module Store {
  import opened Common
  import A = AccountsModels
  import C = CategoriesModels
  import P = PostsModels
  import K = CommentsModels
  import R = ReportsModels
  import Ranking

  datatype State = State(
    users: map<Id, A.User>,
    categories: map<Id, C.Category>,
    tags: map<Id, P.Tag>,
    posts: map<Id, P.Post>,
    comments: map<Id, K.Comment>,
    reports: map<Id, R.Report>)

  /** What a request returns together with the database it leaves behind. */
  datatype Step<T> = Step(response: Result<T>, after: State)

  /** The id the database gives a new row: one more than the largest id in
      use, or 0 in an empty table. */
  function FreshId(ids: set<Id>): (id: Id)
    ensures id !in ids
    ensures forall k :: k in ids ==> k < id
  {
    var sorted := Ranking.Ascending(ids);
    if sorted == [] then 0
    else
      LastIsLargest(sorted, ids);
      sorted[|sorted| - 1] + 1
  }

  lemma LastIsLargest(sorted: seq<Id>, ids: set<Id>)
    requires sorted != []
    requires forall x :: x in sorted <==> x in ids
    requires forall i, j :: 0 <= i < j < |sorted| ==> sorted[i] < sorted[j]
    ensures forall k :: k in ids ==> k <= sorted[|sorted| - 1]
  {
    forall k | k in ids ensures k <= sorted[|sorted| - 1] {
      var i :| 0 <= i < |sorted| && sorted[i] == k;
      if i < |sorted| - 1 {
        assert sorted[i] < sorted[|sorted| - 1];
      }
    }
  }

  /** The caller, when authenticated, is a row of the user table. */
  predicate Known(s: State, p: A.Principal) {
    p.Member? ==> p.id in s.users
  }

  // ---------------------------------------------------------------------------
  // Referential integrity

  predicate CategoryRefsOk(s: State, c: C.Category) {
    c.createdBy.Some? ==> c.createdBy.value in s.users
  }

  predicate PostRefsOk(s: State, p: P.Post) {
    p.category in s.categories && p.author in s.users && p.tags <= s.tags.Keys
  }

  predicate CommentRefsOk(s: State, c: K.Comment) {
    c.post in s.posts && c.author in s.users
  }

  /** A report's reporter and reviewer exist and it passes `full_clean` (a
      reason, and a target of its type), as every saved report did. The
      target itself may be gone: `resolve` removes it and the report
      serializer returns None for it. */
  predicate ReportRefsOk(s: State, r: R.Report) {
    r.reportedBy in s.users && (r.reviewedBy.Some? ==> r.reviewedBy.value in s.users)
    && R.FullCleanErrors(r) == {}
  }

  predicate UniqueEmails(users: map<Id, A.User>) {
    forall a, b :: a in users && b in users && users[a].email == users[b].email ==> a == b
  }

  predicate UniqueNames(categories: map<Id, C.Category>) {
    forall a, b :: a in categories && b in categories && categories[a].name == categories[b].name ==> a == b
  }

  /** The integrity constraints of the schema. */
  predicate Consistent(s: State) {
    && UniqueEmails(s.users)
    && UniqueNames(s.categories)
    && (forall c :: c in s.categories ==> CategoryRefsOk(s, s.categories[c]))
    && (forall p :: p in s.posts ==> PostRefsOk(s, s.posts[p]))
    && (forall c :: c in s.comments ==> CommentRefsOk(s, s.comments[c]))
    && (forall r :: r in s.reports ==> ReportRefsOk(s, s.reports[r]))
  }

  // ---------------------------------------------------------------------------
  // Counts

  /** Every post of a category, whatever its status (`category.posts`). */
  function PostsOf(s: State, category: Id): (ids: set<Id>)
    ensures ids <= s.posts.Keys
    ensures forall p :: p in ids <==> p in s.posts && s.posts[p].category == category
  {
    set p | p in s.posts && s.posts[p].category == category
  }

  /** The PUBLISHED posts of a category. */
  function PublishedPostsOf(s: State, category: Id): (ids: set<Id>)
    ensures ids <= PostsOf(s, category)
    ensures forall p :: p in ids <==> p in PostsOf(s, category) && s.posts[p].status == P.Published
  {
    set p | p in s.posts && s.posts[p].category == category && s.posts[p].status == P.Published
  }

  /** `Category.posts_count`: the number of its PUBLISHED posts, never more
      than the number of its posts. */
  function PostsCount(s: State, category: Id): (n: nat)
    ensures n == |PublishedPostsOf(s, category)|
    ensures n <= |PostsOf(s, category)|
    ensures n > 0 <==> PublishedPostsOf(s, category) != {}
  {
    var pub := PublishedPostsOf(s, category);
    CardinalityMono(pub, PostsOf(s, category));
    |pub|
  }

  /** The comments of a post (`post.comments`). */
  function CommentsOn(s: State, post: Id): (ids: set<Id>)
    ensures ids <= s.comments.Keys
    ensures forall c :: c in ids <==> c in s.comments && s.comments[c].post == post
  {
    set c | c in s.comments && s.comments[c].post == post
  }

  /** `Post.comments_count`, and the annotated `comments_count_annotated` the
      serializer prefers: both are the number of the post's comments. */
  function CommentsCount(s: State, post: Id): (n: nat)
    ensures n == |CommentsOn(s, post)|
    ensures n <= |s.comments|
  {
    CardinalityMono(CommentsOn(s, post), s.comments.Keys);
    |CommentsOn(s, post)|
  }

  lemma CardinalityMono<T>(a: set<T>, b: set<T>)
    requires a <= b
    ensures |a| <= |b|
  {
    assert b == a + (b - a);
  }

  // ---------------------------------------------------------------------------
  // Delete rules of the foreign keys

  /** A report aimed at one of the given posts or comments. */
  predicate Targets(r: R.Report, posts: set<Id>, comments: set<Id>) {
    (r.post.Some? && r.post.value in posts) || (r.comment.Some? && r.comment.value in comments)
  }

  /** Removing a post together with its comments (the comments' CASCADE);
      reports are left as they are. This is what `resolve` does to a post. */
  function RemovePost(s: State, post: Id): (t: State)
    ensures t.posts == s.posts - {post}
    ensures t.comments.Keys == s.comments.Keys - CommentsOn(s, post)
    ensures forall c :: c in t.comments ==> t.comments[c] == s.comments[c] && t.comments[c].post != post
    ensures t.users == s.users && t.categories == s.categories && t.tags == s.tags
    ensures t.reports == s.reports
  {
    s.(posts := s.posts - {post}, comments := s.comments - CommentsOn(s, post))
  }

  /** Removing a comment and nothing else. This is what `resolve` does to a
      comment. */
  function RemoveComment(s: State, comment: Id): (t: State)
    ensures t.comments == s.comments - {comment}
    ensures t.users == s.users && t.categories == s.categories && t.tags == s.tags
    ensures t.posts == s.posts && t.reports == s.reports
  {
    s.(comments := s.comments - {comment})
  }

  lemma RemoveCommentConsistent(s: State, comment: Id)
    requires Consistent(s)
    ensures Consistent(RemoveComment(s, comment))
  {
  }

  /** Deleting a comment: the reports about it go with it (CASCADE). */
  function DeleteComment(s: State, comment: Id): (t: State)
    ensures t.comments == s.comments - {comment}
    ensures t.reports.Keys <= s.reports.Keys
    ensures forall r :: r in s.reports ==>
      (r in t.reports <==> s.reports[r].comment != Some(comment))
    ensures forall r :: r in t.reports ==> t.reports[r] == s.reports[r]
    ensures t.users == s.users && t.categories == s.categories && t.tags == s.tags
    ensures t.posts == s.posts
  {
    s.(comments := s.comments - {comment},
       reports := map r | r in s.reports && !Targets(s.reports[r], {}, {comment}) :: s.reports[r])
  }

  /** Deleting a post: its comments go (CASCADE), and so do the reports about
      the post or about any of those comments (CASCADE). */
  function DeletePost(s: State, post: Id): (t: State)
    ensures t.posts == s.posts - {post}
    ensures t.comments.Keys == s.comments.Keys - CommentsOn(s, post)
    ensures forall c :: c in t.comments ==> t.comments[c] == s.comments[c]
    ensures forall r :: r in s.reports ==>
      (r in t.reports <==> !Targets(s.reports[r], {post}, CommentsOn(s, post)))
    ensures forall r :: r in t.reports ==> r in s.reports && t.reports[r] == s.reports[r]
    ensures t.users == s.users && t.categories == s.categories && t.tags == s.tags
  {
    var gone := CommentsOn(s, post);
    s.(posts := s.posts - {post},
       comments := s.comments - gone,
       reports := map r | r in s.reports && !Targets(s.reports[r], {post}, gone) :: s.reports[r])
  }

  function PostsBy(s: State, user: Id): (ids: set<Id>)
    ensures forall p :: p in ids <==> p in s.posts && s.posts[p].author == user
  {
    set p | p in s.posts && s.posts[p].author == user
  }

  /** The comments that go with a user: their own, and those on their posts. */
  function CommentsGoneWith(s: State, user: Id): (ids: set<Id>)
    ensures forall c :: c in ids <==>
      (c in s.comments && (s.comments[c].author == user || s.comments[c].post in PostsBy(s, user)))
  {
    set c | c in s.comments && (s.comments[c].author == user || s.comments[c].post in PostsBy(s, user))
  }

  function ClearCreator(c: C.Category, user: Id): C.Category {
    if c.createdBy == Some(user) then c.(createdBy := None) else c
  }

  function ClearReviewer(r: R.Report, user: Id): R.Report {
    if r.reviewedBy == Some(user) then r.(reviewedBy := None) else r
  }

  /** Deleting a user: their posts, their comments, the comments on their
      posts and every report they filed or that is about any of those go
      (CASCADE); categories they created and reports they reviewed stay, with
      the reference set to null (SET_NULL). */
  function DeleteUser(s: State, user: Id): (t: State)
    ensures t.users == s.users - {user}
    ensures t.categories.Keys == s.categories.Keys
    ensures forall c :: c in t.categories ==>
      (t.categories[c].createdBy != Some(user) && t.categories[c] == ClearCreator(s.categories[c], user))
    ensures t.posts.Keys == s.posts.Keys - PostsBy(s, user)
    ensures forall p :: p in t.posts ==> t.posts[p] == s.posts[p] && t.posts[p].author != user
    ensures t.comments.Keys == s.comments.Keys - CommentsGoneWith(s, user)
    ensures forall c :: c in t.comments ==> t.comments[c] == s.comments[c] && t.comments[c].author != user
    ensures forall r :: r in s.reports ==>
      (r in t.reports <==> s.reports[r].reportedBy != user
                           && !Targets(s.reports[r], PostsBy(s, user), CommentsGoneWith(s, user)))
    ensures forall r :: r in t.reports ==>
      (r in s.reports && t.reports[r] == ClearReviewer(s.reports[r], user) && t.reports[r].reviewedBy != Some(user))
    ensures t.tags == s.tags
  {
    var posts := PostsBy(s, user);
    var comments := CommentsGoneWith(s, user);
    State(
      s.users - {user},
      map c | c in s.categories :: ClearCreator(s.categories[c], user),
      s.tags,
      s.posts - posts,
      s.comments - comments,
      map r | r in s.reports && s.reports[r].reportedBy != user && !Targets(s.reports[r], posts, comments)
            :: ClearReviewer(s.reports[r], user))
  }

  /** Replacing the user table keeps every constraint as long as no user
      disappears and e-mail addresses stay unique. */
  lemma UsersReplacedConsistent(s: State, users: map<Id, A.User>)
    requires Consistent(s)
    requires s.users.Keys <= users.Keys && UniqueEmails(users)
    ensures Consistent(s.(users := users))
  {
    var t := s.(users := users);
    forall c | c in t.categories ensures CategoryRefsOk(t, t.categories[c]) {
      assert CategoryRefsOk(s, s.categories[c]);
    }
    forall q | q in t.posts ensures PostRefsOk(t, t.posts[q]) {
      assert PostRefsOk(s, s.posts[q]);
    }
    forall c | c in t.comments ensures CommentRefsOk(t, t.comments[c]) {
      assert CommentRefsOk(s, s.comments[c]);
    }
    forall r | r in t.reports ensures ReportRefsOk(t, t.reports[r]) {
      assert ReportRefsOk(s, s.reports[r]);
    }
  }

  /** Changing a post's status keeps every constraint. */
  lemma PostStatusConsistent(s: State, post: Id, status: P.Status)
    requires Consistent(s) && post in s.posts
    ensures Consistent(s.(posts := s.posts[post := s.posts[post].(status := status)]))
  {
    var t := s.(posts := s.posts[post := s.posts[post].(status := status)]);
    forall q | q in t.posts ensures PostRefsOk(t, t.posts[q]) {
      assert PostRefsOk(s, s.posts[q]);
    }
    forall c | c in t.comments ensures CommentRefsOk(t, t.comments[c]) {
      assert CommentRefsOk(s, s.comments[c]);
    }
  }

  /** Writing a post whose references hold keeps every constraint. */
  lemma PostStoredConsistent(s: State, id: Id, post: P.Post)
    requires Consistent(s) && PostRefsOk(s, post)
    ensures Consistent(s.(posts := s.posts[id := post]))
  {
    var t := s.(posts := s.posts[id := post]);
    forall q | q in t.posts ensures PostRefsOk(t, t.posts[q]) {
      if q != id { assert PostRefsOk(s, s.posts[q]); }
    }
    forall c | c in t.comments ensures CommentRefsOk(t, t.comments[c]) {
      assert CommentRefsOk(s, s.comments[c]);
    }
  }

  /** Writing a comment whose references hold keeps every constraint. */
  lemma CommentStoredConsistent(s: State, id: Id, comment: K.Comment)
    requires Consistent(s) && CommentRefsOk(s, comment)
    ensures Consistent(s.(comments := s.comments[id := comment]))
  {
    var t := s.(comments := s.comments[id := comment]);
    forall c | c in t.comments ensures CommentRefsOk(t, t.comments[c]) {
      if c != id { assert CommentRefsOk(s, s.comments[c]); }
    }
    forall r | r in t.reports ensures ReportRefsOk(t, t.reports[r]) {
      assert ReportRefsOk(s, s.reports[r]);
    }
  }

  /** Writing a report whose references hold and that passes `full_clean`
      keeps every constraint. */
  lemma ReportStoredConsistent(s: State, id: Id, r: R.Report)
    requires Consistent(s) && ReportRefsOk(s, r)
    ensures Consistent(s.(reports := s.reports[id := r]))
  {
    var t := s.(reports := s.reports[id := r]);
    forall x | x in t.reports ensures ReportRefsOk(t, t.reports[x]) {
      if x != id { assert ReportRefsOk(s, s.reports[x]); }
    }
  }

  lemma RemovePostConsistent(s: State, post: Id)
    requires Consistent(s)
    ensures Consistent(RemovePost(s, post))
  {
    var t := RemovePost(s, post);
    forall c | c in t.comments ensures CommentRefsOk(t, t.comments[c]) {
      assert CommentRefsOk(s, s.comments[c]);
    }
  }

  lemma DeleteCommentConsistent(s: State, comment: Id)
    requires Consistent(s)
    ensures Consistent(DeleteComment(s, comment))
  {
  }

  lemma DeletePostConsistent(s: State, post: Id)
    requires Consistent(s)
    ensures Consistent(DeletePost(s, post))
  {
    var t := DeletePost(s, post);
    forall c | c in t.comments ensures CommentRefsOk(t, t.comments[c]) {
      assert CommentRefsOk(s, s.comments[c]);
    }
  }

  lemma DeleteUserConsistent(s: State, user: Id)
    requires Consistent(s)
    ensures Consistent(DeleteUser(s, user))
  {
    var t := DeleteUser(s, user);
    DeleteUserKeepsNames(s, user);
    DeleteUserKeepsCategoryRefs(s, user);
    DeleteUserKeepsPostRefs(s, user);
    DeleteUserKeepsCommentRefs(s, user);
    DeleteUserKeepsReportRefs(s, user);
    assert UniqueEmails(t.users);
  }

  lemma DeleteUserKeepsNames(s: State, user: Id)
    requires UniqueNames(s.categories)
    ensures UniqueNames(DeleteUser(s, user).categories)
  {
    var t := DeleteUser(s, user).categories;
    forall a, b | a in t && b in t && t[a].name == t[b].name ensures a == b {
      assert s.categories[a].name == t[a].name && s.categories[b].name == t[b].name;
    }
  }

  lemma DeleteUserKeepsCategoryRefs(s: State, user: Id)
    requires Consistent(s)
    ensures var t := DeleteUser(s, user); forall c :: c in t.categories ==> CategoryRefsOk(t, t.categories[c])
  {
    var t := DeleteUser(s, user);
    forall c | c in t.categories ensures CategoryRefsOk(t, t.categories[c]) {
      assert CategoryRefsOk(s, s.categories[c]);
    }
  }

  lemma DeleteUserKeepsPostRefs(s: State, user: Id)
    requires Consistent(s)
    ensures var t := DeleteUser(s, user); forall p :: p in t.posts ==> PostRefsOk(t, t.posts[p])
  {
    var t := DeleteUser(s, user);
    forall p | p in t.posts ensures PostRefsOk(t, t.posts[p]) {
      assert PostRefsOk(s, s.posts[p]);
    }
  }

  lemma DeleteUserKeepsCommentRefs(s: State, user: Id)
    requires Consistent(s)
    ensures var t := DeleteUser(s, user); forall c :: c in t.comments ==> CommentRefsOk(t, t.comments[c])
  {
    var t := DeleteUser(s, user);
    forall c | c in t.comments ensures CommentRefsOk(t, t.comments[c]) {
      assert CommentRefsOk(s, s.comments[c]);
      assert c !in CommentsGoneWith(s, user);
      assert s.comments[c].post !in PostsBy(s, user);
    }
  }

  lemma DeleteUserKeepsReportRefs(s: State, user: Id)
    requires Consistent(s)
    ensures var t := DeleteUser(s, user); forall r :: r in t.reports ==> ReportRefsOk(t, t.reports[r])
  {
    var t := DeleteUser(s, user);
    forall r | r in t.reports ensures ReportRefsOk(t, t.reports[r]) {
      assert ReportRefsOk(s, s.reports[r]);
    }
  }

  // ---------------------------------------------------------------------------
  // The database object

  /** `Report.save`: `full_clean` first, then the row is written. */
  function SaveReportStep(s: State, id: Id, r: R.Report): (o: Step<R.Report>)
    ensures o.response.Ok? <==> R.FullCleanErrors(r) == {}
    ensures o.response.Ok? ==> o.response.value == r && o.after == s.(reports := s.reports[id := r])
    ensures o.response.Err? ==> o.response.error == ValidationError(R.FullCleanErrors(r)) && o.after == s
  {
    var errors := R.FullCleanErrors(r);
    if errors != {} then Step(Err(ValidationError(errors)), s)
    else Step(Ok(r), s.(reports := s.reports[id := r]))
  }

  lemma SaveReportKeepsClean(s: State, id: Id, r: R.Report)
    requires SaveReportStep(s, id, r).response.Ok?
    ensures R.Clean(SaveReportStep(s, id, r).after.reports[id])
  {
  }

  /** The database: the tables the views read and write in place. */
  class Db {
    var users: map<Id, A.User>
    var categories: map<Id, C.Category>
    var tags: map<Id, P.Tag>
    var posts: map<Id, P.Post>
    var comments: map<Id, K.Comment>
    var reports: map<Id, R.Report>

    function Snapshot(): State
      reads this
    {
      State(users, categories, tags, posts, comments, reports)
    }

    constructor ()
      ensures Snapshot() == State(map[], map[], map[], map[], map[], map[])
    {
      users, categories, tags := map[], map[], map[];
      posts, comments, reports := map[], map[], map[];
    }

    /** `Report.save()`. */
    method SaveReport(id: Id, r: R.Report) returns (res: Result<R.Report>)
      modifies this
      ensures res == SaveReportStep(old(Snapshot()), id, r).response
      ensures Snapshot() == SaveReportStep(old(Snapshot()), id, r).after
    {
      var errors := R.FullCleanErrors(r);
      if errors != {} {
        return Err(ValidationError(errors));
      }
      reports := reports[id := r];
      res := Ok(r);
    }
  }
}

=== FILE: text.dfy ===
/** String helpers shared by the search filter, the moderation actions and the
    front end: ASCII lower-casing, substring search and first-occurrence
    replacement (Python `in` / `str.lower`, JavaScript `includes` /
    `startsWith` / `replace` with a string pattern). */
module Text {
  import opened Common

  function LowerChar(c: char): char {
    if 'A' <= c <= 'Z' then (c as int + 32) as char else c
  }

  /** ASCII lower-casing; letters outside A-Z are kept as they are. */
  function Lower(s: string): (r: string)
    ensures |r| == |s|
    ensures forall i :: 0 <= i < |s| ==> r[i] == LowerChar(s[i])
    ensures forall i :: 0 <= i < |s| ==> !('A' <= r[i] <= 'Z')
  {
    seq(|s|, i requires 0 <= i < |s| => LowerChar(s[i]))
  }

  /** The position of the last `c` in `s`, where Python's `rsplit(c, 1)`
      splits. */
  function LastIndexOf(s: string, c: char): (r: Option<nat>)
    ensures r.None? <==> c !in s
    ensures r.Some? ==> r.value < |s| && s[r.value] == c
    ensures r.Some? ==> forall j :: r.value < j < |s| ==> s[j] != c
  {
    if s == [] then None
    else if s[|s| - 1] == c then Some(|s| - 1)
    else LastIndexOf(s[..|s| - 1], c)
  }

  /** A `c` with no `c` after it is the last one. */
  lemma LastIndexAt(s: string, c: char, k: nat)
    requires k < |s| && s[k] == c
    requires forall j :: k < j < |s| ==> s[j] != c
    ensures LastIndexOf(s, c) == Some(k)
  {
  }

  predicate StartsWith(s: string, prefix: string) {
    |prefix| <= |s| && s[..|prefix|] == prefix
  }

  /** `t` occurs in `s` at position `i`. */
  predicate OccursAt(s: string, t: string, i: int) {
    0 <= i && i + |t| <= |s| && s[i..i + |t|] == t
  }

  /** The first position at or after `from` where `t` occurs in `s`. */
  function IndexFrom(s: string, t: string, from: nat): (r: Option<nat>)
    decreases |s| - from
    ensures r.Some? ==> from <= r.value && OccursAt(s, t, r.value)
    ensures r.Some? ==> forall j :: from <= j < r.value ==> !OccursAt(s, t, j)
    ensures r.None? ==> forall j :: from <= j ==> !OccursAt(s, t, j)
  {
    if from + |t| > |s| then None
    else if s[from..from + |t|] == t then Some(from)
    else IndexFrom(s, t, from + 1)
  }

  /** The first position where `t` occurs in `s`. */
  function IndexOf(s: string, t: string): Option<nat> {
    IndexFrom(s, t, 0)
  }

  /** Substring test: Python's `t in s`, JavaScript's `s.includes(t)`. */
  predicate Contains(s: string, t: string) {
    IndexOf(s, t).Some?
  }

  lemma ContainsIff(s: string, t: string)
    ensures Contains(s, t) <==> exists i :: OccursAt(s, t, i)
  {
  }

  /** Django's `icontains` and Python's `t in s.lower()` on a lower-cased
      needle: a substring test that ignores ASCII case. */
  predicate ContainsIgnoringCase(s: string, t: string) {
    Contains(Lower(s), Lower(t))
  }

  lemma LowerIdempotent(s: string)
    ensures Lower(Lower(s)) == Lower(s)
  {
  }

  /** The case of the searched text does not matter. */
  lemma IgnoresCaseOfNeedle(s: string, t: string)
    ensures ContainsIgnoringCase(s, Lower(t)) == ContainsIgnoringCase(s, t)
    ensures ContainsIgnoringCase(Lower(s), t) == ContainsIgnoringCase(s, t)
  {
    LowerIdempotent(s);
    LowerIdempotent(t);
  }

  /** An occurrence anywhere is found by the search. */
  lemma ContainsFactor(s: string, t: string, i: nat)
    requires OccursAt(s, t, i)
    ensures Contains(s, t)
  {
    ContainsIff(s, t);
  }

  /** Python's `str.isspace` on one character: the ASCII controls TAB to
      CR, the separators U+001C to U+001F, the space, and the Unicode
      spaces and line separators. */
  predicate IsSpace(c: char) {
    var n := c as int;
    || 9 <= n <= 13 || 28 <= n <= 32 || n == 0x85 || n == 0xA0 || n == 0x1680
    || 0x2000 <= n <= 0x200A || n == 0x2028 || n == 0x2029 || n == 0x202F
    || n == 0x205F || n == 0x3000
  }

  /** No whitespace at either end. */
  predicate Trimmed(s: string) {
    s == [] || (!IsSpace(s[0]) && !IsSpace(s[|s| - 1]))
  }

  /** `s` with its leading whitespace removed. */
  function TrimStart(s: string): (r: string)
    ensures |r| <= |s| && r == s[|s| - |r|..]
    ensures forall i :: 0 <= i < |s| - |r| ==> IsSpace(s[i])
    ensures r != [] ==> !IsSpace(r[0])
  {
    if s != [] && IsSpace(s[0]) then TrimStart(s[1..]) else s
  }

  /** `s` with its trailing whitespace removed. */
  function TrimEnd(s: string): (r: string)
    ensures |r| <= |s| && r == s[..|r|]
    ensures forall i :: |r| <= i < |s| ==> IsSpace(s[i])
    ensures r != [] ==> !IsSpace(r[|r| - 1])
  {
    if s != [] && IsSpace(s[|s| - 1]) then TrimEnd(s[..|s| - 1]) else s
  }

  /** Python's `str.strip()`, which Django REST framework's `CharField`
      applies to every text input before checking it: the result is the
      part of `s` left once the whitespace at both ends is cut off. It is
      empty exactly when `s` is blank. */
  function Strip(s: string): (r: string)
    ensures |r| <= |s|
  {
    TrimEnd(TrimStart(s))
  }

  /** What `Strip` removes is whitespace, all of it at the two ends; the
      result is empty exactly when `s` is blank. */
  lemma StripRemovesPadding(s: string)
    ensures Trimmed(Strip(s))
    ensures Strip(s) == [] <==> Blank(s)
    ensures exists i :: PaddedAt(s, Strip(s), i)
  {
    TrimBoth(s);
  }

  /** Nothing but whitespace. */
  predicate Blank(s: string) {
    forall i :: 0 <= i < |s| ==> IsSpace(s[i])
  }

  /** `s` is `r` at position `i` with nothing but whitespace around it. */
  predicate PaddedAt(s: string, r: string, i: int) {
    && OccursAt(s, r, i)
    && (forall j :: 0 <= j < i ==> IsSpace(s[j]))
    && (forall j :: i + |r| <= j < |s| ==> IsSpace(s[j]))
  }

  lemma TrimBoth(s: string)
    ensures Trimmed(TrimEnd(TrimStart(s)))
    ensures TrimEnd(TrimStart(s)) == [] <==> Blank(s)
    ensures PaddedAt(s, TrimEnd(TrimStart(s)), |s| - |TrimStart(s)|)
  {
    TrimBothTrimmed(s);
    TrimBothBlank(s);
    TrimBothPadded(s);
  }

  lemma TrimBothTrimmed(s: string)
    ensures Trimmed(TrimEnd(TrimStart(s)))
  {
    var t := TrimStart(s);
    var r := TrimEnd(t);
    if r != [] {
      assert r[0] == t[0];
    }
  }

  lemma TrimBothBlank(s: string)
    ensures TrimEnd(TrimStart(s)) == [] <==> Blank(s)
  {
    var t := TrimStart(s);
    if t != [] {
      // the first character kept is not whitespace, so neither end is empty
      assert s[|s| - |t|] == t[0] && !IsSpace(t[0]);
    }
  }

  lemma TrimBothPadded(s: string)
    ensures PaddedAt(s, TrimEnd(TrimStart(s)), |s| - |TrimStart(s)|)
  {
    var t := TrimStart(s);
    var r := TrimEnd(t);
    var i := |s| - |t|;
    KeptPartOccurs(s, t, r, i);
    CutTailIsSpace(s, t, r, i);
  }

  lemma KeptPartOccurs(s: string, t: string, r: string, i: int)
    requires 0 <= i <= |s| && t == s[i..] && |r| <= |t| && r == t[..|r|]
    ensures OccursAt(s, r, i)
  {
    assert s[i..i + |r|] == t[..|r|];
  }

  lemma CutTailIsSpace(s: string, t: string, r: string, i: int)
    requires 0 <= i <= |s| && t == s[i..] && |r| <= |t|
    requires forall k :: |r| <= k < |t| ==> IsSpace(t[k])
    ensures forall j :: i + |r| <= j < |s| ==> IsSpace(s[j])
  {
    forall j | i + |r| <= j < |s| ensures IsSpace(s[j]) {
      assert s[j] == t[j - i];
    }
  }

  /** A string with no whitespace at its ends is left as it is. */
  lemma {:induction false} StripTrimmed(s: string)
    requires Trimmed(s)
    ensures Strip(s) == s
  {
    if s != [] {
      assert TrimStart(s) == s;
      assert TrimEnd(s) == s;
    }
  }

  /** Stripping twice is stripping once. */
  lemma StripIdempotent(s: string)
    ensures Strip(Strip(s)) == Strip(s)
  {
    StripRemovesPadding(s);
    StripTrimmed(Strip(s));
  }

  /** JavaScript's `s.replace(t, rep)` with a string pattern: only the first
      occurrence of `t` is replaced. */
  function ReplaceFirst(s: string, t: string, rep: string): (r: string)
    ensures IndexOf(s, t).None? ==> r == s
    ensures IndexOf(s, t).Some? ==>
      var i := IndexOf(s, t).value;
      OccursAt(s, t, i) && r == s[..i] + rep + s[i + |t|..]
  {
    match IndexOf(s, t)
    case None => s
    case Some(i) => s[..i] + rep + s[i + |t|..]
  }
}
